=== FILE: README.md ===
# rustydialogs, modelled in Dafny

rustydialogs shows native dialogs from Rust: message boxes, file open, save and
folder dialogs, text input, a colour picker and notification popups. Every
dialog is a plain request value (`MessageBox`, `FileDialog`, `TextInput`, ...)
that each platform backend turns into a foreign call and whose answer it reads
back. This project models those backends as pure functions from the request
(and the answer the outside world gives) to the arguments passed and the result
returned, and proves what the backends promise about them.

- **Linux selection** (`LinuxBackend`): the `RUSTY_DIALOGS_BACKEND` override,
  the desktop-based preference between kdialog and zenity, the `which` probe,
  the lazily initialised `BACKEND`, and the exit-status panic messages.
- **Linux helper programs** (`Helpers`, `Zenity`, `KDialog`): the command lines
  each dialog builds, the exit-code and stdout conventions it reads back, the
  filter strings, the hex and `rgb(...)` colour parsers and the notification
  timeout rounding.
- **GTK** (`Gtk`): the helpers shared by the GTK3 and GTK4 backends: the C
  string sanitiser, the initial path and the file lists collected from GLib.
- **macOS** (`MacOs`): the osascript arguments, the output trimming, the button
  captions, the initial directory and default name, and the 16-bit colour round
  trip.
- **Win32** (`Win32Message`, `Win32Color`, `Win32Notify`, `Win32File`,
  `FileBuffer`, `DialogTemplate`, `InputControls`, `InputSession`, `Win32Input`,
  `WindowsInput`): the message box style word and the button ID mapping; the
  `COLORREF` packing; the HTA page of the notification popup; the file dialog
  buffers and filter spec; the in-memory `DLGTEMPLATE` the text input dialogs
  are built from (with a parser that reads it back); and the dialog procedure
  of both text input dialogs.
- **Shared** (`Base`, `Dialogs`, `Utils`, `Text`, `RustInt`, `Utf16`, `Paths`):
  the public request types of `src/lib.rs`, `PrintJoin`, and the parts of the
  Rust standard library the backends rely on: `trim`, `split`, integer
  parsing and formatting, UTF-16, and `Path::join`, `parent` and `file_name`.

Foreign calls (spawning a helper, `GetOpenFileNameW`, `ChooseColorW`,
`MessageBoxW`, `DialogBoxIndirectParamW`, GTK) are parameters. A parameter
stands for whatever the call returned: an exit code and stdout, a filled
buffer, a button ID, or a run of window messages. A panic is modelled as an
`Outcome` whose `Panic` case carries the message.

## Model

| member | source | states |
|---|---|---|
| Utils.PrintJoinFmt | src/utils.rs:7-19 | The output is the reference join: every part once, in order, with the separator only between neighbours. No parts give nothing and one part gives that part. |
| Utils.JoinAppend | src/utils.rs:9-16 | Cutting the part list anywhere, the output is the two halves' outputs with exactly one separator between them: no separator is doubled, dropped, leading or trailing. |
| Utils.JoinLength | src/utils.rs:9-16 | The output is as long as all parts together plus one separator per gap between parts. |
| Utils.JoinEnds | src/utils.rs:9-16 | The output starts with the first part and ends with the last one. |
| Utils.JoinNoChar | src/utils.rs:9-16 | A character found in neither the parts nor the separator is not in the output. |
| Text.Trim | src/linux/zenity.rs:269 | `str::trim` removes only leading and trailing white space. The result is a slice of the input with only white space before and after it. It starts and ends with a non-space, and text already like that is unchanged. |
| Text.TrimKeeps | src/linux/zenity.rs:269 | Trimming keeps only characters of the input. |
| Text.TrimIdempotent | src/linux/zenity.rs:269 | Trimming twice is the same as trimming once. |
| Text.Split | src/linux/zenity.rs:272 | `split(',')` gives at least one piece, no piece holds the separator, and joining the pieces with it gives back the input. |
| Text.SplitConcat | src/linux/zenity.rs:272 | Splitting `a + sep + b` splits `a` and `b` independently. |
| Text.SplitJoin | src/linux/zenity.rs:272 | Splitting inverts joining when no part holds the separator. |
| Text.StripPrefix | src/linux/zenity.rs:271 | `strip_prefix` succeeds exactly when the prefix is there, and prefix plus rest is the input. |
| Text.StripSuffix | src/linux/zenity.rs:271 | `strip_suffix` succeeds exactly when the suffix is there, and rest plus suffix is the input. |
| Text.ReplaceChar | src/win32/notify.rs:16-18 | `replace(c, rep)` removes every `c` when `rep` has none. Text without `c` is unchanged, and nothing appears that was in neither the text nor `rep`. |
| Text.NonEmpty | src/linux/zenity.rs:102-103 | The `filter(!is_empty)` step keeps exactly the non-empty pieces, in order, and drops nothing when none is empty. |
| RustInt.ParseUnsigned | src/linux/zenity.rs:290-292 | `from_str_radix` and `parse` for an unsigned type succeed exactly on an optional `+` followed by at least one digit of the radix whose value fits the type, and return that value. |
| RustInt.CheckedDigitsSpec | src/linux/zenity.rs:290-292 | The digit loop, which stops at the first bad digit or overflow, accepts exactly the digit strings whose final value fits and returns that value. |
| RustInt.ParseSignExamples | src/linux/zenity.rs:290 | A leading `+` is accepted (`"+F"` is 15), a lone `+` and a minus sign are not. |
| RustInt.ParseHexExample | src/linux/zenity.rs:290 | Lower-case hex digits are accepted: `"ff"` is 255. |
| RustInt.ParseOverflowExample | src/linux/zenity.rs:273 | A value past the type's maximum is rejected: `"256"` is not a `u8`. |
| RustInt.ParseLeadingZerosExample | src/linux/zenity.rs:273 | Leading zeros are accepted: `"00255"` is 255. |
| RustInt.Hex2 | src/linux/zenity.rs:264-266 | `{:02X}` writes exactly two hex digits whose value is the byte. |
| RustInt.HexRoundTrip | src/linux/zenity.rs:264-292 | Parsing a byte's `{:02X}` form as hex gives the byte back. |
| RustInt.Decimal | src/macos/mod.rs:228-230 | `to_string` of a non-negative integer is a non-empty run of decimal digits whose value is the integer. |
| RustInt.DecimalRoundTrip | src/macos/mod.rs:228-306 | Parsing the decimal form of any value that fits the type gives the value back. |
| RustInt.DecimalInjective | src/macos/mod.rs:228-230 | Distinct values have distinct decimal forms. |
| RustInt.SignedDecimal | src/win32/notify.rs:26-29 | The decimal form of a signed integer starts with `-` exactly when the integer is negative. |
| RustInt.SignedDecimalInjective | src/win32/notify.rs:26-29 | Distinct signed values have distinct decimal forms. |
| Utf16.Encode | src/win32/mod.rs:11-13 | `encode_utf16` gives at least one unit per character, and has a zero unit exactly when the text has a NUL. |
| Utf16.NullTerminated | src/win32/mod.rs:11-13 | `utf16_null_terminated` ends in one zero unit, and for NUL-free text there is no zero unit before it. |
| Utf16.DecodeEncode | src/win32/mod.rs:11-13 | Lossy decoding gives back exactly the text that was encoded. |
| Utf16.EncodeAppend | src/win32/mod.rs:11-13 | Encoding distributes over concatenation. |
| Paths.UnixJoin | src/linux/zenity.rs:161 | `Path::join` on Unix ends with the joined path. An absolute second path replaces the first; otherwise the first path is kept and at most one `/` is inserted. |
| Paths.Parent | src/macos/mod.rs:299 | `Path::parent` is a strict prefix of the path. |
| Paths.FileName | src/macos/mod.rs:134 | `Path::file_name` is a non-empty name without `/` that is neither `.` nor `..`. |
| Paths.ParentFileNameOfJoin | src/macos/mod.rs:294-300 | For a directory and a plain name, the parent of their join is the directory and its file name is the name. |
| Paths.JoinParts | src/macos/mod.rs:294-300 | The parent of `dir/name` is `dir` without its trailing empty and `.` components, and its file name is `name`. |
| Paths.CurDirIgnored | src/macos/mod.rs:134 | A trailing `.` component is ignored: `p/.` has the parent and the file name of `p`, as Rust's component iterator skips it. |
| Paths.TrailingCurDirExample | src/macos/mod.rs:134 | `file_name("a/.")` is `a`. |
| Paths.InteriorCurDirExample | src/macos/mod.rs:299 | `parent("a/./b")` is `a`: an interior `.` component is skipped. |
| Paths.WinJoin | src/win32/file.rs:99 | `Path::join` on Windows ends with the joined path. A path with a prefix replaces the first; a relative one keeps the first path in front. A prefix is a drive, or two separators (`\` or `/`) followed by a verbatim or device marker or by a non-empty server and share. |
| Paths.UncPathReplaces | src/win32/file.rs:99 | Two separators, a server, a separator and a share form a UNC prefix whichever separators are used, so the joined path is the second one. |
| Paths.BareServerRooted | src/win32/file.rs:99 | Two separators and a server without a share are no prefix: the path counts as rooted and keeps only the first path's drive. |
| Paths.ForwardSlashUncExample | src/win32/file.rs:99 | `C:\d` joined with `//srv/share/x` gives `//srv/share/x`. |
| Paths.BareServerExample | src/win32/file.rs:99 | `C:\d` joined with `\\srv` gives `C:\\srv`. |
| Dialogs.Affirmative | src/lib.rs:21-43 | The accepting button of a set is one of its buttons, OK or Yes. |
| Dialogs.FromLabel | src/linux/zenity.rs:56-61 | Reading a caption back is the inverse of writing it: a caption names exactly one result. |
| LinuxBackend.Resolve | src/linux/mod.rs:22-86 | The override picks kdialog or zenity, or GTK3 in a GTK3 build. Any other override panics with the value in the message. Without an override a GTK3 build uses GTK3; otherwise the first installed helper in preference order is used, and it panics exactly when neither is installed. |
| LinuxBackend.Preference | src/linux/mod.rs:55-72 | Both helpers are tried once each. kdialog comes first exactly for a KDE or Plasma hint that is not also a GNOME hint, or for no hint and no GNOME session id. |
| LinuxBackend.DesktopHint | src/linux/mod.rs:55 | The hint is XDG_CURRENT_DESKTOP when set, otherwise DESKTOP_SESSION. There is a hint exactly when the chosen variable is set and valid UTF-8; an invalid XDG_CURRENT_DESKTOP does not fall back. |
| LinuxBackend.FirstAvailable | src/linux/mod.rs:75-84 | The result is installed, and every helper preferred before it is not. There is no result exactly when none is installed. |
| LinuxBackend.InvalidOverrideNeverDetects | src/linux/mod.rs:36-44 | An unknown override panics whatever programs are installed: there is no fall-through to detection. |
| LinuxBackend.InvalidOverrideQuoted | src/linux/mod.rs:42 | An override of `foo` panics with `Invalid RUSTY_DIALOGS_BACKEND value: "foo"`: the value is shown in its `Debug` form, between double quotes. |
| LinuxBackend.UnescapeEscapeAll | src/linux/mod.rs:42 | The `Debug` escaping loses nothing: the escaped text reads back as the value. |
| LinuxBackend.Force | src/linux/mod.rs:22 | The first access to `BACKEND` runs the initialiser and stores its value, or poisons the lock on panic. Later accesses return what is stored. |
| LinuxBackend.RunUsesFirstResolution | src/linux/mod.rs:89-159 | Every dialog call is served by the backend the first call resolved, even if the environment or the installed programs change later. Once the first call panicked, every later call panics. |
| LinuxBackend.ExitStatusMessage | src/linux/mod.rs:193-199 | No exit code gives "terminated without an exit code"; a code gives the "terminated with exit code: " message. |
| LinuxBackend.ExitStatusMessageInjective | src/linux/mod.rs:193-199 | Different exit statuses give different panic messages. |
| Helpers.FilePath | src/linux/zenity.rs:159-167 | The initial path is the documented one: directory joined with file name when both are given, otherwise whichever is given, and `.` for neither. |
| Helpers.FolderPath | src/linux/zenity.rs:138 | The folder argument is the directory, or `.` when none is given. |
| Helpers.OutputLines | src/linux/zenity.rs:102-105 | Every path read from multi-file output is non-empty and has no newline. |
| Helpers.OutputLinesOfJoin | src/linux/zenity.rs:102-105 | Paths printed one per line, with or without a final newline, are read back exactly and in order. |
| Helpers.OutputLinesExample | src/linux/zenity.rs:102-105 | `"/a/b.txt\n/a/c.txt\n"` reads as the two paths. |
| Helpers.OutputLinesBlank | src/linux/zenity.rs:102-105 | Empty output and blank lines give no paths. |
| Helpers.FirstLine | src/linux/zenity.rs:131-134 | Single-path output is the first non-empty line, which is the first path multi-file framing would give. There is none exactly when there are no paths. |
| Helpers.PickFilesAsWritten | src/linux/zenity.rs:97-105 | As written, any exit code other than 0 is a cancel, and exit 0 gives the list of non-empty lines, even an empty one. |
| Helpers.PickFilesAsWrittenEmpty | src/linux/zenity.rs:97-105 | Exit 0 with empty stdout gives `Some([])` as written. |
| Helpers.PickFiles | src/linux/zenity.rs:97-105 | As intended, there is a result exactly on exit 0 with at least one path, and it is then the as-written result. |
| Helpers.PickFilesReadsPaths | src/linux/zenity.rs:97-105 | Paths printed one per line come back in order. |
| Helpers.SinglePath | src/linux/zenity.rs:126-134 | Save and folder dialogs return a path exactly on exit 0 with a non-empty line, and the path has no newline. |
| Helpers.PickFile | src/linux/zenity.rs:67-69 | The first path of the multi-file result is the single-path result. |
| Helpers.CeilSeconds | src/linux/zenity.rs:332 | `div_ceil(1000)` is the smallest number of whole seconds covering the milliseconds. |
| Helpers.FormatColor | src/linux/zenity.rs:264-266 | The colour argument is `#` followed by six characters. |
| Helpers.ParseHex | src/linux/zenity.rs:282-297 | The hex branch accepts, after an optional `#`, ASCII text of 6 or 8 bytes whose 2-character fields parse as hex bytes. It returns the first three; the alpha pair is checked and ignored. |
| Helpers.HexColorRoundTrip | src/linux/zenity.rs:264-297 | The colour written for the picker reads back unchanged, with or without an alpha pair. |
| Helpers.ParseHexSignedFields | src/linux/zenity.rs:290-292 | Because `from_str_radix` accepts a `+`, `"#+F+F+F"` is read as (15, 15, 15). |
| Helpers.ParseHexRejects | src/linux/zenity.rs:283-288 | Three-digit shorthand, odd lengths and non-ASCII text are rejected. |
| Helpers.Utf8Len | src/linux/zenity.rs:283 | `len()` counts UTF-8 bytes: at least one per character, exactly one for ASCII. |
| Zenity.MessageArgs | src/linux/zenity.rs:10-49 | Title and text come first, then the icon's flag, then the button arguments, whose captions are the members of the set (`Zenity.ButtonsCoverMembers`). |
| Zenity.ButtonsCoverMembers | src/linux/zenity.rs:24-49 | The relabelled OK button carries the accepting caption and every other button is an extra button. Every caption reads back to a button of the set, and every button of the set is shown. |
| Zenity.MessageResultAsWritten | src/linux/zenity.rs:51-62 | As written, exit codes other than 0 and 1 panic. Otherwise there is always a result: a known caption is its button, and any other trimmed output, empty included, counts as OK. |
| Zenity.MessageResultAsWrittenMisreads | src/linux/zenity.rs:56-62 | Yes pressed in a Yes/No box reads as OK, which is outside the set, and a closed window reads as OK instead of no result. |
| Zenity.ReadMessageResult | src/linux/zenity.rs:51-62 | As intended, exit 0 is the accepting button; exit 1 with a caption of the set is that button; exit 1 with no output is no result; a result is always a button of the set. |
| Zenity.ExtraButtonsReadBack | src/linux/zenity.rs:56-60 | Every button of the set, its caption printed, is read back as itself. |
| Zenity.FilterEntries | src/linux/zenity.rs:172-174 | Each filter gives `desc \| patterns` with the patterns joined by spaces, in order. |
| Zenity.FilterStrings | src/linux/zenity.rs:169-178 | The filters' `desc \| patterns` entries, in the given order, then the catch-all entry. |
| Zenity.FilterEntryReadBack | src/linux/zenity.rs:173 | A filter's entry gives back its description and, split at spaces, its patterns. |
| Zenity.FilterArgsAt | src/linux/zenity.rs:92-95 | Each filter entry is passed right after its own `--file-filter` flag. |
| Zenity.PickArgsShape | src/linux/zenity.rs:75-95 | Multi-selection only inserts the separator arguments after the initial path, and the filter arguments follow. |
| Zenity.SaveArgs | src/linux/zenity.rs:108-124 | The save dialog passes the initial path, then the filter arguments. |
| Zenity.FolderArgs | src/linux/zenity.rs:137-146 | The folder dialog passes the folder path last. |
| Zenity.TextInputArgs | src/linux/zenity.rs:182-233 | Single-line passes the title, the message and then the initial value. Multi-line passes `--editable`, the title and the temporary file path, but not the message. The password dialog gets title and message and never the initial value. |
| Zenity.TextInputResult | src/linux/zenity.rs:200-232 | Stdout comes back unchanged exactly on exit 0, and in multi-line mode only when the temporary file was written. |
| Zenity.ColorArgs | src/linux/zenity.rs:244-252 | The picker is seeded with the formatted initial colour. |
| Zenity.ParseRgb | src/linux/zenity.rs:271-280 | The `rgb(...)` body is accepted exactly when it has three comma-separated fields that each trim to a decimal `u8`, and those are the channels. |
| Zenity.ParseColor | src/linux/zenity.rs:268-298 | Trimmed text not of the `rgb(` form goes to the hex branch. |
| Zenity.ParseColorOfWrapped | src/linux/zenity.rs:271 | Text wrapped in `rgb(` and `)` is read by the `rgb` branch, whatever is inside. |
| Zenity.ParseColorOfRgb | src/linux/zenity.rs:271-280 | zenity's `rgb(r,g,b)` output, with or without spaces after the commas, reads back as the colour. |
| Zenity.ParseColorOfFormat | src/linux/zenity.rs:264-298 | The colour the picker is seeded with reads back unchanged. |
| Zenity.ColorResult | src/linux/zenity.rs:253-261 | A non-zero exit is a cancel. Exit 0 gives the parsed colour, and output that does not parse panics with the output in the message. |
| Zenity.TimeoutSeconds | src/linux/zenity.rs:328-333 | No timeout for a non-positive value; otherwise the whole seconds that cover it. |
| Zenity.TimeoutExamples | src/linux/zenity.rs:328-333 | 2500 ms gives 3 s, 1000 ms 1 s, 1 ms 1 s; 0 and negative values give none. |
| Zenity.NotifyArgs | src/linux/zenity.rs:302-326 | Title and message go on two lines. The timeout argument is present exactly when the popup closes by itself, and carries the rounded-up seconds. |
| KDialog.Kind | src/linux/kdialog.rs:10-20 | A lone OK button gives `--msgbox` for Info and Question, `--sorry` for Warning and `--error` for Error. OK/Cancel and Yes/No give `--yesno`, or `--warningyesno` for a severe icon. Yes/No/Cancel gives `--yesnocancel` or `--warningyesnocancel`. The warning prefix appears exactly for a severe icon, and the cancel suffix exactly for Yes/No/Cancel. |
| KDialog.YesNoLabels | src/linux/kdialog.rs:22-27 | The yes caption is the accepting button's. The no caption is another button of the set, except for the OK box. |
| KDialog.CodesEnumerateMembers | src/linux/kdialog.rs:29-34 | The code table lists each button of the set exactly once, with the accepting button at code 0. |
| KDialog.MessageArgs | src/linux/kdialog.rs:36-41 | The kind comes first and the message second. The yes and no labels of the set follow their `--yes-label` and `--no-label` flags, and the title comes last. |
| KDialog.ReadMessageResult | src/linux/kdialog.rs:43-46 | No exit code panics. Code 0 is the accepting button; code 1 is Cancel for OK/Cancel and No for the Yes/No sets; code 2 is Cancel for Yes/No/Cancel. Any other code gives no result. |
| KDialog.EveryMemberReachable | src/linux/kdialog.rs:29-46 | Every button of the set is reported by some exit code below 3. |
| KDialog.FilterString | src/linux/kdialog.rs:128-137 | The filter string always ends with the catch-all, and is only the catch-all without filters. |
| KDialog.FilterStringSplit | src/linux/kdialog.rs:128-137 | Split at newlines, the filter string is one `desc (patterns)` line per filter, in order, then the catch-all. |
| KDialog.PickArgs | src/linux/kdialog.rs:59-68 | The open dialog passes the initial path and the filter string. Multi-selection adds `--multiple --separate-output`. |
| KDialog.PickArgsPrefix | src/linux/kdialog.rs:68 | The single-selection arguments are the multi-selection ones without the last two. |
| KDialog.SaveArgs | src/linux/kdialog.rs:80-87 | The save dialog passes the initial path and the filter string. |
| KDialog.FolderArgs | src/linux/kdialog.rs:100-105 | The folder dialog passes the folder path last. |
| KDialog.TextInputArgs | src/linux/kdialog.rs:141-146 | Single-line gives an `--inputbox` and multi-line a `--textinputbox`, each with the message, the initial value and then the title. The password box gets message and title but not the initial value. |
| KDialog.TextInputResult | src/linux/kdialog.rs:147-152 | Stdout comes back unchanged exactly on exit 0. |
| KDialog.ColorArgs | src/linux/kdialog.rs:157-159 | The picker is seeded with the formatted initial colour. |
| KDialog.ParseColor | src/linux/kdialog.rs:173-191 | Only the hex form is accepted, after trimming. |
| KDialog.ParseColorOfFormat | src/linux/kdialog.rs:169-191 | The seeded colour reads back unchanged, also followed by kdialog's newline. |
| KDialog.ParseColorAgreesOnHex | src/linux/kdialog.rs:173-191 | On text that is not `rgb(...)`, kdialog and zenity parse to the same colour. |
| KDialog.ColorResult | src/linux/kdialog.rs:157-167 | A non-zero exit is a cancel. Exit 0 gives the parsed colour, and output that does not parse panics with the output in the message. |
| KDialog.TimeoutSeconds | src/linux/kdialog.rs:214-222 | A non-positive timeout becomes `i32::MAX` seconds; a positive one is rounded up to whole seconds. |
| KDialog.TimeoutAgreesWithZenity | src/linux/kdialog.rs:214-222 | For a popup that closes by itself both helpers get the same number of seconds. |
| KDialog.NotifyArgs | src/linux/kdialog.rs:195-212 | The popup passes the icon, the message and the timeout in seconds. |
| Gtk.CString | src/linux/gtk3/mod.rs:60-62 | The C string has no NUL and the same length: each NUL becomes a space and everything else is kept. |
| Gtk.FilePath | src/linux/gtk3/mod.rs:100-107 | The initial path is the documented one, and there is none exactly when neither part is given. |
| Gtk.FilePathAgreesWithHelpers | src/linux/gtk3/mod.rs:100-107 | The GTK initial path agrees with the helper programs' path, except that GTK passes none where they pass `.`. |
| Gtk.PresentMembers | src/linux/gtk3/mod.rs:84-98 | A path is collected exactly when some node of the list carries it. |
| Gtk.CollectFileList | src/linux/gtk3/mod.rs:84-98 | The list walk collects the file names of the non-null nodes, in order, and all of them when none is null. |
| Gtk.CollectFileModel | src/linux/gtk4/mod.rs:83-100 | A null model gives nothing; otherwise the local path of every item that has one, in model order. |
| MacOs.StripLineBreaks | src/macos/mod.rs:278-280 | Only trailing `\n` and `\r` are removed: the result is a prefix that does not end in one, and everything cut was one. |
| MacOs.StripLineBreaksOfAppended | src/macos/mod.rs:278-280 | Text not ending in a line break comes back unchanged after any run of line breaks is appended. |
| MacOs.InvokeOutput | src/macos/mod.rs:264-282 | A failing script gives no result, which is also how Cancel surfaces. Otherwise stdout comes back with only its trailing line breaks removed. |
| MacOs.ButtonArgsMatchSet | src/macos/mod.rs:13-18 | The button text lists each button of the set once, joined by `\|\|`. The default button is the accepting one, and a cancel button is named exactly when the set has Cancel. |
| MacOs.MessageArgs | src/macos/mod.rs:48 | The script gets title, message, the icon name, then the button text, the default button and the cancel button of the set (`MacOs.ButtonArgsMatchSet`). |
| MacOs.ReadButton | src/macos/mod.rs:50-56 | Only an exact caption is recognised as a button; a failed script gives no result. |
| MacOs.ReadButtonOfPressed | src/macos/mod.rs:44-56 | Any button of the set, printed with the script's newline, is read back as itself. |
| MacOs.InitialDirectory | src/macos/mod.rs:294-300 | The directory when given, otherwise the parent of the file name, otherwise none. |
| MacOs.DefaultName | src/macos/mod.rs:133-136 | The default name is "" or a plain last component without `/`. |
| MacOs.SaveArgsOfJoinedPath | src/macos/mod.rs:129-136 | A file name given as `dir/name` opens the save dialog in `dir` with `name` offered. |
| MacOs.PickArgs | src/macos/mod.rs:67-112 | The open dialog gets the title and the initial directory, or "" for none. |
| MacOs.SaveArgs | src/macos/mod.rs:129-162 | The save dialog also gets the default name. |
| MacOs.FolderArgs | src/macos/mod.rs:173-193 | The folder dialog gets the directory, or "" for none. |
| MacOs.PathLines | src/macos/mod.rs:114-119 | Every path line is non-empty, trimmed and free of newlines. |
| MacOs.PickFiles | src/macos/mod.rs:112-126 | The paths are the output's path lines, and an empty selection is no result. |
| MacOs.PickFile | src/macos/mod.rs:59-61 | The single pick is the first path line, when there is one. |
| MacOs.PickFilesReadsPaths | src/macos/mod.rs:98-126 | Paths the script prints one per line come back exactly, in order. |
| MacOs.SinglePath | src/macos/mod.rs:162-170 | Save and folder dialogs give the trimmed output, and no result when it is empty. |
| MacOs.TextInputArgs | src/macos/mod.rs:204-224 | The script gets title, message and the initial value in that order, so the value is always passed. The answer is hidden exactly in password mode. |
| MacOs.Widen | src/macos/mod.rs:228-230 | A channel times 257 fits 16 bits and divides back to the channel. |
| MacOs.ColorArgs | src/macos/mod.rs:227-247 | The picker gets the title and the three widened channels in decimal. |
| MacOs.Narrow | src/macos/mod.rs:313-315 | Dividing by 257 gives the 8-bit channel whose widened range holds the value. |
| MacOs.ParseColor | src/macos/mod.rs:302-317 | The output is accepted exactly when it has three comma-separated fields that each trim to a decimal `u16`, and those narrowed are the channels. |
| MacOs.ParseColorOfWidened | src/macos/mod.rs:302-317 | The seeded colour, returned unchanged in the 16-bit range, reads back as the same colour. |
| MacOs.WidenedFieldReadsBack | src/macos/mod.rs:228-315 | A widened channel's numeral parses back to the widened value, which narrows to the channel. |
| MacOs.NotifyArgs | src/macos/mod.rs:251-261 | The notification passes only title and message. |
| Win32Message.IconFlag | src/win32/message.rs:12-17 | Each icon's flag is non-zero and lies in the icon bits. |
| Win32Message.ButtonFlag | src/win32/message.rs:18-23 | Each button set's flag lies in the button-type bits. |
| Win32Message.Style | src/win32/message.rs:12-32 | The combined style word carries the button flag in the type bits and the icon flag in the icon bits. |
| Win32Message.StyleDecodes | src/win32/message.rs:12-32 | The dialog reads back from the style word exactly the buttons and icon requested. |
| Win32Message.StyleInjective | src/win32/message.rs:12-32 | Distinct requests give distinct style words. |
| Win32Message.DefaultSelection | src/win32/message.rs:43-50 | The default is a button of the set and the rejective one: Cancel where there is one, otherwise No, and OK only for the OK box. |
| Win32Message.ResultOfId | src/win32/message.rs:34-40 | Each button ID gives its button, and any other value gives the default selection, so there is always a result. |
| Win32Message.ResultInMembers | src/win32/message.rs:34-50 | For the ID of a button shown, or no button ID at all, the result is a button of the set. |
| Win32Message.EveryMemberReachable | src/win32/message.rs:34-40 | Every button of every set can be reported. |
| Win32Message.Request | src/win32/message.rs:25-32 | Text and caption are null-terminated UTF-16 that decode back to the message and the title, and the style decodes to the requested buttons and icon. |
| Win32Message.Show | src/win32/message.rs:9-41 | There is always a result: the button whose ID the box returned, or the default selection. |
| Win32Message.CloseGivesRejective | src/lib.rs:67-69 | Closing a box with a Cancel button gives the rejective button, as documented for Windows. |
| Win32Color.ColorValueToColorref | src/win32/color.rs:25-27 | The packed word is below 2^24 with red in bits 0-7, green in bits 8-15 and blue in bits 16-23. |
| Win32Color.PackBits | src/win32/color.rs:25-27 | The source's shift-and-or on bytes equals the sum of the shifted bytes. |
| Win32Color.ColorrefToColorValue | src/win32/color.rs:29-35 | The channels read back pack to the word's low 24 bits. |
| Win32Color.UnpackBits | src/win32/color.rs:29-35 | The source's shift-and-mask reads are division and remainder by powers of 256. |
| Win32Color.ColorRoundTrip | src/win32/color.rs:25-35 | Unpacking undoes packing for every colour. |
| Win32Color.ColorrefRoundTrip | src/win32/color.rs:25-35 | Packing undoes unpacking for every word with nothing above bit 23. |
| Win32Color.HighBitsIgnored | src/win32/color.rs:29-35 | Bits above bit 23 do not change the colour read back. |
| Win32Color.ColorPicker | src/win32/color.rs:7-23 | A result exists exactly when the dialog returned one, and it is the unpacked chosen word. |
| Win32Color.ColorPickerKeepsInitial | src/win32/color.rs:7-23 | Accepting the dialog without a change gives back the initial colour. |
| Win32Notify.HtmlEscape | src/win32/notify.rs:74-87 | The loop writes the reference escape: each character's escape, in order. |
| Win32Notify.EscapeAllSnoc | src/win32/notify.rs:76-85 | Escaping one more character appends that character's escape. |
| Win32Notify.NoRawSpecials | src/win32/notify.rs:74-87 | No raw `<`, `>`, `"` or `'` survives escaping. |
| Win32Notify.PlainUnchanged | src/win32/notify.rs:74-87 | Text without special characters is left as it is. |
| Win32Notify.DecodeEscape | src/win32/notify.rs:74-87 | Escaping loses nothing: the entities read back as the original text. |
| Win32Notify.MessageMarkup | src/win32/notify.rs:16-18 | After the rewrite no raw newline or tab is left. |
| Win32Notify.MarkupOfEscape | src/win32/notify.rs:15-18 | Escaping then rewriting the message maps every character to its page form independently. |
| Win32Notify.DecodeBody | src/win32/notify.rs:15-18 | The page form loses nothing: newlines and tabs come back from `<br>` and the non-breaking-space runs. |
| Win32Notify.MessageRoundTrip | src/win32/notify.rs:15-18 | The rewritten message has no raw newline or tab and reads back as the original message. |
| Win32Notify.IconLabel | src/win32/notify.rs:19-24 | The icon label needs no escaping. |
| Win32Notify.IconLabelInjective | src/win32/notify.rs:19-24 | Every icon has its own label. |
| Win32Notify.CloseScript | src/win32/notify.rs:25-32 | The close script is present exactly when the timeout is positive. |
| Win32Notify.CloseScriptTimeout | src/win32/notify.rs:25-32 | The script carries the timeout itself, as a decimal that parses back to it. |
| Win32Notify.TitleReadBack | src/win32/notify.rs:34-63 | The title element holds exactly the escaped title, ending at the template's own `</title>`, and it reads back as the title. |
| Win32Notify.MessageReadBack | src/win32/notify.rs:34-63 | The page ends with the rewritten message and the fixed closing tags, and the message reads back unchanged. |
| Win32Notify.TempFileName | src/win32/notify.rs:9-13 | The file name starts with `rustydialogs-notify-` and ends with `.hta`. |
| Win32Notify.TempFileNameInjective | src/win32/notify.rs:9-13 | Distinct process IDs or times give distinct file names. |
| Win32Notify.NotifyPopup | src/win32/notify.rs:7-72 | The page goes to the temporary directory joined with the temporary name, and is the page of the request. `mshta.exe` is started on that path exactly when the page was written. |
| FileBuffer.FirstZeroFirst | src/win32/file.rs:122 | `position` finds the first zero: none before it, and none at all when it finds nothing. |
| FileBuffer.WideToStringUntilNul | src/win32/file.rs:121-127 | A path exists exactly when the buffer has a zero unit and does not start with one, and it is the decoded text before the first zero. |
| FileBuffer.ParseSegments | src/win32/file.rs:130-144 | The splitting loop yields the reference segments: the NUL-terminated runs up to the first empty one. |
| FileBuffer.JoinSegments | src/win32/file.rs:146-158 | No segment gives no path and one segment is a path. More are a directory followed by names, each joined to the directory, in order. |
| FileBuffer.SegmentsOfPacked | src/win32/file.rs:130-144 | Non-empty NUL-free segments, each terminated, are read back as themselves before whatever follows. |
| FileBuffer.ParsePacked | src/win32/file.rs:129-159 | A multi-selection buffer decodes to the names joined to the directory, in order, and a lone path decodes to itself. |
| FileBuffer.ParseFirstTwo | src/win32/file.rs:129-159 | Two or more segments make the first path the first segment joined with the second, whatever follows. |
| FileBuffer.ReadsBackWritten | src/win32/file.rs:121-127 | A NUL-free path written into a buffer and terminated reads back as the path. |
| Win32File.FlagSelection | src/win32/file.rs:33-65 | Multi-selection is allowed only for picking several files. Opening requires an existing file and saving prompts before overwriting; both share the Explorer, no-change-directory and path-must-exist flags. |
| Win32File.DefaultIsInitialPath | src/win32/file.rs:96-105 | The initial path is the documented one once empty paths count as absent, and it is never the empty path. |
| Win32File.InitialFileBuffer | src/win32/file.rs:80-94 | The buffer always has 16384 units, and is all zeros without a non-empty path. |
| Win32File.InitialBufferFits | src/win32/file.rs:80-94 | A path that fits is copied whole and the rest of the buffer stays zero. |
| Win32File.InitialBufferTruncates | src/win32/file.rs:90-92 | A path too long for the buffer fills it and leaves no terminator in it. |
| Win32File.BuildWindowsFilter | src/win32/file.rs:107-119 | No spec for a missing or empty filter list; otherwise the encoding of the spec text. |
| Win32File.FieldsAt | src/win32/file.rs:114-116 | Field 2i is filter i's description, field 2i+1 its patterns joined with `;`. |
| Win32File.FilterSpecJoin | src/win32/file.rs:113-117 | The spec is the filters' descriptions and patterns in order, then "All Files", "*.*" and the closing double NUL, all separated by NULs. |
| Win32File.RequestFor | src/win32/file.rs:49-56 | The dialog is given the whole 16384-unit buffer and told its size. |
| Win32File.PickFilesImpl | src/win32/file.rs:67-77 | A result exists exactly when the dialog returned TRUE and the buffer parses to at least one path, and it is that parse. |
| Win32File.PickFile | src/win32/file.rs:10-13 | As written, the single pick is the first path of the whole buffer's parse. |
| Win32File.SaveFile | src/win32/file.rs:35-40 | A cancelled save gives nothing; otherwise the text before the first NUL. |
| Win32File.CancelAndEmpty | src/win32/file.rs:67-77 | A cancelled dialog gives nothing, and a pick is never an empty list. |
| Win32File.PickFilesReads | src/win32/file.rs:67-77 | A multi-selection comes back as the names joined to the directory, in the order listed. |
| Win32File.SaveUnchanged | src/win32/file.rs:19-40 | A save dialog confirmed without edits returns the initial path, when it fits the buffer. |
| Win32File.PickFileLeftover | src/win32/file.rs:10-13 | As written, a selection shorter than the initial path is joined with the rest of the initial path left after the new terminator. |
| Win32File.PickFileLeftoverExample | src/win32/file.rs:10-13 | With initial file "abc" and "x" picked, the as-written pick answers `x\c` instead of `x`. |
| Win32File.PickFileSingle | src/win32/file.rs:10-13 | As intended, a cancelled pick gives nothing. |
| Win32File.PickFileSingleReads | src/win32/file.rs:10-13 | As intended, whatever the buffer held before, the pick returns exactly the selected path. |
| DialogTemplate.AlignDword | src/win32/input.rs:213-217 | The loop pads to the next multiple of four with zeros only, keeps the data as a prefix and adds fewer than four bytes. |
| DialogTemplate.U16Bytes | src/win32/input.rs:219-221 | `push_u16`'s two bytes read back as the value. |
| DialogTemplate.U32Bytes | src/win32/input.rs:227-229 | `push_u32`'s four bytes read back as the value. |
| DialogTemplate.I16Bits | src/win32/input.rs:223-225 | `push_i16` writes the two's complement pattern, which reads back as the value. |
| DialogTemplate.PushUtf16zAppends | src/win32/input.rs:231-243 | Whichever branch it takes, `push_utf16z` appends the string's units followed by exactly one terminator. |
| DialogTemplate.AddDialogItemLayout | src/win32/input.rs:182-211 | `add_dialog_item` appends exactly one record at the next four-byte boundary. |
| DialogTemplate.ReadStringAt | src/win32/input.rs:231-243 | A zero-free string field reads back exactly. |
| DialogTemplate.RecordsRead | src/win32/input.rs:182-211 | Records laid out one after another read back in order. |
| DialogTemplate.AddItemsRoundTrip | src/win32/input.rs:182-211 | Records written one after another read back in order. |
| DialogTemplate.ParseSerialize | src/windows/win32/input.rs:237-326 | Every well-formed template survives writing and reading, its strings coming back without terminators. |
| DialogTemplate.SerializeInjective | src/windows/win32/input.rs:237-326 | Different well-formed templates never share a byte image. |
| InputControls.ControlsRead | src/win32/input.rs:127-177 | The four controls are well formed and read back with the button texts without terminators. |
| InputControls.TitleTerminable | src/win32/input.rs:24-25 | A NUL-free title is written unambiguously and reads back as its encoding. |
| InputSession.CommandIdLowWord | src/win32/input.rs:75 | The notification code in the high word never changes the command id. |
| InputSession.ReadEdit | src/win32/input.rs:79-81 | `GetDlgItemTextW` leaves a prefix of the control's text shorter than the buffer, and the whole text when it fits. |
| InputSession.OnCommand | src/win32/input.rs:74-93 | Only OK and Cancel end the dialog and return 1. Other commands change nothing. The stored result changes only on OK, to the edit text at that command. |
| InputSession.FirstEnding | src/win32/input.rs:74-93 | The first OK or Cancel command, with none before it. |
| InputSession.RunFromEnding | src/win32/input.rs:41-93 | The modal loop ends exactly at the first OK or Cancel. OK leaves that command's text and Cancel the text stored before. |
| InputSession.TextInputFirstEnding | src/win32/input.rs:23-56 | Text comes back exactly when the first ending command is OK, and is then the edit text at that command. |
| InputSession.CancelGivesNothing | src/win32/input.rs:51-55 | Cancelling before any OK gives nothing, whatever was typed. |
| Win32Input.StyleFlags | src/win32/input.rs:98-113 | The edit box hides its text exactly in password mode and has the multi-line flags exactly in multi-line mode, horizontal scrolling otherwise. OK is the default button exactly in single-line mode. |
| Win32Input.BuildIsSerialize | src/win32/input.rs:98-180 | The builder's pushes write exactly the serialisation of the template value. |
| Win32Input.ParseBuild | src/win32/input.rs:98-180 | The bytes read back as the template, strings without terminators. |
| Win32Input.HeaderReadBack | src/win32/input.rs:115-125 | A reader finds no extended style, four controls at origin (10, 10), width 220, height 125 for multi-line and 92 otherwise, the title and no font. |
| Win32Input.ControlsReadBack | src/win32/input.rs:127-177 | The controls read back as label, edit box, OK and Cancel with their ids, classes and captions, and the edit and OK styles follow the mode. |
| Win32Input.TextInputResult | src/win32/input.rs:23-96 | Text comes back exactly when the first OK or Cancel is OK, and is then that OK's edit text, cut to fit the 8192-unit buffer. |
| WindowsInput.StyleFlags | src/windows/win32/input.rs:212-229 | The dialog is resizable, centred and carries a font. The edit box scrolls vertically exactly when multi-line and hides its text exactly in password mode; OK is always the default button. |
| WindowsInput.BuildIsSerialize | src/windows/win32/input.rs:212-295 | The builder's pushes write exactly the serialisation of the template value. |
| WindowsInput.ParseBuild | src/windows/win32/input.rs:212-295 | The bytes read back as the template, strings without terminators. |
| WindowsInput.TemplateReadBack | src/windows/win32/input.rs:212-295 | A reader finds DS_SETFONT with 9-point "MS Shell Dlg 2", four controls, 240 by 140 dialog units for multi-line or 240 by 60 otherwise, and the edit, OK and Cancel ids. The edit box scrolls vertically exactly when multi-line and hides its text exactly in password mode. |
| WindowsInput.LayoutPositions | src/windows/win32/input.rs:78-130 | The label sits at (12, 12) and both buttons are 88 by 26 on row h-38. The edit box starts at 34, is at least 22 high, and fills down to the buttons when multi-line. |
| WindowsInput.LayoutAnchors | src/windows/win32/input.rs:76-130 | The label and edit box keep a 12-pixel margin on both sides. Cancel keeps 12 pixels to the right and bottom edges, and OK sits 8 pixels to its left. A tall enough multi-line edit box ends 12 pixels above the buttons. |
| WindowsInput.LayoutResize | src/windows/win32/input.rs:76-130 | Resizing moves the buttons by exactly the change and keeps the label and edit box in place, widening both by the change in width. |
| WindowsInput.MinMaxLimits | src/windows/win32/input.rs:167-187 | Multi-line dialogs are at least 300 by 160 with no maximum. Single-line ones are at least 300 wide and locked to one height: the captured height when positive, 120 otherwise. |
| WindowsInput.InitLocksSingleLine | src/windows/win32/input.rs:150-156 | Only a single-line dialog captures its height, so a multi-line one is never locked and a single-line one is locked to its window height. |
| WindowsInput.TextInputResult | src/windows/win32/input.rs:41-74 | Text comes back exactly when the first OK or Cancel is OK, and is then that OK's edit text, cut to fit the 32768-unit buffer. |

## Left out

- Spawning processes, waiting for them, environment lookups, `which`, the file system, the clock and the process id are parameters (exit codes, stdout, `installed`, `Env`, `written`, `pid`, `sinceEpoch`). The `unwrap` panics on a failed spawn are not modelled.
- GTK widgets, signals and main loops (src/linux/gtk3/*.rs, src/linux/gtk4/*.rs apart from the helpers in `Gtk`) are foreign calls and are not modelled. `ensure_gtk_initialized` and `run_dialog` are left out for the same reason.
- `invoke_async`, `os` and `hwnd` have no logic of their own beyond the foreign call.
- The Win32 folder dialog (src/win32/folder.rs) is a COM call sequence without data logic of its own and is not part of this model.
- Helpers.OutputLines: zenity and kdialog split stdout as raw bytes and build each path with `OsStr::from_bytes`. The model splits a character string, so stdout that is not UTF-8 (and the paths it would carry) is not modelled.
- Zenity.MessageResultAsWritten, Zenity.TextInputResult, Zenity.ColorResult, KDialog.TextInputResult, KDialog.ColorResult: stdout is given as text. The `from_utf8` decoding in `invoke_output`, with its `from_utf8_lossy` fallback (src/linux/mod.rs:178-184), is not modelled, nor is the `unwrap` panic when the helper cannot be spawned.
- MacOs.InvokeOutput: stdout is given as text. The `from_utf8` decoding with its lossy fallback is not modelled, nor is the panic of `.unwrap()` when `osascript` cannot be spawned (src/macos/mod.rs:265-277).
- MacOs.DefaultName: a file name that is not valid UTF-8 gives "" through `to_str()` (src/macos/mod.rs:133-135). Paths are character strings here, so that case does not arise.
- MacOs.FolderArgs: a directory that is not valid UTF-8 gives "" through `to_str()` (src/macos/mod.rs:174-176). Not modelled for the same reason.
- Paths.WinJoin: a rooted second path (such as `\x`) keeps only a drive prefix of the first path. Rust also keeps a UNC or verbatim prefix (`\\srv\share` joined with `\x` gives `\\srv\share\x`); the model gives `\x`. Rust's normalisation of verbatim (`\\?\`) paths on push is not modelled either. The prefix test of the second path follows Rust's `parse_prefix`, with `/` as a separator and a non-empty server and share required.
- Paths.Parent, Paths.FileName: Unix components only. `..` is kept as a component, as in Rust, and Windows-style prefixes are not parsed.
- LinuxBackend.InvalidOverrideMessage: `escape_debug` is modelled for the characters with a short escape (`\t`, `\r`, `\n`, `\\`, `"`, `\0`). The `\u{...}` escape Rust writes for other non-printable characters is not modelled: those characters are written as themselves.
- WindowsInput.LayoutControls: every `GetDlgItem` is assumed to succeed. The branches where a control is missing and its `MoveWindow` is skipped (src/windows/win32/input.rs:85-129) are not modelled, and the `i32` overflow of the layout arithmetic for huge client areas is not modelled.
- InputSession.OnCommand: the state pointer is assumed non-null after WM_INITDIALOG. The branches for a null `state_ptr` (src/windows/win32/input.rs:142, 161, 171, 192; src/win32/input.rs:68, 78) are not modelled, except that `WindowsInput.MinMaxInfo` takes a missing state as single-line.
- Win32Input.BuildInputDialogTemplate, WindowsInput.BuildInputDialogTemplate: the mode is passed as two booleans, `multiline` and `password`, as the builders take it. The combination `multiline && password`, which `text_input` never produces from a `TextInputMode`, is therefore admitted.
- Win32Color.ColorPicker: `ChooseColorW` is a parameter returning the chosen word or nothing. The custom-colour array and the flags of the `CHOOSECOLORW` structure are not modelled.
- Win32Message.Show: `MessageBoxW` is a parameter returning an ID; the owner window handle is not modelled.
- Win32Notify.NotifyPopup: `temp_dir`, the clock, the process id, `fs::write` and the `mshta.exe` spawn are parameters. The VBScript and the HTML are text; how `mshta.exe` renders them is not modelled.
- Win32File.PickFilesImpl: what `GetOpenFileNameW` writes is a parameter (`Overwrite` describes the usual case of the path written over the front of the buffer). The dialog's own validation is not modelled.
- FileBuffer.WideToStringUntilNul: a path is a character string, so the `PathBuf` built from the lossy decoding is that string.
- Text.Trim: `char::is_whitespace` is the Unicode White_Space property listed in `Text.IsWhitespace`; no other Unicode data is modelled.

## Findings

| source | as written | input that shows it | evidently intended | confidence | as-written member | corrected member |
|---|---|---|---|---|---|---|
| src/linux/zenity.rs:56-62 | Any output other than a known caption, including the empty output of zenity's OK button and of a closed window, gives `Some(Ok)`. | Yes/No box with Yes pressed (exit 0, stdout "") gives `Some(Ok)`, which is not a button of the set. Closing the window (exit 1, stdout "") gives `Some(Ok)`, while src/lib.rs:63-65 promises `None` on Linux. | Exit 0 is the accepting button, exit 1 with a caption is that button, and exit 1 without one is `None`. | medium, not executed | Zenity.MessageResultAsWritten, Zenity.MessageResultAsWrittenMisreads | Zenity.ReadMessageResult, Zenity.ExtraButtonsReadBack |
| src/linux/zenity.rs:97-105 | Exit 0 with no path on stdout gives `Some(vec![])`. The same code is in src/linux/kdialog.rs:69-77. | Exit code 0, stdout "" gives `Some([])`, where the macOS (src/macos/mod.rs:121-126) and Win32 (src/win32/file.rs:73-77) backends give `None`. | No result unless at least one path was printed. | medium, not executed | Helpers.PickFilesAsWritten, Helpers.PickFilesAsWrittenEmpty | Helpers.PickFiles, Helpers.PickFilesReadsPaths |
| src/win32/file.rs:10-13 | `pick_file` parses the single-selection buffer as a multi-selection buffer. | Initial file "abc", the user picks "x". The dialog writes "x" and a NUL over the front, leaving "c" and a NUL after it, so `pick_file` answers `x\c`. | A single selection is the text before the first NUL, as `save_file` reads it. | medium, not executed (assumes the dialog does not clear the rest of the buffer) | Win32File.PickFileLeftover, Win32File.PickFileLeftoverExample | Win32File.PickFileSingle, Win32File.PickFileSingleReads |

=== FILE: base.dfy ===
/** Value types shared by every part of the model: optional values, the
    "returns or panics" outcome of a Rust call, and the fixed-width integer
    ranges the library stores its numbers in. */
module Base {

  /** Rust's `Option<T>`. */
  datatype Option<+T> = None | Some(value: T) {

    /** Rust's `unwrap_or`. */
    function GetOr(default: T): T {
      match this
      case Some(v) => v
      case None => default
    }
  }

  /** A call that either returns normally or panics, aborting the dialog
      operation with a message. */
  datatype Outcome<+T> = Done(value: T) | Panic(message: string)

  type u8 = x: int | 0 <= x < 0x100
  type u16 = x: int | 0 <= x < 0x1_0000
  type u32 = x: int | 0 <= x < 0x1_0000_0000
  type i16 = x: int | -0x8000 <= x < 0x8000
  type i32 = x: int | -0x8000_0000 <= x < 0x8000_0000

  const I32_MAX: i32 := 0x7FFF_FFFF

  /** Every bit of `flag` is set in the Win32 flag word `word`. */
  predicate HasFlag(word: bv32, flag: bv32) { word & flag == flag }
}

=== FILE: dialog_template.dfy ===
/** The in-memory dialog template the Win32 text input dialogs are built
    from: a `DLGTEMPLATE` header followed by `DLGITEMTEMPLATE` records,
    written by a little-endian byte builder. src/win32/input.rs:182-243 and
    src/windows/win32/input.rs:297-358 hold the same builder, so it is
    defined once here. `Parse` reads the layout back and is the builder's
    partner: every well-formed template survives `Serialize` then `Parse`.

    Pushing onto the builder's vector is appending, so a run of fixed-size
    pushes is written as the concatenation of their bytes; only the string
    push, whose branches matter, is kept as the source writes it. */
module DialogTemplate {
  import opened Base

  // Window, dialog, edit and button style bits as the Windows headers define them.
  const WS_POPUP: bv32 := 0x8000_0000
  const WS_CHILD: bv32 := 0x4000_0000
  const WS_VISIBLE: bv32 := 0x1000_0000
  const WS_CAPTION: bv32 := 0x00C0_0000
  const WS_BORDER: bv32 := 0x0080_0000
  const WS_VSCROLL: bv32 := 0x0020_0000
  const WS_SYSMENU: bv32 := 0x0008_0000
  const WS_THICKFRAME: bv32 := 0x0004_0000
  const WS_MINIMIZEBOX: bv32 := 0x0002_0000
  const WS_TABSTOP: bv32 := 0x0001_0000
  const DS_CENTER: bv32 := 0x0800
  const DS_MODALFRAME: bv32 := 0x80
  const DS_SETFONT: bv32 := 0x40
  const ES_LEFT: bv32 := 0
  const ES_MULTILINE: bv32 := 0x4
  const ES_PASSWORD: bv32 := 0x20
  const ES_AUTOVSCROLL: bv32 := 0x40
  const ES_AUTOHSCROLL: bv32 := 0x80
  const ES_WANTRETURN: bv32 := 0x1000
  const BS_PUSHBUTTON: bv32 := 0
  const BS_DEFPUSHBUTTON: bv32 := 1

  /** Predefined window class ordinals of the controls. */
  const BUTTON_CLASS: u16 := 0x80
  const EDIT_CLASS: u16 := 0x81
  const STATIC_CLASS: u16 := 0x82

  /** A style word as the `u32` the template stores. */
  function Word(flags: bv32): u32 { flags as int }

  /** A stored style word as flags again. */
  function Flags(word: u32): bv32 { word as bv32 }

  // ---------------------------------------------------------------------
  // Little-endian fields

  /** Reading a little-endian `u16` at an offset. */
  function U16At(d: seq<u8>, at: nat): u16
    requires at + 2 <= |d|
  {
    d[at] as int + 0x100 * d[at + 1] as int
  }

  function U32At(d: seq<u8>, at: nat): u32
    requires at + 4 <= |d|
  {
    d[at] as int + 0x100 * d[at + 1] as int + 0x1_0000 * d[at + 2] as int + 0x100_0000 * d[at + 3] as int
  }

  /** The two's complement bit pattern of an `i16`, which is what
      `i16::to_le_bytes` writes. */
  function I16Bits(v: i16): (r: u16)
    ensures FromBits16(r) == v
  {
    if v < 0 then v + 0x1_0000 else v
  }

  /** The `i16` a bit pattern stands for. */
  function FromBits16(u: u16): i16 { if u >= 0x8000 then u - 0x1_0000 else u }

  /** `push_u16`'s bytes: they read back as the value. */
  function U16Bytes(v: u16): (r: seq<u8>)
    ensures |r| == 2 && U16At(r, 0) == v
  {
    [v % 0x100, v / 0x100]
  }

  /** `push_u32`'s bytes. */
  function U32Bytes(v: u32): (r: seq<u8>)
    ensures |r| == 4 && U32At(r, 0) == v
  {
    [v % 0x100, v / 0x100 % 0x100, v / 0x1_0000 % 0x100, v / 0x100_0000]
  }

  /** `push_u16`. */
  function PushU16(data: seq<u8>, value: u16): seq<u8>
  {
    data + U16Bytes(value)
  }

  // ---------------------------------------------------------------------
  // Blocks inside a buffer

  /** Trigger terms. The quantifier of `Within` is instantiated only at
      offsets of the block a proof names with `Peek`; the facts `RecordAt`,
      `HeaderAt` and `ItemsRead` only where a proof names their buffer and
      offset with `Open` or `Recall`. A proof that merely carries such a
      fact therefore neither measures nor unfolds the bytes involved. The
      three predicates are constantly true: they exist only to serve as
      triggers and model nothing of the source. */
  ghost predicate Peek(b: seq<u8>, k: int) { true }

  ghost predicate Open(d: seq<u8>, k: int) { true }

  ghost predicate Recall(d: seq<u8>, at: nat, k: int) { true }

  /** `b` sits in `d` from offset `at`, byte for byte. */
  ghost predicate Within(d: seq<u8>, at: nat, b: seq<u8>)
  {
    forall k {:trigger Peek(b, k)} :: Peek(b, k) ==> at + |b| <= |d| && (0 <= k < |b| ==> d[at + k] == b[k])
  }

  /** The block's bytes are the buffer's bytes from `at`. */
  lemma WithinIndex(d: seq<u8>, at: nat, b: seq<u8>)
    ensures Within(d, at, b) <==> at + |b| <= |d| && forall k :: 0 <= k < |b| ==> d[at + k] == b[k]
  {
    if Within(d, at, b) {
      assert Peek(b, 0);
      forall k | 0 <= k < |b|
        ensures d[at + k] == b[k]
      {
        assert Peek(b, k);
      }
    }
  }

  lemma WithinAppend(a: seq<u8>, b: seq<u8>)
    ensures Within(a + b, 0, a) && Within(a + b, |a|, b)
  {
    WithinIndex(a + b, 0, a);
    WithinIndex(a + b, |a|, b);
    forall k | 0 <= k < |b|
      ensures (a + b)[|a| + k] == b[k]
    {
    }
  }

  /** A block inside a block inside `d` is inside `d`. */
  lemma WithinTrans(d: seq<u8>, at: nat, b: seq<u8>, k: nat, c: seq<u8>)
    requires Within(d, at, b) && Within(b, k, c)
    ensures Within(d, at + k, c)
  {
    WithinIndex(d, at, b);
    WithinIndex(b, k, c);
    WithinIndex(d, at + k, c);
    forall i | 0 <= i < |c|
      ensures d[at + k + i] == c[i]
    {
      assert b[k + i] == c[i];
      assert d[at + (k + i)] == b[k + i];
    }
  }

  lemma U16Within(d: seq<u8>, at: nat, b: seq<u8>, k: nat)
    requires Within(d, at, b) && k + 2 <= |b|
    ensures at + k + 2 <= |d| && U16At(d, at + k) == U16At(b, k)
  {
    WithinIndex(d, at, b);
    assert d[at + k] == b[k] && d[at + k + 1] == b[k + 1];
  }

  lemma U32Within(d: seq<u8>, at: nat, b: seq<u8>, k: nat)
    requires Within(d, at, b) && k + 4 <= |b|
    ensures at + k + 4 <= |d| && U32At(d, at + k) == U32At(b, k)
  {
    WithinIndex(d, at, b);
    assert d[at + k] == b[k] && d[at + k + 1] == b[k + 1];
    assert d[at + k + 2] == b[k + 2] && d[at + k + 3] == b[k + 3];
  }

  // ---------------------------------------------------------------------
  // Alignment (align_dword)

  /** Zero bytes needed to reach the next multiple of four. */
  function Pad(n: nat): nat { (4 - n % 4) % 4 }

  function AlignUp(n: nat): (r: nat)
    ensures r % 4 == 0 && n <= r < n + 4
  {
    n + Pad(n)
  }

  /** `n` zero bytes. */
  function Zeros(n: nat): (r: seq<u8>)
    ensures |r| == n
  {
    if n == 0 then [] else Zeros(n - 1) + [0]
  }

  /** The aligned buffer: the data, then the padding zeros. */
  function Align(data: seq<u8>): (r: seq<u8>)
    ensures |r| == AlignUp(|data|)
  {
    data + Zeros(Pad(|data|))
  }

  /** `align_dword`: push zero bytes while the length is not a multiple of
      four. It stops at the first multiple of four, keeping the data and
      adding only zeros. */
  method AlignDword(data: seq<u8>) returns (r: seq<u8>)
    ensures |r| % 4 == 0 && |data| <= |r| < |data| + 4
    ensures r[..|data|] == data
    ensures r == Align(data)
  {
    r := data;
    while |r| % 4 != 0
      invariant |data| <= |r| <= AlignUp(|data|)
      invariant r == data + Zeros(|r| - |data|)
      decreases AlignUp(|data|) - |r|
    {
      r := r + [0];
    }
    assert |r| == AlignUp(|data|);
  }

  // ---------------------------------------------------------------------
  // Strings (push_utf16z)

  /** The bytes of a run of UTF-16 units. */
  function UnitsBytes(units: seq<u16>): (r: seq<u8>)
    ensures |r| == 2 * |units|
    decreases |units|
  {
    if |units| == 0 then [] else U16Bytes(units[0]) + UnitsBytes(units[1..])
  }

  lemma {:induction false} UnitsBytesSnoc(units: seq<u16>, u: u16)
    ensures UnitsBytes(units + [u]) == UnitsBytes(units) + U16Bytes(u)
    decreases |units|
  {
    if |units| == 0 {
      assert units + [u] == [u];
      assert UnitsBytes([u]) == U16Bytes(u) + UnitsBytes([]);
    } else {
      assert (units + [u])[1..] == units[1..] + [u];
      UnitsBytesSnoc(units[1..], u);
      assert (units + [u])[0] == units[0];
    }
  }

  /** The loop of `push_utf16z`: every unit pushed in order. */
  function PushUnits(data: seq<u8>, units: seq<u16>): seq<u8>
    decreases |units|
  {
    if |units| == 0 then data else PushUnits(PushU16(data, units[0]), units[1..])
  }

  lemma {:induction false} PushUnitsAppends(data: seq<u8>, units: seq<u16>)
    ensures PushUnits(data, units) == data + UnitsBytes(units)
    decreases |units|
  {
    if |units| > 0 {
      PushUnitsAppends(PushU16(data, units[0]), units[1..]);
      assert PushU16(data, units[0]) + UnitsBytes(units[1..]) == data + (U16Bytes(units[0]) + UnitsBytes(units[1..]));
    }
  }

  /** A string without its terminator, if it carries one. */
  function StripNul(units: seq<u16>): (r: seq<u16>)
    ensures |units| - 1 <= |r| <= |units|
  {
    if |units| > 0 && units[|units| - 1] == 0 then units[..|units| - 1] else units
  }

  /** A string field: the units without a terminator, then one zero unit. */
  function Utf16z(value: seq<u16>): (r: seq<u8>)
    ensures |r| == 2 * |StripNul(value)| + 2
  {
    UnitsBytes(StripNul(value)) + U16Bytes(0)
  }

  /** `push_utf16z`: an empty string becomes a single zero unit; otherwise
      all units are pushed, then a zero unless the last unit already is
      one. */
  function PushUtf16z(data: seq<u8>, value: seq<u16>): seq<u8>
  {
    if |value| == 0 then PushU16(data, 0)
    else
      var d := PushUnits(data, value);
      if value[|value| - 1] != 0 then PushU16(d, 0) else d
  }

  /** Whichever branch `push_utf16z` takes, it appends the string's units
      followed by exactly one terminator. */
  lemma PushUtf16zAppends(data: seq<u8>, value: seq<u16>)
    ensures PushUtf16z(data, value) == data + Utf16z(value)
  {
    if |value| == 0 {
      assert UnitsBytes(StripNul(value)) == [];
    } else {
      PushUnitsAppends(data, value);
      var s := StripNul(value);
      if value[|value| - 1] == 0 {
        assert value == s + [0];
        UnitsBytesSnoc(s, 0);
      }
    }
  }

  /** The units of a string field in a buffer: `s` from `at`, then a zero. */
  predicate StringAt(d: seq<u8>, at: nat, s: seq<u16>)
  {
    at + 2 * |s| + 2 <= |d|
    && (forall k :: 0 <= k < |s| ==> U16At(d, at + 2 * k) == s[k])
    && U16At(d, at + 2 * |s|) == 0
  }

  lemma StringWithin(d: seq<u8>, at: nat, b: seq<u8>, s: seq<u16>)
    requires Within(d, at, b) && StringAt(b, 0, s)
    ensures StringAt(d, at, s)
  {
    WithinIndex(d, at, b);
    forall k | 0 <= k <= |s|
      ensures U16At(d, at + 2 * k) == U16At(b, 2 * k)
    {
      U16Within(d, at, b, 2 * k);
    }
  }

  /** The bytes of a units run followed by a zero are a string field. */
  lemma {:induction false} UnitsField(s: seq<u16>)
    ensures StringAt(UnitsBytes(s) + U16Bytes(0), 0, s)
    decreases |s|
  {
    var d := UnitsBytes(s) + U16Bytes(0);
    if |s| == 0 {
      assert d == U16Bytes(0);
    } else {
      var tail := UnitsBytes(s[1..]) + U16Bytes(0);
      UnitsField(s[1..]);
      assert d == U16Bytes(s[0]) + tail;
      WithinAppend(U16Bytes(s[0]), tail);
      StringWithin(d, 2, tail, s[1..]);
      U16Within(d, 0, U16Bytes(s[0]), 0);
      forall k | 1 <= k < |s|
        ensures U16At(d, 2 * k) == s[k]
      {
        assert 2 * k == 2 + 2 * (k - 1);
        assert s[1..][k - 1] == s[k];
      }
    }
  }

  lemma Utf16zField(value: seq<u16>)
    ensures StringAt(Utf16z(value), 0, StripNul(value))
  {
    UnitsField(StripNul(value));
  }

  // ---------------------------------------------------------------------
  // Reading strings back

  /** The number of units before the first zero unit from `at`, or nothing
      when the buffer ends first. */
  function UnitCount(d: seq<u8>, at: nat): (r: Option<nat>)
    ensures r.Some? ==> at + 2 * r.value + 2 <= |d|
    decreases |d| - at
  {
    if at + 2 > |d| then None
    else if U16At(d, at) == 0 then Some(0)
    else match UnitCount(d, at + 2)
      case None => None
      case Some(n) => Some(n + 1)
  }

  /** The `n` units stored from `at`. */
  function Units(d: seq<u8>, at: nat, n: nat): (r: seq<u16>)
    requires at + 2 * n <= |d|
    ensures |r| == n
    decreases n
  {
    if n == 0 then [] else [U16At(d, at)] + Units(d, at + 2, n - 1)
  }

  lemma {:induction false} UnitsIndex(d: seq<u8>, at: nat, n: nat)
    requires at + 2 * n <= |d|
    ensures forall i :: 0 <= i < n ==> Units(d, at, n)[i] == U16At(d, at + 2 * i)
    decreases n
  {
    if n > 0 {
      UnitsIndex(d, at + 2, n - 1);
      forall i | 1 <= i < n
        ensures Units(d, at, n)[i] == U16At(d, at + 2 * i)
      {
        assert at + 2 * i == at + 2 + 2 * (i - 1);
      }
    }
  }

  /** Reads units from `at` up to the first zero unit; yields them and the
      offset just past the terminator. */
  function ReadString(d: seq<u8>, at: nat): (r: Option<(seq<u16>, nat)>)
    ensures r.Some? ==> r.value.1 == at + 2 * |r.value.0| + 2 <= |d|
  {
    match UnitCount(d, at)
    case None => None
    case Some(n) => Some((Units(d, at, n), at + 2 * n + 2))
  }

  /** The count stops at the first zero unit: every unit before it is
      nonzero. */
  lemma {:induction false} UnitCountEnds(d: seq<u8>, at: nat)
    requires UnitCount(d, at).Some?
    ensures U16At(d, at + 2 * UnitCount(d, at).value) == 0
    ensures forall i :: 0 <= i < UnitCount(d, at).value ==> U16At(d, at + 2 * i) != 0
    decreases |d| - at
  {
    var n := UnitCount(d, at).value;
    if U16At(d, at) != 0 {
      UnitCountEnds(d, at + 2);
      assert n == UnitCount(d, at + 2).value + 1;
      forall i | 1 <= i < n
        ensures U16At(d, at + 2 * i) != 0
      {
        assert at + 2 * i == at + 2 + 2 * (i - 1);
      }
      assert at + 2 * n == at + 2 + 2 * (n - 1);
    }
  }

  /** The units read never include the terminator. */
  lemma ReadStringNulFree(d: seq<u8>, at: nat)
    requires ReadString(d, at).Some?
    ensures 0 !in ReadString(d, at).value.0
  {
    UnitCountEnds(d, at);
    UnitsIndex(d, at, UnitCount(d, at).value);
  }

  /** The units of a zero-free string field are counted exactly. */
  lemma {:induction false} UnitCountOf(d: seq<u8>, at: nat, s: seq<u16>)
    requires StringAt(d, at, s) && 0 !in s
    ensures UnitCount(d, at) == Some(|s|)
    decreases |s|
  {
    if |s| > 0 {
      assert U16At(d, at) == s[0] != 0;
      assert StringAt(d, at + 2, s[1..]) by {
        forall k | 0 <= k < |s[1..]|
          ensures U16At(d, at + 2 + 2 * k) == s[1..][k]
        {
          assert at + 2 + 2 * k == at + 2 * (k + 1);
        }
        assert at + 2 + 2 * |s[1..]| == at + 2 * |s|;
      }
      UnitCountOf(d, at + 2, s[1..]);
    }
  }

  /** A zero-free string field reads back exactly. */
  lemma ReadStringAt(d: seq<u8>, at: nat, s: seq<u16>)
    requires StringAt(d, at, s) && 0 !in s
    ensures ReadString(d, at) == Some((s, at + 2 * |s| + 2))
  {
    UnitCountOf(d, at, s);
    UnitsIndex(d, at, |s|);
    assert Units(d, at, |s|) == s;
  }

  /** What `ReadString` returns is a string field of the buffer. */
  lemma ReadStringIsField(d: seq<u8>, at: nat)
    requires ReadString(d, at).Some?
    ensures StringAt(d, at, ReadString(d, at).value.0)
  {
    UnitCountEnds(d, at);
    UnitsIndex(d, at, UnitCount(d, at).value);
  }

  // ---------------------------------------------------------------------
  // Runs of fixed-size fields

  /** The two field sizes the builder pushes. */
  datatype Width = W16 | W32

  /** One little-endian field, as `push_u16`/`push_i16` or `push_u32`
      writes it (an `i16` is pushed as its bit pattern). */
  datatype Field = U16F(v16: u16) | U32F(v32: u32)

  function WidthOf(f: Field): Width { if f.U16F? then W16 else W32 }

  /** The value of a field, whichever its width. */
  function Value(f: Field): u32 { if f.U16F? then f.v16 else f.v32 }

  /** The low sixteen bits of a field. */
  function Low16(f: Field): u16 { Value(f) % 0x1_0000 }

  function Size(w: Width): nat { if w == W16 then 2 else 4 }

  function FieldBytes(f: Field): (r: seq<u8>)
    ensures |r| == Size(WidthOf(f))
  {
    match f
    case U16F(v) => U16Bytes(v)
    case U32F(v) => U32Bytes(v)
  }

  /** A run of fields pushed one after another. */
  function FieldsBytes(fs: seq<Field>): seq<u8>
  {
    FieldsFrom(fs, 0)
  }

  /** The fields from index `i` on, pushed one after another. */
  function FieldsFrom(fs: seq<Field>, i: nat): seq<u8>
    decreases |fs| - i
  {
    if i >= |fs| then [] else FieldBytes(fs[i]) + FieldsFrom(fs, i + 1)
  }

  /** `fs` has the widths `shape` lists. */
  predicate Fits(shape: seq<Width>, fs: seq<Field>)
  {
    |shape| == |fs| && forall i :: 0 <= i < |fs| ==> WidthOf(fs[i]) == shape[i]
  }

  function ReadField(d: seq<u8>, at: nat, w: Width): (r: Field)
    requires at + Size(w) <= |d|
    ensures WidthOf(r) == w
  {
    if w == W16 then U16F(U16At(d, at)) else U32F(U32At(d, at))
  }

  /** Reads fields of the widths `shape` lists from `at`; yields them and
      the offset after the last, or nothing when the buffer ends first. */
  function ReadFields(d: seq<u8>, at: nat, shape: seq<Width>): (r: Option<(seq<Field>, nat)>)
    ensures r.Some? ==> |r.value.0| == |shape| && r.value.1 <= |d|
  {
    ReadFieldsFrom(d, at, shape, 0)
  }

  /** Reads the fields of the widths `shape` lists from index `i` on. */
  function ReadFieldsFrom(d: seq<u8>, at: nat, shape: seq<Width>, i: nat): (r: Option<(seq<Field>, nat)>)
    requires i <= |shape|
    ensures r.Some? ==> |r.value.0| == |shape| - i && r.value.1 <= |d|
    decreases |shape| - i
  {
    if i == |shape| then (if at <= |d| then Some(([], at)) else None)
    else if at + Size(shape[i]) > |d| then None
    else match ReadFieldsFrom(d, at + Size(shape[i]), shape, i + 1)
      case None => None
      case Some((rest, next)) => Some(([ReadField(d, at, shape[i])] + rest, next))
  }

  /** A field found in a buffer reads back. */
  lemma ReadFieldOf(d: seq<u8>, at: nat, f: Field)
    requires Within(d, at, FieldBytes(f))
    ensures at + Size(WidthOf(f)) <= |d| && ReadField(d, at, WidthOf(f)) == f
  {
    match f
    case U16F(v) => U16Within(d, at, U16Bytes(v), 0);
    case U32F(v) => U32Within(d, at, U32Bytes(v), 0);
  }

  /** The first of the fields from index `i` on, and the others after it. */
  lemma FieldsSplit(d: seq<u8>, at: nat, fs: seq<Field>, i: nat)
    requires i < |fs| && Within(d, at, FieldsFrom(fs, i))
    ensures Within(d, at, FieldBytes(fs[i]))
    ensures Within(d, at + Size(WidthOf(fs[i])), FieldsFrom(fs, i + 1))
    ensures |FieldsFrom(fs, i)| == Size(WidthOf(fs[i])) + |FieldsFrom(fs, i + 1)|
  {
    var first := FieldBytes(fs[i]);
    WithinAppend(first, FieldsFrom(fs, i + 1));
    WithinTrans(d, at, FieldsFrom(fs, i), 0, first);
    WithinTrans(d, at, FieldsFrom(fs, i), |first|, FieldsFrom(fs, i + 1));
  }

  /** The fields from index `i` on, found in a buffer, read back. */
  lemma {:induction false} ReadFieldsFromOf(d: seq<u8>, at: nat, fs: seq<Field>, shape: seq<Width>, i: nat)
    requires Fits(shape, fs) && i <= |fs| && Within(d, at, FieldsFrom(fs, i))
    ensures ReadFieldsFrom(d, at, shape, i) == Some((fs[i..], at + |FieldsFrom(fs, i)|))
    decreases |fs| - i
  {
    if i < |fs| {
      FieldsSplit(d, at, fs, i);
      ReadFieldOf(d, at, fs[i]);
      assert WidthOf(fs[i]) == shape[i];
      ReadFieldsFromOf(d, at + Size(shape[i]), fs, shape, i + 1);
      assert [fs[i]] + fs[i + 1..] == fs[i..];
    } else {
      WithinIndex(d, at, FieldsFrom(fs, i));
      assert fs[i..] == [];
    }
  }

  /** A run of fields found in a buffer reads back, whatever their values. */
  lemma ReadFieldsOf(d: seq<u8>, at: nat, fs: seq<Field>, shape: seq<Width>)
    requires Fits(shape, fs) && Within(d, at, FieldsBytes(fs))
    ensures ReadFields(d, at, shape) == Some((fs, at + |FieldsBytes(fs)|))
  {
    ReadFieldsFromOf(d, at, fs, shape, 0);
    assert fs[0..] == fs;
  }

  /** The bytes taken by fields of the widths `shape` lists from index `i` on. */
  function ShapeSize(shape: seq<Width>, i: nat): nat
    decreases |shape| - i
  {
    if i >= |shape| then 0 else Size(shape[i]) + ShapeSize(shape, i + 1)
  }

  /** A run of fields takes the bytes its widths say, whatever the values. */
  lemma {:induction false} FieldsSize(fs: seq<Field>, shape: seq<Width>, i: nat)
    requires Fits(shape, fs)
    ensures |FieldsFrom(fs, i)| == ShapeSize(shape, i)
    decreases |fs| - i
  {
    if i < |fs| {
      FieldsSize(fs, shape, i + 1);
    }
  }

  // ---------------------------------------------------------------------
  // Templates

  /** One control record: styles, position and size in dialog units,
      control id, the predefined class ordinal and the caption. */
  datatype Item = Item(style: bv32, exStyle: bv32, x: i16, y: i16, cx: i16, cy: i16,
                       id: u16, classOrdinal: u16, caption: seq<u16>)

  /** The point size and typeface that follow the title under DS_SETFONT. */
  datatype Font = Font(pointSize: u16, face: seq<u16>)

  /** A dialog with no menu and the default window class. */
  datatype Template = Template(style: bv32, exStyle: bv32, x: i16, y: i16, cx: i16, cy: i16,
                               title: seq<u16>, font: Option<Font>, items: seq<Item>)

  /** The fixed fields of a record in push order: style, extended style,
      x, y, cx, cy, id, then the class as 0xFFFF followed by its ordinal. */
  function ItemFields(it: Item): seq<Field>
  {
    [U32F(Word(it.style)), U32F(Word(it.exStyle)), U16F(I16Bits(it.x)), U16F(I16Bits(it.y)),
     U16F(I16Bits(it.cx)), U16F(I16Bits(it.cy)), U16F(it.id), U16F(0xFFFF), U16F(it.classOrdinal)]
  }

  const ItemShape: seq<Width> := [W32, W32, W16, W16, W16, W16, W16, W16, W16]

  /** Nine fields of the fixed shape take 22 bytes. */
  lemma FixedSize(fs: seq<Field>)
    requires Fits(ItemShape, fs)
    ensures |FieldsBytes(fs)| == 22
  {
    FieldsSize(fs, ItemShape, 0);
  }

  /** The fixed bytes of a record. */
  function ItemFixed(it: Item): seq<u8>
  {
    FieldsBytes(ItemFields(it))
  }

  /** A whole record after its padding: fixed bytes, caption field and a
      zero creation-data size. */
  function ItemBytes(it: Item): seq<u8>
  {
    ItemFixed(it) + Utf16z(it.caption) + U16Bytes(0)
  }

  /** A record appended at the next four-byte boundary. */
  function AddItem(data: seq<u8>, it: Item): seq<u8>
  {
    Align(data) + ItemBytes(it)
  }

  /** The records appended one after another. */
  function AddItems(data: seq<u8>, items: seq<Item>): seq<u8>
  {
    AddItemsFrom(data, items, 0)
  }

  /** The records from index `i` on appended one after another. */
  function AddItemsFrom(data: seq<u8>, items: seq<Item>, i: nat): seq<u8>
    decreases |items| - i
  {
    if i >= |items| then data else AddItemsFrom(AddItem(data, items[i]), items, i + 1)
  }

  /** The fixed header fields in push order: style, extended style, item
      count, x, y, cx, cy, then zeros for no menu and the default class. */
  function HeaderFields(t: Template): seq<Field>
    requires |t.items| < 0x1_0000
  {
    [U32F(Word(t.style)), U32F(Word(t.exStyle)), U16F(|t.items|), U16F(I16Bits(t.x)), U16F(I16Bits(t.y)),
     U16F(I16Bits(t.cx)), U16F(I16Bits(t.cy)), U16F(0), U16F(0)]
  }

  const HeaderShape: seq<Width> := [W32, W32, W16, W16, W16, W16, W16, W16, W16]

  /** The bytes after the title under DS_SETFONT: point size and face. */
  function FontBytes(font: Option<Font>): seq<u8>
  {
    match font
    case None => []
    case Some(f) => U16Bytes(f.pointSize) + Utf16z(f.face)
  }

  /** The font block takes the point size and the face field. */
  function FontSize(font: Option<Font>): (r: nat)
    ensures r == |FontBytes(font)|
  {
    if font.Some? then 4 + 2 * |StripNul(font.value.face)| else 0
  }

  /** Everything before the first record: fixed header, title, font. */
  function HeaderBytes(t: Template): seq<u8>
    requires |t.items| < 0x1_0000
  {
    FieldsBytes(HeaderFields(t)) + Utf16z(t.title) + FontBytes(t.font)
  }

  /** The whole template. */
  function Serialize(t: Template): seq<u8>
    requires |t.items| < 0x1_0000
  {
    AddItems(HeaderBytes(t), t.items)
  }

  // ---------------------------------------------------------------------
  // The builder as written

  /** The caption of a record: a single zero unit when empty, otherwise the
      string through `push_utf16z`. */
  function PushCaption(data: seq<u8>, caption: seq<u16>): seq<u8>
  {
    if |caption| == 0 then PushU16(data, 0) else PushUtf16z(data, caption)
  }

  /** `add_dialog_item`: align to four bytes, push the fixed fields, the
      caption and a zero creation-data size. */
  function AddDialogItem(data: seq<u8>, style: bv32, exStyle: bv32, x: i16, y: i16, cx: i16, cy: i16,
                         id: u16, classOrdinal: u16, caption: seq<u16>): seq<u8>
  {
    var fixed := ItemFixed(Item(style, exStyle, x, y, cx, cy, id, classOrdinal, caption));
    PushU16(PushCaption(Align(data) + fixed, caption), 0)
  }

  /** `add_dialog_item` appends exactly one record at the next boundary. */
  lemma AddDialogItemLayout(data: seq<u8>, it: Item)
    ensures AddDialogItem(data, it.style, it.exStyle, it.x, it.y, it.cx, it.cy, it.id, it.classOrdinal, it.caption)
         == AddItem(data, it)
  {
    assert Item(it.style, it.exStyle, it.x, it.y, it.cx, it.cy, it.id, it.classOrdinal, it.caption) == it;
    PushUtf16zAppends(Align(data) + ItemFixed(it), it.caption);
  }

  /** The header as the builder pushes it: the fixed fields, the title
      through `push_utf16z`, then under a font the point size and the face
      through `push_utf16z`. */
  function BuildHeader(t: Template): seq<u8>
    requires |t.items| < 0x1_0000
  {
    var h := PushUtf16z(FieldsBytes(HeaderFields(t)), t.title);
    match t.font
    case None => h
    case Some(f) => PushUtf16z(PushU16(h, f.pointSize), f.face)
  }

  lemma BuildHeaderLayout(t: Template)
    requires |t.items| < 0x1_0000
    ensures BuildHeader(t) == HeaderBytes(t)
  {
    var hf := FieldsBytes(HeaderFields(t));
    PushUtf16zAppends(hf, t.title);
    if t.font.Some? {
      var h := hf + Utf16z(t.title);
      PushUtf16zAppends(PushU16(h, t.font.value.pointSize), t.font.value.face);
    }
  }

  // ---------------------------------------------------------------------
  // The parser

  /** The record whose fixed fields were read as `f`. */
  function ItemOf(f: seq<Field>, caption: seq<u16>): Item
    requires |f| == 9
  {
    Item(Flags(Value(f[0])), Flags(Value(f[1])), FromBits16(Low16(f[2])), FromBits16(Low16(f[3])), FromBits16(Low16(f[4])),
         FromBits16(Low16(f[5])), Low16(f[6]), Low16(f[8]), caption)
  }

  /** Reads one control record at the next four-byte boundary. */
  function ParseItem(d: seq<u8>, at: nat): (r: Option<(Item, nat)>)
    ensures r.Some? ==> r.value.1 <= |d|
  {
    ParseRecord(d, AlignUp(at))
  }

  /** A record at `s`: the fixed fields, whose class must be given as
      0xFFFF and an ordinal, then the caption. */
  function ParseRecord(d: seq<u8>, s: nat): (r: Option<(Item, nat)>)
    ensures r.Some? ==> r.value.1 <= |d|
  {
    match ReadFields(d, s, ItemShape)
    case None => None
    case Some((f, p)) => if f[7] != U16F(0xFFFF) then None else ParseCaption(d, f, p)
  }

  /** The caption up to its terminator and a zero creation-data size. A
      caption starting with 0xFFFF would be an ordinal and is refused. */
  function ParseCaption(d: seq<u8>, f: seq<Field>, p: nat): (r: Option<(Item, nat)>)
    requires |f| == 9
    ensures r.Some? ==> r.value.1 <= |d|
  {
    match ReadString(d, p)
    case None => None
    case Some((caption, next)) =>
      if next + 2 > |d| || U16At(d, next) != 0 || (|caption| > 0 && caption[0] == 0xFFFF) then None
      else Some((ItemOf(f, caption), next + 2))
  }

  /** Reads `n` records that must end exactly at the end of the buffer. */
  function ParseItems(d: seq<u8>, at: nat, n: nat): Option<seq<Item>>
    decreases n
  {
    if n == 0 then (if at == |d| then Some([]) else None)
    else match ParseItem(d, at)
      case None => None
      case Some((it, next)) =>
        match ParseItems(d, next, n - 1)
        case None => None
        case Some(rest) => Some([it] + rest)
  }

  /** The point size and face when the style announces them. */
  function ParseFont(d: seq<u8>, at: nat, present: bool): Option<(Option<Font>, nat)>
  {
    if !present then Some((None, at))
    else if at + 2 > |d| then None
    else match ReadString(d, at + 2)
      case None => None
      case Some((face, next)) => Some((Some(Font(U16At(d, at), face)), next))
  }

  /** Reads a whole template: the fixed header fields, which must announce
      no menu and the default class, the title, the font when the style has
      DS_SETFONT, then as many records as the header counts. */
  function Parse(d: seq<u8>): Option<Template>
  {
    match ReadFields(d, 0, HeaderShape)
    case None => None
    case Some((h, p)) => if h[7] != U16F(0) || h[8] != U16F(0) then None else ParseTitled(d, h, p)
  }

  /** The title after the fixed header fields `h`, and what follows it. */
  function ParseTitled(d: seq<u8>, h: seq<Field>, p: nat): Option<Template>
    requires |h| == 9
  {
    match ReadString(d, p)
    case None => None
    case Some((title, q)) => ParseBody(d, h, title, q)
  }

  /** The font block, when the style announces one, then the records. */
  function ParseBody(d: seq<u8>, h: seq<Field>, title: seq<u16>, p: nat): Option<Template>
    requires |h| == 9
  {
    match ParseFont(d, p, HasFlag(Flags(Value(h[0])), DS_SETFONT))
    case None => None
    case Some((font, q)) =>
      match ParseItems(d, q, Low16(h[2]))
      case None => None
      case Some(items) =>
        Some(Template(Flags(Value(h[0])), Flags(Value(h[1])), FromBits16(Low16(h[3])), FromBits16(Low16(h[4])),
                      FromBits16(Low16(h[5])), FromBits16(Low16(h[6])), title, font, items))
  }

  // ---------------------------------------------------------------------
  // Round trip

  /** A string the builder can terminate unambiguously: no zero unit before
      an optional final terminator. */
  predicate Terminable(units: seq<u16>) { NulFree(StripNul(units), 0) }

  /** No unit of `s` from index `i` on is zero. */
  predicate NulFree(s: seq<u16>, i: nat)
    decreases |s| - i
  {
    i >= |s| || (s[i] != 0 && NulFree(s, i + 1))
  }

  lemma {:induction false} NulFreeIndex(s: seq<u16>, i: nat)
    ensures NulFree(s, i) <==> forall j :: i <= j < |s| ==> s[j] != 0
    decreases |s| - i
  {
    if i < |s| {
      NulFreeIndex(s, i + 1);
    }
  }

  predicate ItemWellFormed(it: Item)
  {
    Terminable(it.caption) && !(|StripNul(it.caption)| > 0 && StripNul(it.caption)[0] == 0xFFFF)
  }

  predicate WellFormed(t: Template)
  {
    |t.items| < 0x1_0000
    && Terminable(t.title)
    && (t.font.Some? <==> HasFlag(t.style, DS_SETFONT))
    && (t.font.Some? ==> Terminable(t.font.value.face))
    && forall i :: 0 <= i < |t.items| ==> ItemWellFormed(t.items[i])
  }

  function CanonicalItem(it: Item): Item { it.(caption := StripNul(it.caption)) }

  function CanonicalFont(font: Option<Font>): Option<Font>
  {
    if font.Some? then Some(font.value.(face := StripNul(font.value.face))) else None
  }

  /** The template with every string stored without its terminator, which
      is what the parser hands back. */
  function Canonical(t: Template): Template
  {
    t.(title := StripNul(t.title), font := CanonicalFont(t.font), items := CanonicalItems(t.items))
  }

  function CanonicalItems(items: seq<Item>): (r: seq<Item>)
    ensures |r| == |items|
  {
    CanonicalItemsFrom(items, 0)
  }

  function CanonicalItemsFrom(items: seq<Item>, i: nat): (r: seq<Item>)
    requires i <= |items|
    ensures |r| == |items| - i
    decreases |items| - i
  {
    if i == |items| then [] else [CanonicalItem(items[i])] + CanonicalItemsFrom(items, i + 1)
  }

  /** The fixed fields of a record read back as its fields. */
  lemma ItemFieldsRoundTrip(it: Item, caption: seq<u16>)
    ensures Fits(ItemShape, ItemFields(it)) && ItemFields(it)[7] == U16F(0xFFFF)
    ensures ItemOf(ItemFields(it), caption) == it.(caption := caption)
  {
    var f := ItemFields(it);
    StyleRoundTrip(it.style);
    StyleRoundTrip(it.exStyle);
    CoordRoundTrip(it.x);
    CoordRoundTrip(it.y);
    CoordRoundTrip(it.cx);
    CoordRoundTrip(it.cy);
    assert Low16(f[6]) == it.id && Low16(f[8]) == it.classOrdinal;
  }

  /** A style word stored in a 32-bit field reads back as the flags. */
  lemma StyleRoundTrip(w: bv32)
    ensures Flags(Value(U32F(Word(w)))) == w
  {
  }

  /** A coordinate stored in a 16-bit field reads back as itself. */
  lemma CoordRoundTrip(v: i16)
    ensures FromBits16(Low16(U16F(I16Bits(v)))) == v
  {
  }

  /** The fixed header fields read back as the template's. */
  lemma HeaderFieldsRoundTrip(t: Template)
    requires |t.items| < 0x1_0000
    ensures Fits(HeaderShape, HeaderFields(t))
    ensures HeaderFields(t)[7] == U16F(0) && HeaderFields(t)[8] == U16F(0)
    ensures Flags(Value(HeaderFields(t)[0])) == t.style && Flags(Value(HeaderFields(t)[1])) == t.exStyle
    ensures Low16(HeaderFields(t)[2]) == |t.items|
    ensures FromBits16(Low16(HeaderFields(t)[3])) == t.x && FromBits16(Low16(HeaderFields(t)[4])) == t.y
    ensures FromBits16(Low16(HeaderFields(t)[5])) == t.cx && FromBits16(Low16(HeaderFields(t)[6])) == t.cy
  {
    StyleRoundTrip(t.style);
    StyleRoundTrip(t.exStyle);
    CoordRoundTrip(t.x);
    CoordRoundTrip(t.y);
    CoordRoundTrip(t.cx);
    CoordRoundTrip(t.cy);
  }

  /** Three blocks laid one after another from `at`. */
  lemma Within3(d: seq<u8>, at: nat, x: seq<u8>, y: seq<u8>, z: seq<u8>)
    requires Within(d, at, x + y + z)
    ensures Within(d, at, x) && Within(d, at + |x|, y) && Within(d, at + |x| + |y|, z)
  {
    WithinAppend(x + y, z);
    WithinAppend(x, y);
    WithinTrans(d, at, x + y + z, 0, x + y);
    WithinTrans(d, at, x + y, 0, x);
    WithinTrans(d, at, x + y, |x|, y);
    WithinTrans(d, at, x + y + z, |x + y|, z);
  }

  /** A string field found in a buffer reads back without terminator. */
  lemma FieldAt(d: seq<u8>, at: nat, value: seq<u16>, next: nat)
    requires Terminable(value) && Within(d, at, Utf16z(value)) && next == at + 2 + 2 * |StripNul(value)|
    ensures ReadString(d, at) == Some((StripNul(value), next))
  {
    NulFreeIndex(StripNul(value), 0);
    Utf16zField(value);
    StringWithin(d, at, Utf16z(value), StripNul(value));
    ReadStringAt(d, at, StripNul(value));
  }

  /** A run of fields, then a string field, then anything: the fields and
      the string read back and the rest follows the string. */
  lemma FieldsThenString(d: seq<u8>, s: nat, fs: seq<Field>, shape: seq<Width>, value: seq<u16>, rest: seq<u8>,
                          p: nat, q: nat)
    requires Fits(shape, fs) && Terminable(value)
    requires Within(d, s, FieldsBytes(fs) + Utf16z(value) + rest)
    requires p == s + |FieldsBytes(fs)| && q == p + 2 + 2 * |StripNul(value)|
    ensures ReadFields(d, s, shape) == Some((fs, p))
    ensures ReadString(d, p) == Some((StripNul(value), q))
    ensures Within(d, q, rest)
  {
    Within3(d, s, FieldsBytes(fs), Utf16z(value), rest);
    ReadFieldsOf(d, s, fs, shape);
    FieldAt(d, p, value, q);
  }

  /** A record takes 22 fixed bytes, two per caption unit, a two-byte
      terminator and a two-byte creation-data size. */
  function ItemSize(it: Item): nat { 26 + 2 * |StripNul(it.caption)| }

  lemma ItemBytesSize(it: Item)
    ensures |ItemFixed(it)| == 22 && |ItemBytes(it)| == ItemSize(it)
  {
    ItemFieldsRoundTrip(it, it.caption);
    FieldsSize(ItemFields(it), ItemShape, 0);
  }

  /** A record with fixed fields `fs` and caption `caption` sits in `d`
      from `s`. Its bytes are named only under `Open`, so a proof carrying
      this fact does not expand them. */
  ghost predicate RecordAt(d: seq<u8>, s: nat, fs: seq<Field>, caption: seq<u16>)
  {
    forall k {:trigger Open(d, k)} :: Open(d, k) ==> Within(d, s, FieldsBytes(fs) + Utf16z(caption) + U16Bytes(0))
  }

  /** The pieces of a record found in a buffer: its fixed fields, then its
      caption, then a zero that ends the record. */
  lemma RecordPartsAt(d: seq<u8>, s: nat, fs: seq<Field>, caption: seq<u16>)
    requires Fits(ItemShape, fs) && Terminable(caption) && RecordAt(d, s, fs, caption)
    ensures s + 26 + 2 * |StripNul(caption)| <= |d|
    ensures ReadFields(d, s, ItemShape) == Some((fs, s + 22))
    ensures ReadString(d, s + 22) == Some((StripNul(caption), s + 24 + 2 * |StripNul(caption)|))
    ensures U16At(d, s + 24 + 2 * |StripNul(caption)|) == 0
  {
    RecordFieldsAt(d, s, fs, caption);
    RecordCaptionAt(d, s, fs, caption);
  }

  lemma RecordFieldsAt(d: seq<u8>, s: nat, fs: seq<Field>, caption: seq<u16>)
    requires Fits(ItemShape, fs) && RecordAt(d, s, fs, caption)
    ensures ReadFields(d, s, ItemShape) == Some((fs, s + 22))
  {
    RecordOpen(d, s, fs, caption);
    Within3(d, s, FieldsBytes(fs), Utf16z(caption), U16Bytes(0));
    ReadFieldsOf(d, s, fs, ItemShape);
    FixedSize(fs);
  }

  lemma RecordCaptionAt(d: seq<u8>, s: nat, fs: seq<Field>, caption: seq<u16>)
    requires Fits(ItemShape, fs) && Terminable(caption) && RecordAt(d, s, fs, caption)
    ensures s + 26 + 2 * |StripNul(caption)| <= |d|
    ensures ReadString(d, s + 22) == Some((StripNul(caption), s + 24 + 2 * |StripNul(caption)|))
    ensures U16At(d, s + 24 + 2 * |StripNul(caption)|) == 0
  {
    RecordOpen(d, s, fs, caption);
    Within3(d, s, FieldsBytes(fs), Utf16z(caption), U16Bytes(0));
    FixedSize(fs);
    FieldAt(d, s + 22, caption, s + 24 + 2 * |StripNul(caption)|);
    ZeroAt(d, s + 24 + 2 * |StripNul(caption)|);
  }

  /** The bytes of a record found in a buffer. */
  lemma RecordOpen(d: seq<u8>, s: nat, fs: seq<Field>, caption: seq<u16>)
    requires RecordAt(d, s, fs, caption)
    ensures Within(d, s, FieldsBytes(fs) + Utf16z(caption) + U16Bytes(0))
  {
    assert Open(d, 0);
  }

  /** A zero `u16` found in a buffer reads back as zero. */
  lemma ZeroAt(d: seq<u8>, at: nat)
    requires Within(d, at, U16Bytes(0))
    ensures at + 2 <= |d| && U16At(d, at) == 0
  {
    U16Within(d, at, U16Bytes(0), 0);
  }

  /** Fixed fields with a class ordinal, a caption that is not an ordinal
      and a zero creation-data size make a record. */
  lemma ParseRecordOfParts(d: seq<u8>, s: nat, f: seq<Field>, caption: seq<u16>, p: nat, next: nat)
    requires ReadFields(d, s, ItemShape) == Some((f, p)) && f[7] == U16F(0xFFFF)
    requires ReadString(d, p) == Some((caption, next)) && next + 2 <= |d| && U16At(d, next) == 0
    requires !(|caption| > 0 && caption[0] == 0xFFFF)
    ensures ParseRecord(d, s) == Some((ItemOf(f, caption), next + 2))
  {
    ParseCaptionOf(d, f, caption, p, next);
  }

  /** A caption that is not an ordinal, then a zero creation-data size. */
  lemma ParseCaptionOf(d: seq<u8>, f: seq<Field>, caption: seq<u16>, p: nat, next: nat)
    requires |f| == 9 && ReadString(d, p) == Some((caption, next)) && next + 2 <= |d| && U16At(d, next) == 0
    requires !(|caption| > 0 && caption[0] == 0xFFFF)
    ensures ParseCaption(d, f, p) == Some((ItemOf(f, caption), next + 2))
  {
  }

  /** A record at the boundary after `at` reads back as the record. */
  lemma ParseItemAt(d: seq<u8>, at: nat, it: Item)
    requires ItemWellFormed(it) && RecordAt(d, AlignUp(at), ItemFields(it), it.caption)
    ensures ParseItem(d, at) == Some((CanonicalItem(it), AlignUp(at) + ItemSize(it)))
  {
    RecordPartsOf(d, AlignUp(at), it);
    ParseRecordOfItem(d, AlignUp(at), it);
  }

  /** Where the caption of `it`, read from `s + 22`, ends. */
  function CaptionEnd(s: nat, it: Item): nat { s + 24 + 2 * |StripNul(it.caption)| }

  /** The fixed fields of `it` read from `s`, then its caption, then a zero. */
  ghost predicate RecordPartsRead(d: seq<u8>, s: nat, it: Item)
  {
    && ReadFields(d, s, ItemShape) == Some((ItemFields(it), s + 22))
    && ReadString(d, s + 22) == Some((StripNul(it.caption), CaptionEnd(s, it)))
    && CaptionEnd(s, it) + 2 <= |d| && U16At(d, CaptionEnd(s, it)) == 0
  }

  /** The fixed fields and the caption of a record found at `s`. */
  lemma RecordPartsOf(d: seq<u8>, s: nat, it: Item)
    requires Terminable(it.caption) && RecordAt(d, s, ItemFields(it), it.caption)
    ensures RecordPartsRead(d, s, it)
  {
    ItemFieldsRoundTrip(it, it.caption);
    RecordPartsAt(d, s, ItemFields(it), it.caption);
  }

  /** The parts of a well-formed record read back as the record. */
  lemma ParseRecordOfItem(d: seq<u8>, s: nat, it: Item)
    requires ItemWellFormed(it) && RecordPartsRead(d, s, it)
    ensures ParseRecord(d, s) == Some((CanonicalItem(it), CaptionEnd(s, it) + 2))
  {
    ItemFieldsRoundTrip(it, StripNul(it.caption));
    ParseRecordOfParts(d, s, ItemFields(it), StripNul(it.caption), s + 22, CaptionEnd(s, it));
  }

  /** A record appended keeps the buffer as its start. */
  lemma AddItemExtends(data: seq<u8>, it: Item)
    ensures Within(AddItem(data, it), 0, data)
  {
    WithinAppend(data, Zeros(Pad(|data|)));
    WithinAppend(Align(data), ItemBytes(it));
    WithinTrans(AddItem(data, it), 0, Align(data), 0, data);
  }

  /** Everything written onto a buffer keeps the buffer as its start. */
  lemma {:induction false} AddItemsExtends(data: seq<u8>, items: seq<Item>, i: nat)
    ensures Within(AddItemsFrom(data, items, i), 0, data)
    decreases |items| - i
  {
    if i < |items| {
      var d := AddItem(data, items[i]);
      AddItemsExtends(d, items, i + 1);
      AddItemExtends(data, items[i]);
      WithinTrans(AddItemsFrom(d, items, i + 1), 0, d, 0, data);
    } else {
      WithinIndex(data, 0, data);
    }
  }

  /** The records of `items` from index `i` on lie in `d` from `at` to its
      end, each at the four-byte boundary after the previous one. */
  ghost predicate RecordsAt(d: seq<u8>, at: nat, items: seq<Item>, i: nat)
    decreases |items| - i
  {
    if i >= |items| then at == |d|
    else
      RecordAt(d, AlignUp(at), ItemFields(items[i]), items[i].caption)
      && RecordsAt(d, AlignUp(at) + ItemSize(items[i]), items, i + 1)
  }

  /** Appending records lays them out one after another. */
  lemma {:induction false} AddItemsLayout(data: seq<u8>, items: seq<Item>, i: nat)
    ensures RecordsAt(AddItemsFrom(data, items, i), |data|, items, i)
    decreases |items| - i
  {
    if i < |items| {
      var it := items[i];
      var d := AddItem(data, it);
      var r := AddItemsFrom(d, items, i + 1);
      AddItemsLayout(d, items, i + 1);
      AddItemsExtends(d, items, i + 1);
      WithinAppend(Align(data), ItemBytes(it));
      WithinTrans(r, 0, d, |Align(data)|, ItemBytes(it));
      ItemBytesSize(it);
    }
  }


  /** The records from index `i` on read back from `at`. The parse is
      named only under `Recall`, so the induction below carries it without
      expanding the parser. */
  ghost predicate ItemsRead(d: seq<u8>, at: nat, items: seq<Item>, i: nat)
    requires i <= |items|
  {
    forall k {:trigger Recall(d, at, k)} :: Recall(d, at, k) ==> ParseItems(d, at, |items| - i) == Some(CanonicalItemsFrom(items, i))
  }

  /** The record `it` reads back from `at`, ending at `next`; named only
      under `Recall`, like `ItemsRead`. */
  ghost predicate ItemRead(d: seq<u8>, at: nat, it: Item, next: nat)
  {
    forall k {:trigger Recall(d, at, k)} :: Recall(d, at, k) ==> ParseItem(d, at) == Some((it, next))
  }

  lemma ItemReadOf(d: seq<u8>, at: nat, it: Item)
    requires ItemWellFormed(it) && RecordAt(d, AlignUp(at), ItemFields(it), it.caption)
    ensures ItemRead(d, at, CanonicalItem(it), AlignUp(at) + ItemSize(it))
  {
    ParseItemAt(d, at, it);
  }

  /** A record read at `at`, then the records after it. */
  lemma ParseItemsCons(d: seq<u8>, at: nat, items: seq<Item>, i: nat, next: nat)
    requires i < |items| && ItemRead(d, at, CanonicalItem(items[i]), next) && ItemsRead(d, next, items, i + 1)
    ensures ItemsRead(d, at, items, i)
  {
    assert Recall(d, at, 0) && Recall(d, next, 0);
  }

  /** The first record of a layout, and the layout of the others after it. */
  lemma RecordsAtStep(d: seq<u8>, at: nat, items: seq<Item>, i: nat)
    requires i < |items| && RecordsAt(d, at, items, i)
    ensures RecordAt(d, AlignUp(at), ItemFields(items[i]), items[i].caption)
    ensures RecordsAt(d, AlignUp(at) + ItemSize(items[i]), items, i + 1)
  {
  }

  /** One record read at `at`, then the others. */
  lemma RecordsReadStep(d: seq<u8>, at: nat, it: Item, items: seq<Item>, i: nat, next: nat)
    requires i < |items| && it == items[i] && ItemWellFormed(it) && next == AlignUp(at) + ItemSize(it)
    requires RecordAt(d, AlignUp(at), ItemFields(it), it.caption)
    requires ItemsRead(d, next, items, i + 1)
    ensures ItemsRead(d, at, items, i)
  {
    ItemReadOf(d, at, it);
    ParseItemsCons(d, at, items, i, next);
  }

  /** Records laid out one after another read back in order. */
  lemma {:induction false} RecordsRead(d: seq<u8>, at: nat, items: seq<Item>, i: nat)
    requires i <= |items| && RecordsAt(d, at, items, i) && WellFormedFrom(items, i)
    ensures ItemsRead(d, at, items, i)
    decreases |items| - i
  {
    if i < |items| {
      var it := items[i];
      var next := AlignUp(at) + ItemSize(it);
      RecordsAtStep(d, at, items, i);
      RecordsRead(d, next, items, i + 1);
      RecordsReadStep(d, at, it, items, i, next);
    } else {
      RecordsReadEnd(d, at, items, i);
    }
  }

  /** The records from index `i` on are well formed (stated by recursion,
      so that the induction over records only ever looks at one). */
  ghost predicate WellFormedFrom(items: seq<Item>, i: nat)
    decreases |items| - i
  {
    i >= |items| || (ItemWellFormed(items[i]) && WellFormedFrom(items, i + 1))
  }

  lemma {:induction false} WellFormedFromAll(items: seq<Item>, i: nat)
    requires forall j :: 0 <= j < |items| ==> ItemWellFormed(items[j])
    ensures WellFormedFrom(items, i)
    decreases |items| - i
  {
    if i < |items| {
      WellFormedFromAll(items, i + 1);
    }
  }

  /** Past the last record the buffer ends, and no record is left to read. */
  lemma RecordsReadEnd(d: seq<u8>, at: nat, items: seq<Item>, i: nat)
    requires i == |items| && RecordsAt(d, at, items, i)
    ensures ItemsRead(d, at, items, i)
  {
  }

  /** Records written one after another read back in order. */
  lemma AddItemsRoundTrip(data: seq<u8>, items: seq<Item>)
    requires forall i :: 0 <= i < |items| ==> ItemWellFormed(items[i])
    ensures ParseItems(AddItems(data, items), |data|, |items|) == Some(CanonicalItems(items))
  {
    AddItemsLayout(data, items, 0);
    WellFormedFromAll(items, 0);
    RecordsRead(AddItems(data, items), |data|, items, 0);
    assert Recall(AddItems(data, items), |data|, 0);
  }

  /** A font block sitting at `at` reads back, its face without terminator. */
  lemma FontOfParts(d: seq<u8>, at: nat, font: Option<Font>, end: nat)
    requires font.Some? ==> Terminable(font.value.face)
    requires Within(d, at, FontBytes(font)) && end == at + FontSize(font)
    ensures ParseFont(d, at, font.Some?) == Some((CanonicalFont(font), end))
  {
    if font.Some? {
      FaceAt(d, at, font.value.pointSize, font.value.face, end);
    }
  }

  /** A point size then a face field read back as a font. */
  lemma FaceAt(d: seq<u8>, at: nat, size: u16, face: seq<u16>, end: nat)
    requires Terminable(face) && Within(d, at, U16Bytes(size) + Utf16z(face))
    requires end == at + 4 + 2 * |StripNul(face)|
    ensures ParseFont(d, at, true) == Some((Some(Font(size, StripNul(face))), end))
  {
    var pt := U16Bytes(size);
    WithinAppend(pt, Utf16z(face));
    WithinTrans(d, at, pt + Utf16z(face), 0, pt);
    WithinTrans(d, at, pt + Utf16z(face), 2, Utf16z(face));
    U16Within(d, at, pt, 0);
    FieldAt(d, at + 2, face, end);
  }

  /** The font block and records of `t` read back after its title. */
  lemma ParseBodyOf(d: seq<u8>, t: Template, p: nat, q: nat)
    requires |t.items| < 0x1_0000 && HasFlag(t.style, DS_SETFONT) == t.font.Some?
    requires ParseFont(d, p, t.font.Some?) == Some((CanonicalFont(t.font), q))
    requires ParseItems(d, q, |t.items|) == Some(CanonicalItems(t.items))
    ensures ParseBody(d, HeaderFields(t), StripNul(t.title), p) == Some(Canonical(t))
  {
    HeaderFieldsRoundTrip(t);
  }

  /** The header fields and title of `t` read back, followed by its body. */
  lemma ParseHeaderOf(d: seq<u8>, t: Template, p0: nat, p: nat, r: Option<Template>)
    requires |t.items| < 0x1_0000
    requires ReadFields(d, 0, HeaderShape) == Some((HeaderFields(t), p0))
    requires ReadString(d, p0) == Some((StripNul(t.title), p))
    requires ParseBody(d, HeaderFields(t), StripNul(t.title), p) == r
    ensures Parse(d) == r
  {
    HeaderFieldsRoundTrip(t);
  }

  /** The header takes 22 fixed bytes, the title field and the font block. */
  function HeaderSize(t: Template): nat
  {
    24 + 2 * |StripNul(t.title)| + FontSize(t.font)
  }

  lemma HeaderBytesSize(t: Template)
    requires |t.items| < 0x1_0000
    ensures |FieldsBytes(HeaderFields(t))| == 22 && |HeaderBytes(t)| == HeaderSize(t)
  {
    HeaderFieldsRoundTrip(t);
    FieldsSize(HeaderFields(t), HeaderShape, 0);
  }

  /** The header of `t` sits at the start of `d`, named only under `Open`. */
  ghost predicate HeaderAt(d: seq<u8>, t: Template)
    requires |t.items| < 0x1_0000
  {
    forall k {:trigger Open(d, k)} :: Open(d, k) ==> Within(d, 0, HeaderBytes(t))
  }

  /** The pieces of a header found at the start of a buffer: its fixed
      fields, its title, then its font block. */
  lemma HeaderPartsAt(d: seq<u8>, t: Template)
    requires WellFormed(t) && HeaderAt(d, t)
    ensures ReadFields(d, 0, HeaderShape) == Some((HeaderFields(t), 22))
    ensures ReadString(d, 22) == Some((StripNul(t.title), 24 + 2 * |StripNul(t.title)|))
    ensures ParseFont(d, 24 + 2 * |StripNul(t.title)|, t.font.Some?) == Some((CanonicalFont(t.font), HeaderSize(t)))
  {
    assert Open(d, 0);
    HeaderBytesSize(t);
    HeaderFieldsRoundTrip(t);
    FieldsThenString(d, 0, HeaderFields(t), HeaderShape, t.title, FontBytes(t.font), 22, 24 + 2 * |StripNul(t.title)|);
    FontOfParts(d, 24 + 2 * |StripNul(t.title)|, t.font, HeaderSize(t));
  }

  /** A buffer that starts with the header of `t` and holds its records
      after it parses as `t`. */
  lemma ParseOfHeader(d: seq<u8>, t: Template)
    requires WellFormed(t) && HeaderAt(d, t)
    requires ParseItems(d, HeaderSize(t), |t.items|) == Some(CanonicalItems(t.items))
    ensures Parse(d) == Some(Canonical(t))
  {
    HeaderPartsAt(d, t);
    ParseBodyOf(d, t, 24 + 2 * |StripNul(t.title)|, HeaderSize(t));
    ParseHeaderOf(d, t, 22, 24 + 2 * |StripNul(t.title)|, Some(Canonical(t)));
  }

  /** Every well-formed template survives serialisation and parsing, its
      strings coming back without terminators. */
  lemma ParseSerialize(t: Template)
    requires WellFormed(t)
    ensures Parse(Serialize(t)) == Some(Canonical(t))
  {
    AddItemsExtends(HeaderBytes(t), t.items, 0);
    HeaderBytesSize(t);
    AddItemsRoundTrip(HeaderBytes(t), t.items);
    assert HeaderAt(Serialize(t), t);
    ParseOfHeader(Serialize(t), t);
  }

  /** Distinct well-formed templates (up to string terminators) never share
      a serialisation. */
  lemma SerializeInjective(t1: Template, t2: Template)
    requires WellFormed(t1) && WellFormed(t2) && Serialize(t1) == Serialize(t2)
    ensures Canonical(t1) == Canonical(t2)
  {
    ParseSerialize(t1);
    ParseSerialize(t2);
  }
}

=== FILE: dialogs.dfy ===
/** The canonical request and result types every backend accepts and
    returns (src/lib.rs), and the behaviour their documentation promises. */
module Dialogs {
  import opened Base

  /** Icon of a message box or notification. */
  datatype MessageIcon = Info | Warning | Error | Question

  /** Button set of a message box. */
  datatype MessageButtons = Ok | OkCancel | YesNo | YesNoCancel

  /** The button the user chose. */
  datatype MessageResult = Ok | Cancel | Yes | No

  /** A message box request; the owner window is not modelled. */
  datatype MessageBox = MessageBox(title: string, message: string, icon: MessageIcon, buttons: MessageButtons)

  /** A file filter: a description and its glob patterns. */
  datatype FileFilter = FileFilter(desc: string, patterns: seq<string>)

  /** A file dialog request (pick one, pick many or save). */
  datatype FileDialog = FileDialog(
    title: string,
    directory: Option<string>,
    fileName: Option<string>,
    filter: Option<seq<FileFilter>>)

  /** A folder dialog request. */
  datatype FolderDialog = FolderDialog(title: string, directory: Option<string>)

  /** How a text input dialog presents its field. */
  datatype TextInputMode = SingleLine | MultiLine | Password

  /** A text input request. */
  datatype TextInput = TextInput(title: string, message: string, value: string, mode: TextInputMode)

  /** An RGB colour; each channel is a `u8`, so always within [0, 255]. */
  datatype ColorValue = ColorValue(red: u8, green: u8, blue: u8)

  /** A colour picker request seeded with an initial colour. */
  datatype ColorPicker = ColorPicker(title: string, value: ColorValue)

  /** A notification popup; `timeout` is in milliseconds, `<= 0` meaning it
      never closes by itself. */
  datatype NotifyPopup = NotifyPopup(title: string, message: string, icon: MessageIcon, timeout: i32)

  /** The results a button set can produce: one per button shown. */
  function Members(b: MessageButtons): set<MessageResult>
  {
    match b
    case Ok => {MessageResult.Ok}
    case OkCancel => {MessageResult.Ok, MessageResult.Cancel}
    case YesNo => {MessageResult.Yes, MessageResult.No}
    case YesNoCancel => {MessageResult.Yes, MessageResult.No, MessageResult.Cancel}
  }

  /** The accepting button of a set: OK, or Yes for the Yes/No sets. */
  function Affirmative(b: MessageButtons): (r: MessageResult)
    ensures r in Members(b)
    ensures r == MessageResult.Ok || r == MessageResult.Yes
  {
    if b == MessageButtons.Ok || b == OkCancel then MessageResult.Ok else MessageResult.Yes
  }

  /** The caption of the button that yields a result. */
  function Label(r: MessageResult): string
  {
    match r
    case Ok => "OK"
    case Cancel => "Cancel"
    case Yes => "Yes"
    case No => "No"
  }

  /** Reading a caption back: the inverse of `Label`. */
  function FromLabel(s: string): (r: Option<MessageResult>)
    ensures r.Some? ==> Label(r.value) == s
    ensures forall m :: Label(m) == s ==> r == Some(m)
  {
    if s == "OK" then Some(MessageResult.Ok)
    else if s == "Cancel" then Some(MessageResult.Cancel)
    else if s == "Yes" then Some(MessageResult.Yes)
    else if s == "No" then Some(MessageResult.No)
    else None
  }

  /** The initial location a file dialog documents: directory and file name
      joined when both are set, otherwise whichever one is set. */
  function InitialPath(directory: Option<string>, fileName: Option<string>,
                       join: (string, string) -> string): Option<string>
  {
    match (directory, fileName)
    case (Some(d), Some(f)) => Some(join(d, f))
    case (Some(d), None) => Some(d)
    case (None, Some(f)) => Some(f)
    case (None, None) => None
  }

  /** A notification closes by itself exactly when its timeout is positive. */
  predicate AutoCloses(p: NotifyPopup) { p.timeout > 0 }
}

=== FILE: gtk.dfy ===
/** The pure helpers of the GTK adapters (src/linux/gtk3/mod.rs and
    src/linux/gtk4/mod.rs, which share them): C string preparation, the
    initial path, and collecting the selected paths out of GLib containers.
    A null pointer is `None`; the containers are sequences. */
module Gtk {
  import opened Base
  import opened Text
  import opened Paths
  import opened Dialogs
  import Helpers

  /** `cstring`: text handed to GTK as a C string. Text without NUL is kept;
      otherwise every NUL becomes a space, so the result is never rejected. */
  function CString(value: string): (r: string)
    ensures '\0' !in r
    ensures |r| == |value|
    ensures forall i :: 0 <= i < |value| ==> r[i] == (if value[i] == '\0' then ' ' else value[i])
  {
    if '\0' !in value then value
    else
      ReplaceSingle(value, '\0', ' ');
      ReplaceChar(value, '\0', " ")
  }

  /** Replacing a character by one other character keeps every position. */
  lemma {:induction false} ReplaceSingle(s: string, c: char, d: char)
    ensures |ReplaceChar(s, c, [d])| == |s|
    ensures forall i :: 0 <= i < |s| ==> ReplaceChar(s, c, [d])[i] == (if s[i] == c then d else s[i])
    decreases |s|
  {
    if |s| > 0 {
      ReplaceSingle(s[1..], c, d);
      var r := ReplaceChar(s, c, [d]);
      assert r == [if s[0] == c then d else s[0]] + ReplaceChar(s[1..], c, [d]);
      forall i | 1 <= i < |s| ensures r[i] == (if s[i] == c then d else s[i]) {
        assert r[i] == ReplaceChar(s[1..], c, [d])[i - 1];
        assert s[1..][i - 1] == s[i];
      }
    }
  }

  /** `file_path`: the initial location, or none when neither part is set. */
  function FilePath(directory: Option<string>, fileName: Option<string>): (r: Option<string>)
    ensures r == InitialPath(directory, fileName, UnixJoin)
    ensures r.None? <==> directory.None? && fileName.None?
  {
    match (directory, fileName)
    case (Some(dir), Some(file)) => Some(UnixJoin(dir, file))
    case (Some(dir), None) => Some(dir)
    case (None, Some(file)) => Some(file)
    case (None, None) => None
  }

  /** The GTK adapters pass the same initial path the helper adapters do,
      except that no path is passed where the helpers pass ".". */
  lemma FilePathAgreesWithHelpers(directory: Option<string>, fileName: Option<string>)
    ensures Helpers.FilePath(directory, fileName) == FilePath(directory, fileName).GetOr(".")
  {
  }

  /** Reference definition: the non-null entries of a list, in order. */
  function Present(entries: seq<Option<string>>): (r: seq<string>)
    ensures |r| <= |entries|
    decreases |entries|
  {
    if |entries| == 0 then []
    else
      match entries[|entries| - 1]
      case Some(p) => Present(entries[..|entries| - 1]) + [p]
      case None => Present(entries[..|entries| - 1])
  }

  /** Every entry that is present comes out, and nothing else. */
  lemma {:induction false} PresentMembers(entries: seq<Option<string>>)
    ensures forall p :: p in Present(entries) <==> Some(p) in entries
    decreases |entries|
  {
    if |entries| > 0 {
      var front := entries[..|entries| - 1];
      PresentMembers(front);
      assert entries == front + [entries[|entries| - 1]];
    }
  }

  /** `collect_file_list`: walk the singly linked list and keep the file
      name of every node whose data pointer is not null. */
  method CollectFileList(list: seq<Option<string>>) returns (result: seq<string>)
    ensures result == Present(list)
    ensures (forall i :: 0 <= i < |list| ==> list[i].Some?) ==> |result| == |list|
  {
    result := [];
    var i := 0;
    while i < |list|
      invariant 0 <= i <= |list|
      invariant result == Present(list[..i])
      invariant (forall j :: 0 <= j < i ==> list[j].Some?) ==> |result| == i
    {
      assert list[..i + 1][..i] == list[..i];
      if list[i].Some? {
        result := result + [list[i].value];
      }
      i := i + 1;
    }
    assert list[..i] == list;
  }

  /** One item of a GTK4 list model: a null item, a file without a local
      path, or a file with one. */
  function ItemPath(item: Option<Option<string>>): Option<string>
  {
    match item
    case Some(Some(p)) => Some(p)
    case _ => None
  }

  /** `collect_file_model`: a null model gives no paths; otherwise the local
      path of every item that has one, in model order. */
  method CollectFileModel(model: Option<seq<Option<Option<string>>>>) returns (result: seq<string>)
    ensures model.None? ==> result == []
    ensures model.Some? ==> result == Present(seq(|model.value|, i requires 0 <= i < |model.value| => ItemPath(model.value[i])))
  {
    if model.None? {
      return [];
    }
    var items := model.value;
    ghost var paths := seq(|items|, i requires 0 <= i < |items| => ItemPath(items[i]));
    result := [];
    var index := 0;
    while index < |items|
      invariant 0 <= index <= |items|
      invariant result == Present(paths[..index])
    {
      assert paths[..index + 1][..index] == paths[..index];
      if ItemPath(items[index]).Some? {
        result := result + [ItemPath(items[index]).value];
      }
      index := index + 1;
    }
    assert paths[..index] == paths;
  }
}

=== FILE: helpers.dfy ===
/** Pieces the zenity and kdialog adapters (src/linux/zenity.rs,
    src/linux/kdialog.rs) each carry an identical copy of: the initial path
    argument, stdout line framing, `#RRGGBB` colours, notification icons and
    millisecond-to-second rounding. */
module Helpers {
  import opened Base
  import opened Utils
  import opened Text
  import opened RustInt
  import opened Paths
  import opened Dialogs

  /** `file_path`: the documented initial path, or "." when neither the
      directory nor the file name is set. */
  function FilePath(directory: Option<string>, fileName: Option<string>): (r: string)
    ensures r == InitialPath(directory, fileName, UnixJoin).GetOr(".")
    ensures directory.Some? && fileName.Some? && !IsUnixAbsolute(fileName.value) ==>
      directory.value <= r && r[|r| - |fileName.value|..] == fileName.value
  {
    match (directory, fileName)
    case (Some(dir), Some(file)) => UnixJoin(dir, file)
    case (Some(dir), None) => dir
    case (None, Some(file)) => file
    case (None, None) => "."
  }

  /** The folder argument: the directory, or "." when none is given. */
  function FolderPath(directory: Option<string>): (r: string)
    ensures directory.Some? ==> r == directory.value
    ensures directory.None? ==> r == "."
  {
    directory.GetOr(".")
  }

  /** Multi-file stdout framing: split on '\n' and drop empty pieces. */
  function OutputLines(stdout: string): (r: seq<string>)
    ensures forall i :: 0 <= i < |r| ==> r[i] != [] && '\n' !in r[i]
  {
    NonEmpty(Split(stdout, '\n'))
  }

  /** `find(|line| !line.is_empty())` over the pieces. */
  function FindNonEmpty(xs: seq<string>): (r: Option<string>)
    ensures r == (if |NonEmpty(xs)| > 0 then Some(NonEmpty(xs)[0]) else None)
    decreases |xs|
  {
    if |xs| == 0 then None
    else if xs[0] != [] then Some(xs[0])
    else FindNonEmpty(xs[1..])
  }

  /** Single-path stdout framing (save and folder dialogs): the first
      non-empty line, which is the first entry multi-file framing would give. */
  function FirstLine(stdout: string): (r: Option<string>)
    ensures r.None? <==> |OutputLines(stdout)| == 0
    ensures r.Some? ==> r.value == OutputLines(stdout)[0]
  {
    FindNonEmpty(Split(stdout, '\n'))
  }

  lemma {:induction false} NonEmptyAppend<T>(a: seq<seq<T>>, b: seq<seq<T>>)
    ensures NonEmpty(a + b) == NonEmpty(a) + NonEmpty(b)
    decreases |a|
  {
    if |a| == 0 {
      assert a + b == b;
    } else {
      assert (a + b)[1..] == a[1..] + b;
      NonEmptyAppend(a[1..], b);
    }
  }

  /** Paths written one per line, with or without a final newline, are read
      back exactly and in order. */
  lemma OutputLinesOfJoin(paths: seq<string>)
    requires |paths| >= 1
    requires forall i :: 0 <= i < |paths| ==> paths[i] != [] && '\n' !in paths[i]
    ensures OutputLines(Join(paths, "\n")) == paths
    ensures OutputLines(Join(paths, "\n") + "\n") == paths
  {
    SplitJoin(paths, '\n');
    JoinSnoc(paths, "", "\n");
    assert Join(paths, "\n") + "\n" == Join(paths + [""], "\n");
    SplitJoin(paths + [""], '\n');
    NonEmptyAppend(paths, [""]);
  }

  /** The framing on the example of two paths and a trailing newline. */
  lemma OutputLinesExample()
    ensures OutputLines("/a/b.txt\n/a/c.txt\n") == ["/a/b.txt", "/a/c.txt"]
  {
    var paths := ["/a/b.txt", "/a/c.txt"];
    assert '\n' !in paths[0] && '\n' !in paths[1];
    assert paths[1..] == ["/a/c.txt"];
    assert Join(paths, "\n") + "\n" == "/a/b.txt\n/a/c.txt\n";
    OutputLinesOfJoin(paths);
  }

  /** Empty output and blank lines give no paths at all. */
  lemma OutputLinesBlank()
    ensures OutputLines("") == []
    ensures OutputLines("\n\n") == []
  {
    SplitConcat([], [], '\n');
    assert Split("\n", '\n') == [[], []] by { assert "\n" == [] + ['\n'] + []; }
    SplitConcat([], "\n", '\n');
    assert "\n\n" == [] + ['\n'] + "\n";
  }

  /* ---------- interpreting the helper's result ---------- */

  /** `pick_files` as written (both adapters): any exit code other than 0 is
      a cancel, and exit 0 gives every non-empty stdout line, even when there
      are none. */
  function PickFilesAsWritten(code: Option<i32>, stdout: string): (r: Option<seq<string>>)
    ensures r.Some? <==> code == Some(0)
    ensures r.Some? ==> forall i :: 0 <= i < |r.value| ==> r.value[i] != [] && '\n' !in r.value[i]
  {
    if code != Some(0) then None else Some(OutputLines(stdout))
  }

  /** With exit 0 and nothing on stdout the as-written result is an empty
      list rather than no result. */
  lemma PickFilesAsWrittenEmpty()
    ensures PickFilesAsWritten(Some(0), "") == Some([])
  {
    OutputLinesBlank();
  }

  /** The evidently intended `pick_files`: no result unless at least one path
      was printed. */
  function PickFiles(code: Option<i32>, stdout: string): (r: Option<seq<string>>)
    ensures r.Some? <==> code == Some(0) && |OutputLines(stdout)| > 0
    ensures r.Some? ==> |r.value| >= 1 && forall i :: 0 <= i < |r.value| ==> r.value[i] != [] && '\n' !in r.value[i]
    ensures r.Some? ==> PickFilesAsWritten(code, stdout) == r
  {
    if code != Some(0) then None
    else
      var lines := OutputLines(stdout);
      if |lines| == 0 then None else Some(lines)
  }

  /** Paths printed one per line come back in order. */
  lemma PickFilesReadsPaths(paths: seq<string>)
    requires |paths| >= 1
    requires forall i :: 0 <= i < |paths| ==> paths[i] != [] && '\n' !in paths[i]
    ensures PickFiles(Some(0), Join(paths, "\n") + "\n") == Some(paths)
  {
    OutputLinesOfJoin(paths);
  }

  /** `save_file` and `folder_dialog` (both adapters): the first non-empty
      line after exit 0. */
  function SinglePath(code: Option<i32>, stdout: string): (r: Option<string>)
    ensures r.Some? <==> code == Some(0) && |OutputLines(stdout)| > 0
    ensures r.Some? ==> r.value != [] && '\n' !in r.value
  {
    if code != Some(0) then None else FirstLine(stdout)
  }

  /** `pick_file`: the first entry of the multi-file result. */
  function PickFile(code: Option<i32>, stdout: string): (r: Option<string>)
    ensures r == SinglePath(code, stdout)
  {
    match PickFilesAsWritten(code, stdout)
    case Some(paths) => if |paths| > 0 then Some(paths[0]) else None
    case None => None
  }

  /** `u32::div_ceil(ms, 1000)` for a positive millisecond count: the
      smallest number of whole seconds that covers it. */
  function CeilSeconds(ms: int): (r: nat)
    requires ms > 0
    ensures (r - 1) * 1000 < ms <= r * 1000
    ensures r >= 1
  {
    (ms + 999) / 1000
  }

  /** A digit is neither white space, a comma nor a line break. */
  lemma DigitIsPlain(c: char, radix: nat)
    requires IsDigit(c, radix)
    ensures !IsWhitespace(c) && c != ',' && c != '\n' && c != '\r'
  {
  }

  /** Three digit strings joined by commas, each later one optionally
      preceded by one space, split back into the three fields. */
  lemma SplitThreeFields(r: string, g: string, b: string, sp: string)
    requires sp == "" || sp == " "
    requires AllDigits(r, 10) && AllDigits(g, 10) && AllDigits(b, 10)
    ensures Split(r + "," + sp + g + "," + sp + b, ',') == [r, sp + g, sp + b]
  {
    var parts := [r, sp + g, sp + b];
    assert ',' !in r && ',' !in sp + g && ',' !in sp + b by {
      assert !IsDigit(',', 10);
    }
    assert parts[1..] == [sp + g, sp + b] && parts[1..][1..] == [sp + b];
    assert Join(parts[1..], ",") == (sp + g) + "," + (sp + b);
    assert Join(parts, ",") == r + "," + ((sp + g) + "," + (sp + b));
    assert Join(parts, ",") == r + "," + sp + g + "," + sp + b;
    SplitJoin(parts, ',');
  }

  /** Trimming a decimal numeral with at most a leading space gives the
      numeral. */
  lemma DecimalTrim(d: string, sp: string)
    requires sp == "" || sp == " "
    requires |d| >= 1 && AllDigits(d, 10)
    ensures Trim(sp + d) == d
  {
    assert !IsWhitespace(d[0]) && !IsWhitespace(d[|d| - 1]) by {
      assert IsDigit(d[0], 10) && IsDigit(d[|d| - 1], 10);
    }
    if sp == " " {
      assert (sp + d)[1..] == d;
    } else {
      assert sp + d == d;
    }
  }

  /** Icon name for notifications. */
  function NotifyIcon(icon: MessageIcon): string
  {
    match icon
    case Info => "dialog-information"
    case Question => "dialog-information"
    case Warning => "dialog-warning"
    case Error => "dialog-error"
  }

  /** `format!("#{:02X}{:02X}{:02X}", ...)`. */
  function FormatColor(c: ColorValue): (r: string)
    ensures |r| == 7 && r[0] == '#'
  {
    "#" + Hex2(c.red) + Hex2(c.green) + Hex2(c.blue)
  }

  /** UTF-8 length of a character. */
  function Utf8Width(c: char): nat
  {
    if c as int < 0x80 then 1
    else if c as int < 0x800 then 2
    else if c as int < 0x1_0000 then 3
    else 4
  }

  /** `str::len`: the UTF-8 byte length. */
  function Utf8Len(s: string): (n: nat)
    ensures n >= |s|
    ensures (forall i :: 0 <= i < |s| ==> s[i] as int < 0x80) ==> n == |s|
    decreases |s|
  {
    if |s| == 0 then 0 else Utf8Width(s[0]) + Utf8Len(s[1..])
  }

  predicate IsAscii(s: string) { forall i :: 0 <= i < |s| ==> s[i] as int < 0x80 }

  /** The text after an optional leading '#'. */
  function StripHash(value: string): string
  {
    if |value| > 0 && value[0] == '#' then value[1..] else value
  }

  /** Which strings the hex branch of `parse_color` accepts: after an optional
      '#', ASCII text of 6 or 8 bytes whose two-character fields each parse as
      a `u8` in base 16 (a '+' sign included, as `from_str_radix` allows). */
  predicate HexWellFormed(v: string)
  {
    && IsAscii(v)
    && (|v| == 6 || |v| == 8)
    && Accepts(v[0..2], 16, 255) && Accepts(v[2..4], 16, 255) && Accepts(v[4..6], 16, 255)
    && (|v| == 8 ==> Accepts(v[6..8], 16, 255))
  }

  /** The hex branch of `parse_color`, applied to already trimmed text. The
      alpha field, when present, is validated and then ignored. */
  function ParseHex(value: string): (r: Option<ColorValue>)
    ensures r.Some? <==> HexWellFormed(StripHash(value))
    ensures r.Some? ==> var v := StripHash(value);
      r.value == ColorValue(ParseUnsigned(v[0..2], 16, 255).value,
                            ParseUnsigned(v[2..4], 16, 255).value,
                            ParseUnsigned(v[4..6], 16, 255).value)
  {
    var v := StripHash(value);
    if Utf8Len(v) != 6 && Utf8Len(v) != 8 then None
    else if !IsAscii(v) then None
    else
      match (ParseUnsigned(v[0..2], 16, 255), ParseUnsigned(v[2..4], 16, 255), ParseUnsigned(v[4..6], 16, 255))
      case (Some(red), Some(green), Some(blue)) =>
        if |v| == 8 && ParseUnsigned(v[6..8], 16, 255).None? then None
        else Some(ColorValue(red, green, blue))
      case _ => None
  }

  /** Hex formatting and parsing are inverse, with or without an alpha pair. */
  lemma HexColorRoundTrip(c: ColorValue, alpha: u8)
    ensures ParseHex(FormatColor(c)) == Some(c)
    ensures ParseHex(FormatColor(c) + Hex2(alpha)) == Some(c)
  {
    var f := FormatColor(c);
    assert StripHash(f) == Hex2(c.red) + Hex2(c.green) + Hex2(c.blue);
    assert StripHash(f)[0..2] == Hex2(c.red);
    assert StripHash(f)[2..4] == Hex2(c.green);
    assert StripHash(f)[4..6] == Hex2(c.blue);
    HexRoundTrip(c.red);
    HexRoundTrip(c.green);
    HexRoundTrip(c.blue);
    var g := f + Hex2(alpha);
    assert StripHash(g) == StripHash(f) + Hex2(alpha);
    assert StripHash(g)[0..2] == Hex2(c.red);
    assert StripHash(g)[2..4] == Hex2(c.green);
    assert StripHash(g)[4..6] == Hex2(c.blue);
    assert StripHash(g)[6..8] == Hex2(alpha);
    HexRoundTrip(alpha);
  }

  /** Rust's integer parser lets a '+' stand in front of a single hex digit,
      so sign-carrying text is accepted. */
  lemma ParseHexSignedFields()
    ensures ParseHex("#+F+F+F") == Some(ColorValue(15, 15, 15))
  {
    var v := "+F+F+F";
    assert StripHash("#+F+F+F") == v;
    assert IsAscii(v);
    assert v[0..2] == "+F" && v[2..4] == "+F" && v[4..6] == "+F";
    ParseSignExamples();
  }

  /** Three-digit shorthand, odd lengths and non-ASCII text are rejected. */
  lemma ParseHexRejects()
    ensures ParseHex("#FFF") == None
    ensures ParseHex("#12345") == None
    ensures ParseHex("\U{E9}\U{E9}\U{E9}\U{E9}\U{E9}\U{E9}") == None
  {
    assert StripHash("#FFF") == "FFF" && IsAscii("FFF");
    assert StripHash("#12345") == "12345" && IsAscii("12345");
    var e := "\U{E9}\U{E9}\U{E9}\U{E9}\U{E9}\U{E9}";
    assert StripHash(e) == e;
    assert !IsAscii(e) by { assert e[0] as int == 0xE9; }
  }
}

=== FILE: input_controls.dfy ===
/** What the two text input templates (src/win32/input.rs:98-180 and
    src/windows/win32/input.rs:212-295) have in common: four controls
    (label, edit box, OK, Cancel) with the same ids, classes and captions. */
module InputControls {
  import opened Base
  import opened DialogTemplate
  import Utf16

  const LABEL_ID: u16 := 1001
  const EDIT_ID: u16 := 1002
  const IDOK: u16 := 1
  const IDCANCEL: u16 := 2

  /** "OK" and "Cancel" as UTF-16 units. */
  const OK_TEXT: seq<u16> := [0x4F, 0x4B]
  const CANCEL_TEXT: seq<u16> := [0x43, 0x61, 0x6E, 0x63, 0x65, 0x6C]

  lemma CaptionUnits()
    ensures Utf16.Encode("OK") == OK_TEXT && Utf16.Encode("Cancel") == CANCEL_TEXT
    ensures Utf16.NullTerminated("OK") == OK_TEXT + [0]
    ensures Utf16.NullTerminated("Cancel") == CANCEL_TEXT + [0]
  {
    Utf16.EncodeBmp("OK");
    Utf16.EncodeBmp("Cancel");
  }

  /** The captions the controls carry: none for the label and the edit box,
      the null-terminated button texts for the buttons. */
  predicate ControlCaption(caption: seq<u16>)
  {
    caption == [] || caption == OK_TEXT + [0] || caption == CANCEL_TEXT + [0]
  }

  /** A text without zero units, terminated, reads back as itself. */
  lemma TerminatedReads(text: seq<u16>)
    requires forall i :: 0 <= i < |text| ==> text[i] != 0
    ensures Terminable(text + [0]) && StripNul(text + [0]) == text
  {
    assert StripNul(text + [0]) == text;
    NulFreeIndex(text, 0);
  }

  /** Such a caption is written unambiguously and reads back as its text. */
  lemma ControlCaptionReads(it: Item)
    requires ControlCaption(it.caption)
    ensures ItemWellFormed(it)
    ensures it.caption == OK_TEXT + [0] ==> CanonicalItem(it).caption == OK_TEXT
    ensures it.caption == CANCEL_TEXT + [0] ==> CanonicalItem(it).caption == CANCEL_TEXT
    ensures it.caption == [] ==> CanonicalItem(it) == it
  {
    if it.caption == OK_TEXT + [0] {
      TerminatedReads(OK_TEXT);
    } else if it.caption == CANCEL_TEXT + [0] {
      TerminatedReads(CANCEL_TEXT);
    }
  }

  /** Four records appended one after another. */
  lemma AddItemsFour(data: seq<u8>, items: seq<Item>)
    requires |items| == 4
    ensures AddItems(data, items)
         == AddItem(AddItem(AddItem(AddItem(data, items[0]), items[1]), items[2]), items[3])
  {
    var d1 := AddItem(data, items[0]);
    var d2 := AddItem(d1, items[1]);
    var d3 := AddItem(d2, items[2]);
    assert AddItemsFrom(AddItem(d3, items[3]), items, 4) == AddItem(d3, items[3]);
    assert AddItemsFrom(d3, items, 3) == AddItem(d3, items[3]);
    assert AddItemsFrom(d2, items, 2) == AddItemsFrom(d3, items, 3);
    assert AddItemsFrom(d1, items, 1) == AddItemsFrom(d2, items, 2);
  }

  /** Four records made canonical one by one. */
  lemma CanonicalFour(items: seq<Item>)
    requires |items| == 4
    ensures CanonicalItems(items)
         == [CanonicalItem(items[0]), CanonicalItem(items[1]), CanonicalItem(items[2]), CanonicalItem(items[3])]
  {
    assert CanonicalItemsFrom(items, 4) == [];
    assert CanonicalItemsFrom(items, 3) == [CanonicalItem(items[3])];
    assert CanonicalItemsFrom(items, 2) == [CanonicalItem(items[2]), CanonicalItem(items[3])];
    assert CanonicalItemsFrom(items, 1) == [CanonicalItem(items[1]), CanonicalItem(items[2]), CanonicalItem(items[3])];
  }

  /** Four controls: two without caption, then the OK and Cancel buttons
      with their null-terminated texts. */
  predicate FourControls(items: seq<Item>)
  {
    |items| == 4 && items[0].caption == [] && items[1].caption == []
    && items[2].caption == OK_TEXT + [0] && items[3].caption == CANCEL_TEXT + [0]
  }

  /** Such controls are all well formed ... */
  lemma ControlsWellFormed(items: seq<Item>)
    requires FourControls(items)
    ensures forall i :: 0 <= i < |items| ==> ItemWellFormed(items[i])
  {
    forall i | 0 <= i < |items|
      ensures ItemWellFormed(items[i])
    {
      assert i == 0 || i == 1 || i == 2 || i == 3;
      ControlCaptionReads(items[i]);
    }
  }

  /** ... and read back with the button texts. */
  lemma ControlsRead(items: seq<Item>)
    requires FourControls(items)
    ensures CanonicalItems(items)
         == [items[0], items[1], items[2].(caption := OK_TEXT), items[3].(caption := CANCEL_TEXT)]
  {
    ControlCaptionReads(items[2]);
    ControlCaptionReads(items[3]);
    CanonicalFour(items);
  }

  /** A title the builder can terminate: a null-terminated string without
      embedded zero units. */
  lemma TitleTerminable(s: string)
    requires '\0' !in s
    ensures Terminable(Utf16.NullTerminated(s))
    ensures StripNul(Utf16.NullTerminated(s)) == Utf16.Encode(s)
  {
    var u := Utf16.NullTerminated(s);
    assert StripNul(u) == Utf16.Encode(s);
    NulFreeIndex(Utf16.Encode(s), 0);
  }
}

=== FILE: input_session.dfy ===
/** The command handling both Win32 text input dialogs share: OK stores the
    edit box's text and ends the dialog with IDOK, Cancel ends it with
    IDCANCEL, every other command is ignored; `text_input` hands the stored
    text back only when the dialog ended with IDOK. The two variants differ
    only in the size of the buffer the text is read into (8192 units in
    src/win32/input.rs, 32768 in src/windows/win32/input.rs). */
module InputSession {
  import opened Base
  import Utf16
  import opened InputControls

  /** `(wparam & 0xFFFF) as i32`: the low word of a command's wparam. */
  function CommandId(wparam: nat): (r: int)
    ensures 0 <= r < 0x1_0000
  {
    wparam % 0x1_0000
  }

  /** The notification code in the high word never changes the id. */
  lemma CommandIdLowWord(high: nat, low: nat)
    requires low < 0x1_0000
    ensures CommandId(high * 0x1_0000 + low) == low
  {
  }

  /** What `GetDlgItemTextW` leaves in a buffer of `capacity` units: the
      control's text, cut to leave room for the terminator. */
  function ReadEdit(text: seq<u16>, capacity: nat): (r: seq<u16>)
    requires capacity > 0
    ensures |r| < capacity && |r| <= |text| && r == text[..|r|]
    ensures |text| < capacity ==> r == text
  {
    if |text| < capacity then text else text[..capacity - 1]
  }

  /** A WM_COMMAND notification: its wparam and the edit box's text at the
      moment it arrives. */
  datatype Command = Command(wparam: nat, edit: seq<u16>)

  /** The dialog's state: the text stored by OK and, once `EndDialog` was
      called, the value the dialog returns. */
  datatype State = State(result: Option<string>, ended: Option<int>)

  /** The text OK stores for a command. */
  function Stored(c: Command, capacity: nat): string
    requires capacity > 0
  {
    Utf16.DecodeLossy(ReadEdit(c.edit, capacity))
  }

  /** One WM_COMMAND through the dialog procedure: the new state and the
      procedure's return value. */
  function OnCommand(s: State, c: Command, capacity: nat): (r: (State, int))
    requires capacity > 0
    ensures r.1 == 1 <==> CommandId(c.wparam) in {IDOK, IDCANCEL}
    ensures r.1 == 1 ==> r.0.ended == Some(CommandId(c.wparam))
    ensures r.1 == 0 ==> r.0 == s
    ensures r.0.result != s.result ==> CommandId(c.wparam) == IDOK && r.0.result == Some(Stored(c, capacity))
  {
    var id := CommandId(c.wparam);
    if id == IDOK then (State(Some(Stored(c, capacity)), Some(IDOK)), 1)
    else if id == IDCANCEL then (s.(ended := Some(IDCANCEL)), 1)
    else (s, 0)
  }

  /** The modal loop from command `i` on: once the dialog has ended no
      further command reaches the procedure. */
  function RunFrom(s: State, cmds: seq<Command>, i: nat, capacity: nat): State
    requires capacity > 0
    decreases |cmds| - i
  {
    if i >= |cmds| || s.ended.Some? then s
    else RunFrom(OnCommand(s, cmds[i], capacity).0, cmds, i + 1, capacity)
  }

  /** `text_input` after the template is built: no module handle gives
      None; otherwise the stored text, but only when the dialog returned
      IDOK. A run of commands that never ends the dialog returns nothing. */
  function TextInput(moduleHandle: bool, cmds: seq<Command>, capacity: nat): Option<string>
    requires capacity > 0
  {
    if !moduleHandle then None
    else
      var s := RunFrom(State(None, None), cmds, 0, capacity);
      if s.ended == Some(IDOK) then s.result else None
  }

  /** Reference: the first command from `i` on that ends the dialog. */
  function FirstEnding(cmds: seq<Command>, i: nat): (r: Option<nat>)
    ensures r.Some? ==> i <= r.value < |cmds| && CommandId(cmds[r.value].wparam) in {IDOK, IDCANCEL}
    ensures r.Some? ==> forall j :: i <= j < r.value ==> CommandId(cmds[j].wparam) !in {IDOK, IDCANCEL}
    ensures r.None? ==> forall j :: i <= j < |cmds| ==> CommandId(cmds[j].wparam) !in {IDOK, IDCANCEL}
    decreases |cmds| - i
  {
    if i >= |cmds| then None
    else if CommandId(cmds[i].wparam) in {IDOK, IDCANCEL} then Some(i)
    else FirstEnding(cmds, i + 1)
  }

  /** The loop ends exactly at the first ending command; OK leaves that
      command's text, Cancel leaves the text stored before. */
  lemma {:induction false} RunFromEnding(res: Option<string>, cmds: seq<Command>, i: nat, capacity: nat)
    requires capacity > 0
    ensures var s := RunFrom(State(res, None), cmds, i, capacity);
            match FirstEnding(cmds, i)
            case None => s == State(res, None)
            case Some(j) =>
              s.ended == Some(CommandId(cmds[j].wparam))
              && s.result == (if CommandId(cmds[j].wparam) == IDOK then Some(Stored(cmds[j], capacity)) else res)
    decreases |cmds| - i
  {
    if i < |cmds| && CommandId(cmds[i].wparam) !in {IDOK, IDCANCEL} {
      RunFromEnding(res, cmds, i + 1, capacity);
    }
  }

  /** `text_input` returns text exactly when the first OK or Cancel command
      is OK, and then the edit box's text at that command. */
  lemma TextInputFirstEnding(moduleHandle: bool, cmds: seq<Command>, capacity: nat)
    requires capacity > 0
    ensures TextInput(moduleHandle, cmds, capacity)
         == match FirstEnding(cmds, 0)
            case Some(j) =>
              if moduleHandle && CommandId(cmds[j].wparam) == IDOK then Some(Stored(cmds[j], capacity)) else None
            case None => None
  {
    RunFromEnding(None, cmds, 0, capacity);
  }

  /** Cancelling gives nothing, whatever was typed before. */
  lemma CancelGivesNothing(moduleHandle: bool, cmds: seq<Command>, capacity: nat)
    requires capacity > 0
    requires exists j :: 0 <= j < |cmds| && CommandId(cmds[j].wparam) == IDCANCEL
                      && forall k :: 0 <= k < j ==> CommandId(cmds[k].wparam) != IDOK
    ensures TextInput(moduleHandle, cmds, capacity) == None
  {
    TextInputFirstEnding(moduleHandle, cmds, capacity);
  }
}

=== FILE: kdialog.dfy ===
/** The kdialog adapter (src/linux/kdialog.rs): argument vectors built from a
    request, and the interpretation of the helper's exit status and stdout.
    Spawning the process is not modelled; its exit status and captured output
    are inputs. */
module KDialog {
  import opened Base
  import opened Utils
  import opened Text
  import opened Dialogs
  import opened Helpers
  import LinuxBackend
  import RustInt
  import Zenity

  /* ---------- message box ---------- */

  /** Icons kdialog shows with a warning style. */
  predicate Severe(icon: MessageIcon) { icon == Warning || icon == Error }

  /** The dialog kind: a plain, sorry or error box for a lone OK button, and
      otherwise a yes/no(/cancel) box, in its warning variant for a warning or
      error icon. */
  function Kind(b: MessageButtons, icon: MessageIcon): (r: string)
    ensures b == MessageButtons.Ok ==> r in {"--msgbox", "--sorry", "--error"}
    ensures b == MessageButtons.Ok ==> (r == "--msgbox" <==> !Severe(icon))
    ensures b == MessageButtons.Ok && icon == Warning ==> r == "--sorry"
    ensures b == MessageButtons.Ok && icon == Error ==> r == "--error"
    ensures b == OkCancel || b == YesNo ==> r == (if Severe(icon) then "--warningyesno" else "--yesno")
    ensures b == YesNoCancel ==> r == (if Severe(icon) then "--warningyesnocancel" else "--yesnocancel")
    ensures b != MessageButtons.Ok ==> ("--warning" <= r <==> Severe(icon))
    ensures b == YesNoCancel <==> (|r| >= 6 && r[|r| - 6..] == "cancel")
  {
    match (b, icon)
    case (Ok, Info) => "--msgbox"
    case (Ok, Question) => "--msgbox"
    case (Ok, Warning) => "--sorry"
    case (Ok, Error) => "--error"
    case (OkCancel, Info) => "--yesno"
    case (OkCancel, Question) => "--yesno"
    case (OkCancel, _) => "--warningyesno"
    case (YesNo, Info) => "--yesno"
    case (YesNo, Question) => "--yesno"
    case (YesNo, _) => "--warningyesno"
    case (YesNoCancel, Info) => PlainYesNoCancel()
    case (YesNoCancel, Question) => PlainYesNoCancel()
    case (YesNoCancel, _) => "--warningyesnocancel"
  }

  function PlainYesNoCancel(): (r: string)
    ensures r == "--yesnocancel"
    ensures |r| >= 6 && r[|r| - 6..] == "cancel" && !("--warning" <= r)
  {
    var k := "--yesnocancel";
    assert k[7..] == "cancel" && k[2] != "--warning"[2];
    k
  }

  /** The captions of kdialog's yes and no buttons. */
  function YesNoLabels(b: MessageButtons): (r: (string, string))
    ensures r.0 == Label(Affirmative(b))
    ensures b == MessageButtons.Ok ==> FromLabel(r.1).None?
    ensures b != MessageButtons.Ok ==>
      FromLabel(r.1).Some? && FromLabel(r.1).value in Members(b) && FromLabel(r.1).value != Affirmative(b)
  {
    match b
    case Ok => ("OK", "None")
    case OkCancel => ("OK", "Cancel")
    case YesNo => ("Yes", "No")
    case YesNoCancel => ("Yes", "No")
  }

  /** Exit code `i` stands for `Codes(b)[i]`. */
  function Codes(b: MessageButtons): seq<MessageResult>
  {
    match b
    case Ok => [MessageResult.Ok]
    case OkCancel => [MessageResult.Ok, MessageResult.Cancel]
    case YesNo => [MessageResult.Yes, MessageResult.No]
    case YesNoCancel => [MessageResult.Yes, MessageResult.No, MessageResult.Cancel]
  }

  /** The code table lists each member of the button set exactly once, the
      accepting button at code 0. */
  lemma CodesEnumerateMembers(b: MessageButtons)
    ensures |Codes(b)| == |Members(b)|
    ensures forall i, j :: 0 <= i < j < |Codes(b)| ==> Codes(b)[i] != Codes(b)[j]
    ensures forall i :: 0 <= i < |Codes(b)| ==> Codes(b)[i] in Members(b)
    ensures forall m :: m in Members(b) ==> m in Codes(b)
    ensures Codes(b)[0] == Affirmative(b)
  {
    match b
    case Ok => assert |Members(b)| == 1;
    case OkCancel => assert |Members(b)| == 2;
    case YesNo => assert |Members(b)| == 2;
    case YesNoCancel => assert |Members(b)| == 3;
  }

  function MessageArgs(p: MessageBox): (r: seq<string>)
    ensures |r| == 8 && r[1] == p.message && r[7] == p.title
    ensures r[0] == Kind(p.buttons, p.icon)
    ensures r[2] == "--yes-label" && r[3] == YesNoLabels(p.buttons).0
    ensures r[4] == "--no-label" && r[5] == YesNoLabels(p.buttons).1
    ensures r[6] == "--title"
  {
    var labels := YesNoLabels(p.buttons);
    [Kind(p.buttons, p.icon), p.message, "--yes-label", labels.0, "--no-label", labels.1, "--title", p.title]
  }

  /** `message_box`: a missing exit code is fatal; otherwise the code indexes
      the table, a negative code (which converts to a huge index) or one past
      the table giving no result. Code 0 is the accepting button; code 1 is
      Cancel for OK/Cancel and No for the Yes/No sets; code 2 is Cancel only
      for Yes/No/Cancel. */
  function ReadMessageResult(b: MessageButtons, status: Option<i32>): (r: Outcome<Option<MessageResult>>)
    ensures r.Panic? <==> status.None?
    ensures r.Panic? ==> r.message == LinuxBackend.ExitStatusMessage(status)
    ensures r.Done? && r.value.Some? ==> r.value.value in Members(b)
    ensures r.Done? ==> (r.value.Some? <==> 0 <= status.value < |Members(b)|)
    ensures status == Some(0) ==> r == Done(Some(Affirmative(b)))
    ensures status == Some(1) ==> r == Done(if b == OkCancel then Some(MessageResult.Cancel)
                                            else if b == YesNo || b == YesNoCancel then Some(MessageResult.No)
                                            else None)
    ensures status == Some(2) ==> r == Done(if b == YesNoCancel then Some(MessageResult.Cancel) else None)
  {
    CodesEnumerateMembers(b);
    match status
    case None => Panic(LinuxBackend.ExitStatusMessage(status))
    case Some(index) =>
      if 0 <= index as int < |Codes(b)| then Done(Some(Codes(b)[index])) else Done(None)
  }

  /** Every button of the set has an exit code that reports it. */
  lemma EveryMemberReachable(b: MessageButtons, m: MessageResult)
    requires m in Members(b)
    ensures exists code: i32 :: 0 <= code < 3 && ReadMessageResult(b, Some(code)) == Done(Some(m))
  {
    CodesEnumerateMembers(b);
    var i :| 0 <= i < |Codes(b)| && Codes(b)[i] == m;
    assert ReadMessageResult(b, Some(i as i32)) == Done(Some(m));
  }

  /* ---------- file and folder dialogs ---------- */

  /** One filter's line: `desc (p1 p2)`. */
  function FilterLine(f: FileFilter): string
  {
    f.desc + " (" + Join(f.patterns, " ") + ")"
  }

  /** Each filter's line followed by a newline. */
  function FilterLines(filters: seq<FileFilter>): (r: string)
    ensures |filters| == 0 <==> r == []
    decreases |filters|
  {
    if |filters| == 0 then [] else FilterLine(filters[0]) + "\n" + FilterLines(filters[1..])
  }

  /** `filter_string`: the filters' lines, then the catch-all entry. */
  function FilterString(filter: Option<seq<FileFilter>>): (r: string)
    ensures StripSuffix(r, CatchAll).Some?
    ensures filter.None? ==> r == CatchAll
  {
    match filter
    case Some(fs) => FilterLines(fs) + CatchAll
    case None => CatchAll
  }

  /** The entry that matches every file. */
  const CatchAll: string := "All Files (*)"

  predicate NoNewline(f: FileFilter)
  {
    '\n' !in f.desc && forall i :: 0 <= i < |f.patterns| ==> '\n' !in f.patterns[i]
  }

  /** The filters' lines, in order. */
  function FilterLineList(filters: seq<FileFilter>): (r: seq<string>)
    ensures |r| == |filters|
    ensures forall k :: 0 <= k < |filters| ==> r[k] == FilterLine(filters[k])
    decreases |filters|
  {
    if |filters| == 0 then [] else [FilterLine(filters[0])] + FilterLineList(filters[1..])
  }

  lemma FilterLinesCons(filters: seq<FileFilter>, tail: string)
    requires |filters| > 0
    ensures FilterLines(filters) + tail == FilterLine(filters[0]) + ['\n'] + (FilterLines(filters[1..]) + tail)
  {
  }

  lemma LineNoNewline(f: FileFilter)
    requires NoNewline(f)
    ensures '\n' !in FilterLine(f)
  {
    JoinNoChar(f.patterns, " ", '\n');
  }

  lemma FilterLinesStep(filters: seq<FileFilter>, tail: string)
    requires |filters| > 0 && NoNewline(filters[0])
    ensures Split(FilterLines(filters) + tail, '\n')
      == [FilterLine(filters[0])] + Split(FilterLines(filters[1..]) + tail, '\n')
    ensures FilterLineList(filters) == [FilterLine(filters[0])] + FilterLineList(filters[1..])
  {
    FilterLinesCons(filters, tail);
    LineNoNewline(filters[0]);
    SplitAfterLine(FilterLine(filters[0]), FilterLines(filters[1..]) + tail);
  }

  /** Regrouping after a cons, stated apart so that the induction step of
      `FilterStringLines` does not have to find it. */
  lemma ConsAssoc<T>(x: T, a: seq<T>, b: seq<T>)
    ensures [x] + (a + b) == ([x] + a) + b
  {
  }

  lemma SplitAfterLine(line: string, rest: string)
    requires '\n' !in line
    ensures Split(line + ['\n'] + rest, '\n') == [line] + Split(rest, '\n')
  {
    SplitConcat(line, rest, '\n');
    SplitNoSep(line, '\n');
  }

  /** Splitting the filters' lines at newlines gives one line per filter, in
      order, then the pieces of what follows, when no description or pattern
      holds a newline. */
  lemma {:induction false} FilterStringLines(filters: seq<FileFilter>, tail: string)
    requires forall k :: 0 <= k < |filters| ==> NoNewline(filters[k])
    ensures Split(FilterLines(filters) + tail, '\n') == FilterLineList(filters) + Split(tail, '\n')
    decreases |filters|
  {
    if |filters| > 0 {
      FilterStringLines(filters[1..], tail);
      FilterLinesStep(filters, tail);
      ConsAssoc(FilterLine(filters[0]), FilterLineList(filters[1..]), Split(tail, '\n'));
    } else {
      assert FilterLines(filters) + tail == tail;
    }
  }

  /** Split at newlines, the filter string is one `desc (patterns)` line per
      filter, in order, then the catch-all entry. */
  lemma FilterStringSplit(filters: seq<FileFilter>)
    requires forall k :: 0 <= k < |filters| ==> NoNewline(filters[k])
    ensures Split(FilterString(Some(filters)), '\n')
      == seq(|filters|, k requires 0 <= k < |filters| => FilterLine(filters[k])) + [CatchAll]
  {
    FilterLinesThen(filters, CatchAll);
  }

  lemma FilterLinesThen(filters: seq<FileFilter>, tail: string)
    requires forall k :: 0 <= k < |filters| ==> NoNewline(filters[k])
    requires '\n' !in tail
    ensures Split(FilterLines(filters) + tail, '\n')
      == seq(|filters|, k requires 0 <= k < |filters| => FilterLine(filters[k])) + [tail]
  {
    FilterStringLines(filters, tail);
    SplitNoSep(tail, '\n');
    assert FilterLineList(filters) == seq(|filters|, k requires 0 <= k < |filters| => FilterLine(filters[k]));
  }

  /** Arguments of the open dialog: multi-selection appends two flags to the
      single-selection arguments. */
  function PickArgs(p: FileDialog, multiple: bool): (r: seq<string>)
    ensures |r| == (if multiple then 7 else 5)
    ensures r[2] == "--getopenfilename" && r[3] == FilePath(p.directory, p.fileName) && r[4] == FilterString(p.filter)
    ensures multiple ==> r[5..] == ["--multiple", "--separate-output"]
  {
    var args := ["--title", p.title, "--getopenfilename", FilePath(p.directory, p.fileName), FilterString(p.filter),
                 "--multiple", "--separate-output"];
    if multiple then args else args[..|args| - 2]
  }

  lemma PickArgsPrefix(p: FileDialog)
    ensures PickArgs(p, true)[..5] == PickArgs(p, false)
  {
  }

  function SaveArgs(p: FileDialog): (r: seq<string>)
    ensures |r| == 5 && r[3] == FilePath(p.directory, p.fileName) && r[4] == FilterString(p.filter)
  {
    ["--title", p.title, "--getsavefilename", FilePath(p.directory, p.fileName), FilterString(p.filter)]
  }

  function FolderArgs(p: FolderDialog): (r: seq<string>)
    ensures |r| == 4 && r[3] == FolderPath(p.directory)
  {
    ["--title", p.title, "--getexistingdirectory", FolderPath(p.directory)]
  }

  /* ---------- text input ---------- */

  /** Arguments per mode; the password box is not given the initial value. */
  function TextInputArgs(p: TextInput): (r: seq<string>)
    ensures p.mode != Password ==> |r| == 5 && r[1] == p.message && r[2] == p.value
    ensures p.mode != Password ==> r[0] == (if p.mode == SingleLine then "--inputbox" else "--textinputbox")
    ensures p.mode != Password ==> r[3] == "--title" && r[4] == p.title
    ensures p.mode == Password ==> r == ["--password", p.message, "--title", p.title]
  {
    match p.mode
    case SingleLine => ["--inputbox", p.message, p.value, "--title", p.title]
    case MultiLine => ["--textinputbox", p.message, p.value, "--title", p.title]
    case Password => ["--password", p.message, "--title", p.title]
  }

  /** Exit 0 returns the captured stdout unchanged; anything else is a cancel. */
  function TextInputResult(status: Option<i32>, output: string): (r: Option<string>)
    ensures r.Some? <==> status == Some(0)
    ensures r.Some? ==> r.value == output
  {
    match status
    case Some(0) => Some(output)
    case _ => None
  }

  /* ---------- colour ---------- */

  function ColorArgs(p: ColorPicker): (r: seq<string>)
    ensures |r| == 4 && r[1] == FormatColor(p.value)
  {
    ["--getcolor", FormatColor(p.value), "--title", p.title]
  }

  /** `parse_color`: the hex form only, after trimming. */
  function ParseColor(output: string): (r: Option<ColorValue>)
    ensures r.Some? <==> HexWellFormed(StripHash(Trim(output)))
  {
    ParseHex(Trim(output))
  }

  /** The colour the picker is seeded with is read back unchanged, also with
      the newline kdialog prints after it. */
  lemma ParseColorOfFormat(c: ColorValue)
    ensures ParseColor(FormatColor(c)) == Some(c)
    ensures ParseColor(FormatColor(c) + "\n") == Some(c)
  {
    var f := FormatColor(c);
    assert !IsWhitespace(f[0]);
    assert f[6] == RustInt.Hex2(c.blue)[1];
    assert !IsWhitespace(f[6]) by { assert RustInt.IsDigit(f[6], 16); }
    assert Trim(f) == f;
    TrimAppendedSpace(f, '\n');
    HexColorRoundTrip(c, 0);
  }

  /** `color_picker`: a non-zero exit is a cancel; otherwise the output must
      parse, and an unparsable colour is fatal. */
  function ColorResult(status: Option<i32>, output: string): (r: Outcome<Option<ColorValue>>)
    ensures r.Panic? <==> status == Some(0) && ParseColor(output).None?
    ensures r.Panic? ==> r.message == "kdialog color_picker returned invalid color: " + output
    ensures r.Done? ==> (r.value.Some? <==> status == Some(0))
    ensures r.Done? && r.value.Some? ==> Some(r.value.value) == ParseColor(output)
  {
    if status != Some(0) then Done(None)
    else
      match ParseColor(output)
      case Some(c) => Done(Some(c))
      case None => Panic("kdialog color_picker returned invalid color: " + output)
  }

  /** Any colour zenity's hex form accepts, kdialog accepts with the same
      value; kdialog alone rejects the `rgb(...)` form. */
  lemma ParseColorAgreesOnHex(output: string)
    requires !("rgb(" <= Trim(output))
    ensures ParseColor(output) == Zenity.ParseColor(output)
  {
  }

  /* ---------- notification ---------- */

  /** `timeout_seconds`: kdialog has no unlimited timeout, so a timeout that
      never expires becomes `i32::MAX` seconds; a positive one is rounded up
      to whole seconds. */
  function TimeoutSeconds(ms: i32): (r: nat)
    ensures r >= 1
    ensures ms <= 0 ==> r == I32_MAX as nat
    ensures ms > 0 ==> (r - 1) * 1000 < ms as int <= r * 1000
  {
    if ms <= 0 then I32_MAX as nat else CeilSeconds(ms as int)
  }

  /** For a popup that closes by itself both helpers are given the same
      number of seconds. */
  lemma TimeoutAgreesWithZenity(ms: i32)
    requires ms > 0
    ensures Zenity.TimeoutSeconds(ms) == Some(TimeoutSeconds(ms))
  {
  }

  function NotifyArgs(p: NotifyPopup): (r: seq<string>)
    ensures |r| == 7 && r[3] == NotifyIcon(p.icon) && r[5] == p.message
    ensures r[6] == RustInt.Decimal(TimeoutSeconds(p.timeout))
  {
    ["--title", p.title, "--icon", NotifyIcon(p.icon), "--passivepopup", p.message, RustInt.Decimal(TimeoutSeconds(p.timeout))]
  }
}

=== FILE: linux_backend.dfy ===
/** Backend selection on Linux and the BSDs (src/linux/mod.rs): one backend
    is chosen the first time any dialog is shown, from an override variable,
    the build configuration, desktop hints and which helper programs are
    installed, and every later dialog reuses that choice. */
module LinuxBackend {
  import opened Base
  import opened Text
  import RustInt

  datatype Backend = KDialog | Zenity | Gtk3

  /** The bytes of a set environment variable, read as text, and whether they
      were valid UTF-8. */
  datatype EnvValue = EnvValue(text: string, utf8: bool)

  /** The environment variables the resolver reads. */
  datatype Env = Env(
    backendOverride: Option<EnvValue>,      // RUSTY_DIALOGS_BACKEND
    xdgCurrentDesktop: Option<EnvValue>,    // XDG_CURRENT_DESKTOP
    desktopSession: Option<EnvValue>,       // DESKTOP_SESSION
    gnomeDesktopSessionId: bool)            // GNOME_DESKTOP_SESSION_ID is set

  /** Whether the crate was built with the `gtk3` feature. */
  datatype Build = Build(gtk3: bool)

  /** The program `which` is asked about for a helper backend. */
  function ProgramName(b: Backend): string
  {
    match b
    case KDialog => "kdialog"
    case Zenity => "zenity"
    case Gtk3 => "gtk3"
  }

  /** The override value names `name` exactly (compared as bytes). */
  predicate Names(v: EnvValue, name: string) { v.utf8 && v.text == name }

  const NoBackendMessage: string :=
    "No supported dialog backend found. Please install kdialog or zenity, or set RUSTY_DIALOGS_BACKEND to a supported backend."

  /** The panic message for an unknown override: the value (or a
      placeholder for invalid UTF-8) in its `Debug` form. */
  function InvalidOverrideMessage(v: EnvValue): string
  {
    "Invalid RUSTY_DIALOGS_BACKEND value: " + DebugStr(if v.utf8 then v.text else "<invalid utf-8>")
  }

  /** `char::escape_debug` for the characters with a short escape; every
      other character is written as itself. */
  function EscapeDebug(c: char): (r: string)
    ensures |r| >= 1
  {
    if c == '\0' then "\\0"
    else if c == '\t' then "\\t"
    else if c == '\r' then "\\r"
    else if c == '\n' then "\\n"
    else if c == '\\' then "\\\\"
    else if c == '"' then "\\\""
    else [c]
  }

  function EscapeAll(s: string): string
    decreases |s|
  {
    if |s| == 0 then "" else EscapeDebug(s[0]) + EscapeAll(s[1..])
  }

  /** `<str as Debug>::fmt`: the escaped text between double quotes. */
  function DebugStr(s: string): string
  {
    "\"" + EscapeAll(s) + "\""
  }

  /** Reading one escape back: the character a backslash sequence or a
      plain character stands for, and the rest of the text. */
  function UnescapeDebug(t: string): (r: Option<string>)
    decreases |t|
  {
    if |t| == 0 then Some("")
    else if t[0] == '\\' then
      if |t| < 2 then None
      else
        var c := if t[1] == '0' then Some('\0') else if t[1] == 't' then Some('\t')
                 else if t[1] == 'r' then Some('\r') else if t[1] == 'n' then Some('\n')
                 else if t[1] == '\\' then Some('\\') else if t[1] == '"' then Some('"') else None;
        match (c, UnescapeDebug(t[2..]))
        case (Some(x), Some(rest)) => Some([x] + rest)
        case _ => None
    else if t[0] == '"' then None
    else
      match UnescapeDebug(t[1..])
      case Some(rest) => Some([t[0]] + rest)
      case None => None
  }

  /** The value appears in quotes: `foo` panics with
      `Invalid RUSTY_DIALOGS_BACKEND value: "foo"`. */
  lemma InvalidOverrideQuoted()
    ensures InvalidOverrideMessage(EnvValue("foo", true)) == "Invalid RUSTY_DIALOGS_BACKEND value: \"foo\""
  {
    assert EscapeAll("foo") == "foo" by {
      assert EscapeAll("foo"[2..]) == "o";
      assert EscapeAll("foo"[1..]) == "oo";
    }
  }

  /** One escaped character in front of readable text reads back as that
      character in front of the text's reading. */
  lemma UnescapeOne(c: char, rest: string, x: string)
    requires UnescapeDebug(rest) == Some(x)
    ensures UnescapeDebug(EscapeDebug(c) + rest) == Some([c] + x)
  {
    var t := EscapeDebug(c) + rest;
    if |EscapeDebug(c)| == 2 {
      assert t[2..] == rest;
    } else {
      assert t[1..] == rest;
    }
  }

  /** The escaped text holds no bare quote and reads back as the value, so
      the message names the offending value unambiguously. */
  lemma {:induction false} UnescapeEscapeAll(s: string)
    ensures UnescapeDebug(EscapeAll(s)) == Some(s)
    decreases |s|
  {
    if |s| > 0 {
      UnescapeEscapeAll(s[1..]);
      assert EscapeAll(s) == EscapeDebug(s[0]) + EscapeAll(s[1..]);
      UnescapeOne(s[0], EscapeAll(s[1..]), s[1..]);
      assert [s[0]] + s[1..] == s;
    } else {
      assert EscapeAll(s) == "";
    }
  }

  /** XDG_CURRENT_DESKTOP if set, else DESKTOP_SESSION, kept only when it is
      valid UTF-8 (an invalid XDG value does not fall back). */
  function DesktopHint(env: Env): (r: Option<string>)
    ensures r.Some? ==>
      ((env.xdgCurrentDesktop.Some? && r.value == env.xdgCurrentDesktop.value.text)
       || (env.xdgCurrentDesktop.None? && env.desktopSession.Some? && r.value == env.desktopSession.value.text))
    ensures r.Some? <==>
      var raw := if env.xdgCurrentDesktop.Some? then env.xdgCurrentDesktop else env.desktopSession;
      raw.Some? && raw.value.utf8
  {
    var raw := if env.xdgCurrentDesktop.Some? then env.xdgCurrentDesktop else env.desktopSession;
    match raw
    case Some(v) => if v.utf8 then Some(v.text) else None
    case None => None
  }

  predicate IsGnome(d: string) { Contains(d, "gnome") }
  predicate IsKde(d: string) { Contains(d, "kde") || Contains(d, "plasma") }

  /** The order in which helper programs are tried. KDialog leads only for a
      KDE or Plasma hint that is not also a GNOME hint, or when there is no
      hint and no GNOME session id; the list always holds both helpers once. */
  function Preference(env: Env): (r: seq<Backend>)
    ensures |r| == 2 && r[0] != r[1]
    ensures forall i :: 0 <= i < 2 ==> r[i] == KDialog || r[i] == Zenity
    ensures r[0] == KDialog <==>
      match DesktopHint(env)
      case Some(d) => !IsGnome(d) && IsKde(d)
      case None => !env.gnomeDesktopSessionId
  {
    match DesktopHint(env)
    case Some(d) =>
      if IsGnome(d) then [Zenity, KDialog]
      else if IsKde(d) then [KDialog, Zenity]
      else [Zenity, KDialog]
    case None =>
      if env.gnomeDesktopSessionId then [Zenity, KDialog] else [KDialog, Zenity]
  }

  /** The first preferred backend whose program is installed. */
  function FirstAvailable(prefs: seq<Backend>, installed: set<Backend>): (r: Option<Backend>)
    ensures r.None? <==> forall i :: 0 <= i < |prefs| ==> prefs[i] !in installed
    ensures r.Some? ==>
      (r.value in installed &&
       exists i :: 0 <= i < |prefs| && prefs[i] == r.value && forall j :: 0 <= j < i ==> prefs[j] !in installed)
    decreases |prefs|
  {
    if |prefs| == 0 then None
    else if prefs[0] in installed then Some(prefs[0])
    else
      var r := FirstAvailable(prefs[1..], installed);
      assert r.Some? ==> exists i :: 0 <= i < |prefs| && prefs[i] == r.value && forall j :: 0 <= j < i ==> prefs[j] !in installed by {
        if r.Some? {
          var i :| 0 <= i < |prefs[1..]| && prefs[1..][i] == r.value && forall j :: 0 <= j < i ==> prefs[1..][j] !in installed;
          assert prefs[i + 1] == r.value;
          assert forall j :: 0 <= j < i + 1 ==> prefs[j] !in installed by {
            forall j | 0 <= j < i + 1 ensures prefs[j] !in installed {
              if j > 0 { assert prefs[j] == prefs[1..][j - 1]; }
            }
          }
        }
      }
      r
  }

  /** The `BACKEND` initialiser. `installed` is the set of helpers for which
      `which <program>` succeeds. */
  function Resolve(env: Env, build: Build, installed: set<Backend>): (r: Outcome<Backend>)
    ensures r.Done? && r.value == Gtk3 ==> build.gtk3
    ensures env.backendOverride.Some? && Names(env.backendOverride.value, "kdialog") ==> r == Done(KDialog)
    ensures env.backendOverride.Some? && Names(env.backendOverride.value, "zenity") ==> r == Done(Zenity)
    ensures env.backendOverride.Some? && !Names(env.backendOverride.value, "kdialog")
      && !Names(env.backendOverride.value, "zenity")
      && !(build.gtk3 && Names(env.backendOverride.value, "gtk3"))
      ==> r == Panic(InvalidOverrideMessage(env.backendOverride.value))
    ensures env.backendOverride.None? && build.gtk3 ==> r == Done(Gtk3)
    ensures env.backendOverride.None? && !build.gtk3 ==>
      (r.Panic? <==> KDialog !in installed && Zenity !in installed)
    ensures env.backendOverride.None? && !build.gtk3 && r.Done? ==>
      r.value in installed && (r.value != Preference(env)[0] ==> Preference(env)[0] !in installed)
  {
    if env.backendOverride.Some? then
      var v := env.backendOverride.value;
      if Names(v, "kdialog") then Done(KDialog)
      else if Names(v, "zenity") then Done(Zenity)
      else if build.gtk3 && Names(v, "gtk3") then Done(Gtk3)
      else Panic(InvalidOverrideMessage(v))
    else if build.gtk3 then Done(Gtk3)
    else
      var prefs := Preference(env);
      assert forall b :: b in installed && (b == KDialog || b == Zenity) ==> b == prefs[0] || b == prefs[1];
      match FirstAvailable(prefs, installed)
      case Some(b) => Done(b)
      case None => Panic(NoBackendMessage)
  }

  /** An override naming neither helper (nor `gtk3` in a gtk3 build) panics
      whatever the desktop and the installed programs are: there is no fall
      through to detection. */
  lemma InvalidOverrideNeverDetects(env: Env, build: Build, installed: set<Backend>, installed': set<Backend>)
    requires env.backendOverride.Some?
    requires !Names(env.backendOverride.value, "kdialog") && !Names(env.backendOverride.value, "zenity")
    requires !build.gtk3 || !Names(env.backendOverride.value, "gtk3")
    ensures Resolve(env, build, installed).Panic?
    ensures Resolve(env, build, installed) == Resolve(env, build, installed')
  {
  }

  /** `LazyLock<Backend>`: not yet forced, holding its value, or poisoned
      because the initialiser panicked. */
  datatype Lazy = Unforced | Forced(backend: Backend) | Poisoned

  const PoisonedMessage: string := "LazyLock instance has previously been poisoned"

  /** Dereferencing `BACKEND`: the first access runs `Resolve` and stores its
      value (or poisons the lock if it panics); later accesses return what was
      stored without looking at the environment again. */
  function Force(cell: Lazy, env: Env, build: Build, installed: set<Backend>): (r: (Lazy, Outcome<Backend>))
    ensures cell.Forced? ==> r == (cell, Done(cell.backend))
    ensures cell.Poisoned? ==> r.0 == Poisoned && r.1.Panic?
    ensures cell.Unforced? ==> r.1 == Resolve(env, build, installed)
    ensures r.0 != Unforced
    ensures r.1.Done? <==> r.0.Forced?
    ensures r.1.Done? ==> r.0.backend == r.1.value
  {
    match cell
    case Forced(b) => (cell, Done(b))
    case Poisoned => (Poisoned, Panic(PoisonedMessage))
    case Unforced =>
      var o := Resolve(env, build, installed);
      if o.Done? then (Forced(o.value), o) else (Poisoned, o)
  }

  /** The public dialog operations, each dispatched on `*BACKEND`. */
  datatype Operation = ShowMessage | PickFile | PickFiles | SaveFile | PickFolder | TextInput | PickColor | Notify

  /** One call of a public operation under the environment seen at that time:
      which adapter serves it, or the panic that aborts it. */
  datatype Call = Call(op: Operation, env: Env, installed: set<Backend>)

  /** Runs calls in order from `cell`, recording which backend served each. */
  function Run(cell: Lazy, build: Build, calls: seq<Call>): (served: seq<Outcome<Backend>>)
    ensures |served| == |calls|
    decreases |calls|
  {
    if |calls| == 0 then []
    else
      var (cell', o) := Force(cell, build := build, env := calls[0].env, installed := calls[0].installed);
      [o] + Run(cell', build, calls[1..])
  }

  /** Every entry agrees with the first: the same backend if the first call
      resolved one, a panic if the first call panicked. */
  predicate AllLikeFirst(served: seq<Outcome<Backend>>)
  {
    forall i :: 0 <= i < |served| ==>
      (served[0].Done? ==> served[i] == served[0]) && (served[0].Panic? ==> served[i].Panic?)
  }

  /** Every operation is served by the backend the first call resolved, even
      if the environment or the installed programs change afterwards; once
      resolution has panicked, every later call panics too. */
  lemma {:induction false} RunUsesFirstResolution(cell: Lazy, build: Build, calls: seq<Call>)
    requires |calls| >= 1
    ensures AllLikeFirst(Run(cell, build, calls))
    decreases |calls|
  {
    var served := Run(cell, build, calls);
    var r := Force(cell, calls[0].env, build, calls[0].installed);
    var cell', o := r.0, r.1;
    if |calls| > 1 {
      RunUsesFirstResolution(cell', build, calls[1..]);
      var rest := Run(cell', build, calls[1..]);
      assert served == [o] + rest;
      assert AllLikeFirst(rest);
      var o' := Force(cell', calls[1].env, build, calls[1].installed).1;
      assert rest[0] == o';
      assert o.Done? ==> o' == o;
      assert o.Panic? ==> o'.Panic?;
      forall i | 1 <= i < |served|
        ensures (served[0].Done? ==> served[i] == served[0]) && (served[0].Panic? ==> served[i].Panic?)
      {
        assert served[i] == rest[i - 1];
      }
    }
  }

  /** `exit_status_error`: the panic message for an unexpected helper exit. */
  function ExitStatusMessage(status: Option<i32>): (r: string)
    ensures status.None? <==> r == "terminated without an exit code"
    ensures status.Some? ==> "terminated with exit code: " <= r
  {
    match status
    case Some(code) =>
      var r := "terminated with exit code: " + RustInt.SignedDecimal(code);
      assert r[15] == ' ' && "terminated without an exit code"[15] == 'o';
      r
    case None => "terminated without an exit code"
  }

  /** Different exit statuses are reported with different messages. */
  lemma ExitStatusMessageInjective(a: Option<i32>, b: Option<i32>)
    ensures ExitStatusMessage(a) == ExitStatusMessage(b) ==> a == b
  {
    if ExitStatusMessage(a) == ExitStatusMessage(b) && a.Some? && b.Some? {
      var p := "terminated with exit code: ";
      assert ExitStatusMessage(a)[|p|..] == RustInt.SignedDecimal(a.value);
      assert ExitStatusMessage(b)[|p|..] == RustInt.SignedDecimal(b.value);
      RustInt.SignedDecimalInjective(a.value, b.value);
    }
  }
}

=== FILE: macos.dfy ===
/** The script-host adapter (src/macos/mod.rs). Every operation runs a fixed
    AppleScript through `osascript` and passes the request's fields as
    positional arguments; the model covers those argument lists and the
    reading of the script's output. The script bodies and the process are
    not modelled: `InvokeOutput` takes the exit outcome and stdout as
    inputs. */
module MacOs {
  import opened Base
  import opened Utils
  import opened Text
  import opened RustInt
  import opened Paths
  import opened Dialogs
  import Helpers

  /* ---------- running the script ---------- */

  predicate IsLineBreak(c: char) { c == '\n' || c == '\r' }

  /** Pop trailing '\n' and '\r' characters one at a time. */
  function StripLineBreaks(s: string): (r: string)
    ensures r <= s
    ensures r == [] || !IsLineBreak(r[|r| - 1])
    ensures forall i :: |r| <= i < |s| ==> IsLineBreak(s[i])
    decreases |s|
  {
    if |s| > 0 && IsLineBreak(s[|s| - 1]) then StripLineBreaks(s[..|s| - 1]) else s
  }

  /** `invoke_output`: no result when the script fails (which is also how a
      dialog's Cancel button or Escape surfaces), otherwise stdout without
      its trailing line breaks. */
  function InvokeOutput(success: bool, stdout: string): (r: Option<string>)
    ensures r.Some? <==> success
    ensures r.Some? ==> r.value <= stdout && (r.value == [] || !IsLineBreak(r.value[|r.value| - 1]))
    ensures r.Some? ==> forall i :: |r.value| <= i < |stdout| ==> IsLineBreak(stdout[i])
  {
    if success then Some(StripLineBreaks(stdout)) else None
  }

  /** Stripping removes line breaks only: text that does not end in one
      comes back unchanged after any run of breaks is appended. */
  lemma StripLineBreaksOfAppended(s: string, breaks: string)
    requires s == [] || !IsLineBreak(s[|s| - 1])
    requires forall i :: 0 <= i < |breaks| ==> IsLineBreak(breaks[i])
    ensures StripLineBreaks(s + breaks) == s
    decreases |breaks|
  {
    if |breaks| > 0 {
      assert (s + breaks)[..|s + breaks| - 1] == s + breaks[..|breaks| - 1];
      StripLineBreaksOfAppended(s, breaks[..|breaks| - 1]);
    } else {
      assert s + breaks == s;
    }
  }

  /* ---------- message box ---------- */

  function IconName(icon: MessageIcon): string
  {
    match icon
    case Info => "note"
    case Question => "note"
    case Warning => "caution"
    case Error => "stop"
  }

  /** The button text, default button and cancel button arguments; the
      script splits the text at "||". */
  function ButtonArgs(b: MessageButtons): (string, string, string)
  {
    match b
    case Ok => ("OK", "OK", "")
    case OkCancel => ("OK||Cancel", "OK", "Cancel")
    case YesNo => ("Yes||No", "Yes", "")
    case YesNoCancel => ("Yes||No||Cancel", "Yes", "Cancel")
  }

  /** The buttons of a set in display order. */
  function ButtonOrder(b: MessageButtons): seq<MessageResult>
  {
    match b
    case Ok => [MessageResult.Ok]
    case OkCancel => [MessageResult.Ok, MessageResult.Cancel]
    case YesNo => [MessageResult.Yes, MessageResult.No]
    case YesNoCancel => [MessageResult.Yes, MessageResult.No, MessageResult.Cancel]
  }

  /** The button arguments agree with the button set: the text is the
      members' captions joined by "||", each member once; the default button
      is the accepting one; a cancel button is named exactly when the set
      holds Cancel. */
  lemma ButtonArgsMatchSet(b: MessageButtons)
    ensures ButtonArgs(b).0 == Join(seq(|ButtonOrder(b)|, i requires 0 <= i < |ButtonOrder(b)| => Label(ButtonOrder(b)[i])), "||")
    ensures forall m :: m in Members(b) <==> m in ButtonOrder(b)
    ensures forall i, j :: 0 <= i < j < |ButtonOrder(b)| ==> ButtonOrder(b)[i] != ButtonOrder(b)[j]
    ensures ButtonArgs(b).1 == Label(Affirmative(b))
    ensures ButtonArgs(b).2 != "" <==> MessageResult.Cancel in Members(b)
    ensures ButtonArgs(b).2 != "" ==> ButtonArgs(b).2 == Label(MessageResult.Cancel)
  {
    var labels := seq(|ButtonOrder(b)|, i requires 0 <= i < |ButtonOrder(b)| => Label(ButtonOrder(b)[i]));
    match b
    case Ok =>
      assert labels == ["OK"];
    case OkCancel =>
      assert labels == ["OK", "Cancel"] && labels[1..] == ["Cancel"];
    case YesNo =>
      assert labels == ["Yes", "No"] && labels[1..] == ["No"];
    case YesNoCancel =>
      assert labels == ["Yes", "No", "Cancel"] && labels[1..] == ["No", "Cancel"] && labels[1..][1..] == ["Cancel"];
      assert Join(labels[1..], "||") == "No" + "||" + "Cancel";
      assert Join(labels, "||") == "Yes" + "||" + ("No" + "||" + "Cancel");
  }

  function MessageArgs(p: MessageBox): (r: seq<string>)
    ensures |r| == 6 && r[0] == p.title && r[1] == p.message
    ensures r[2] == IconName(p.icon) && (r[3], r[4], r[5]) == ButtonArgs(p.buttons)
  {
    var buttons := ButtonArgs(p.buttons);
    [p.title, p.message, IconName(p.icon), buttons.0, buttons.1, buttons.2]
  }

  /** The script prints the name of the button returned; only an exact
      caption is recognised. */
  function ReadButton(output: Option<string>): (r: Option<MessageResult>)
    ensures r.Some? ==> output == Some(Label(r.value))
    ensures output.None? ==> r.None?
  {
    match output
    case Some(s) => FromLabel(s)
    case None => None
  }

  /** Pressing any non-cancel button of the set, with the script's newline
      after its name, is read back as that button. */
  lemma ReadButtonOfPressed(b: MessageButtons, m: MessageResult)
    requires m in Members(b)
    ensures ReadButton(InvokeOutput(true, Label(m) + "\n")) == Some(m)
  {
    var l := Label(m);
    assert !IsLineBreak(l[|l| - 1]) by {
      match m
      case Ok => assert l == "OK";
      case Cancel => assert l == "Cancel";
      case Yes => assert l == "Yes";
      case No => assert l == "No";
    }
    StripLineBreaksOfAppended(l, "\n");
  }

  /* ---------- file and folder dialogs ---------- */

  /** `initial_directory`: the directory when given, otherwise the parent of
      the file name. */
  function InitialDirectory(directory: Option<string>, fileName: Option<string>): (r: Option<string>)
    ensures directory.Some? ==> r == directory
    ensures directory.None? && fileName.None? ==> r.None?
    ensures directory.None? && fileName.Some? ==> r == Parent(fileName.value)
  {
    if directory.Some? then directory
    else
      match fileName
      case Some(f) => Parent(f)
      case None => None
  }

  /** The directory argument; "" tells the script no location was given. */
  function InitialDirectoryArg(directory: Option<string>, fileName: Option<string>): string
  {
    InitialDirectory(directory, fileName).GetOr("")
  }

  /** The default name offered by the save dialog: the last component of the
      file name, or "" for none. */
  function DefaultName(fileName: Option<string>): (r: string)
    ensures r != "" ==> '/' !in r && r != "." && r != ".."
    ensures fileName.None? ==> r == ""
  {
    match fileName
    case Some(f) => FileName(f).GetOr("")
    case None => ""
  }

  /** A file name given as a path splits into the directory the dialog
      opens in and the name it offers. */
  lemma SaveArgsOfJoinedPath(dir: string, name: string)
    requires |dir| > 0 && dir[|dir| - 1] != '/' && !(|dir| >= 2 && dir[|dir| - 2..] == "/.")
    requires name != [] && '/' !in name && name != "." && name != ".."
    ensures InitialDirectoryArg(None, Some(UnixJoin(dir, name))) == dir
    ensures DefaultName(Some(UnixJoin(dir, name))) == name
  {
    ParentFileNameOfJoin(dir, name);
  }

  function PickArgs(p: FileDialog): (r: seq<string>)
    ensures r == [p.title, InitialDirectoryArg(p.directory, p.fileName)]
  {
    [p.title, InitialDirectoryArg(p.directory, p.fileName)]
  }

  function SaveArgs(p: FileDialog): (r: seq<string>)
    ensures |r| == 3 && r[1] == InitialDirectoryArg(p.directory, p.fileName) && r[2] == DefaultName(p.fileName)
  {
    [p.title, InitialDirectoryArg(p.directory, p.fileName), DefaultName(p.fileName)]
  }

  function FolderArgs(p: FolderDialog): (r: seq<string>)
    ensures |r| == 2 && (p.directory.Some? ==> r[1] == p.directory.value) && (p.directory.None? ==> r[1] == "")
  {
    [p.title, p.directory.GetOr("")]
  }

  /** Every piece trimmed. */
  function TrimAll(lines: seq<string>): (r: seq<string>)
    ensures |r| == |lines|
    ensures forall i :: 0 <= i < |r| ==> r[i] == Trim(lines[i])
    decreases |lines|
  {
    if |lines| == 0 then [] else [Trim(lines[0])] + TrimAll(lines[1..])
  }

  /** The path lines of the output: `lines()`, each trimmed, empties dropped.
      (`lines()` also drops a final empty piece and a '\r' before each
      '\n'; trimming and dropping empties subsume both.) */
  function PathLines(output: string): (r: seq<string>)
    ensures forall i :: 0 <= i < |r| ==> r[i] != [] && r[i] == Trim(r[i]) && '\n' !in r[i]
  {
    var pieces := Split(output, '\n');
    var trimmed := TrimAll(pieces);
    forall i | 0 <= i < |trimmed| ensures Trim(trimmed[i]) == trimmed[i] && '\n' !in trimmed[i] {
      TrimIdempotent(pieces[i]);
      TrimNoNewline(pieces[i]);
    }
    NonEmpty(trimmed)
  }

  lemma TrimNoNewline(s: string)
    requires '\n' !in s
    ensures '\n' !in Trim(s)
  {
    TrimKeeps(s);
  }

  /** `pick_files`: the path lines, with an empty selection reported as no
      result. */
  function PickFiles(output: Option<string>): (r: Option<seq<string>>)
    ensures r.Some? ==> output.Some? && r.value == PathLines(output.value) && |r.value| >= 1
    ensures output.Some? && |PathLines(output.value)| >= 1 ==> r.Some?
  {
    match output
    case None => None
    case Some(s) =>
      var files := PathLines(s);
      if |files| == 0 then None else Some(files)
  }

  /** `pick_file`: the first path line. */
  function PickFile(output: Option<string>): (r: Option<string>)
    ensures r.Some? <==> PickFiles(output).Some?
    ensures r.Some? ==> r.value == PickFiles(output).value[0]
  {
    match PickFiles(output)
    case Some(files) => Some(files[0])
    case None => None
  }

  /** Paths the script prints one per line come back exactly, in order. */
  lemma PickFilesReadsPaths(paths: seq<string>)
    requires |paths| >= 1
    requires forall i :: 0 <= i < |paths| ==> paths[i] != [] && Trim(paths[i]) == paths[i] && '\n' !in paths[i]
    ensures PickFiles(InvokeOutput(true, Join(paths, "\n") + "\n")) == Some(paths)
  {
    JoinedPathsEndClean(paths);
    StripLineBreaksOfAppended(Join(paths, "\n"), "\n");
    PathLinesOfJoin(paths);
  }

  lemma JoinedPathsEndClean(paths: seq<string>)
    requires |paths| >= 1
    requires forall i :: 0 <= i < |paths| ==> paths[i] != [] && Trim(paths[i]) == paths[i]
    ensures var j := Join(paths, "\n"); j != [] && !IsLineBreak(j[|j| - 1])
  {
    var last := paths[|paths| - 1];
    assert !IsWhitespace(last[|last| - 1]);
    JoinEnds(paths, "\n");
  }

  lemma PathLinesOfJoin(paths: seq<string>)
    requires |paths| >= 1
    requires forall i :: 0 <= i < |paths| ==> paths[i] != [] && Trim(paths[i]) == paths[i] && '\n' !in paths[i]
    ensures PathLines(Join(paths, "\n")) == paths
  {
    SplitJoin(paths, '\n');
    assert TrimAll(paths) == paths;
  }

  /** `save_file` and `folder_dialog`: the trimmed output, none if empty. */
  function SinglePath(output: Option<string>): (r: Option<string>)
    ensures r.Some? ==> output.Some? && r.value == Trim(output.value) && r.value != []
    ensures output.Some? && Trim(output.value) != [] ==> r.Some?
  {
    match output
    case None => None
    case Some(s) => if Trim(s) == [] then None else Some(Trim(s))
  }

  /* ---------- text input ---------- */

  /** The input is hidden exactly in password mode; the initial value is
      always passed. */
  function TextInputArgs(p: TextInput): (r: seq<string>)
    ensures |r| == 4 && r[0] == p.title && r[1] == p.message && r[2] == p.value
    ensures r[3] == "true" <==> p.mode == Password
    ensures r[3] == "true" || r[3] == "false"
  {
    [p.title, p.message, p.value, if p.mode == Password then "true" else "false"]
  }

  /* ---------- colour ---------- */

  /** An 8-bit channel scaled to AppleScript's 16-bit range. */
  function Widen(c: u8): (r: nat)
    ensures r <= 65535 && r / 257 == c as int && r % 257 == 0
  {
    c as nat * 257
  }

  function ColorArgs(p: ColorPicker): (r: seq<string>)
    ensures |r| == 4 && r[0] == p.title
    ensures r[1] == Decimal(Widen(p.value.red)) && r[2] == Decimal(Widen(p.value.green)) && r[3] == Decimal(Widen(p.value.blue))
  {
    [p.title, Decimal(Widen(p.value.red)), Decimal(Widen(p.value.green)), Decimal(Widen(p.value.blue))]
  }

  /** A 16-bit channel narrowed back to 8 bits; every `u16` fits. */
  function Narrow(v: nat): (r: u8)
    requires v <= 65535
    ensures r as int * 257 <= v < (r as int + 1) * 257
  {
    v / 257
  }

  /** `parse_color`: three comma-separated decimal `u16` fields, each
      trimmed; more or fewer is rejected. */
  function ParseColor(value: string): (r: Option<ColorValue>)
    ensures var parts := Split(Trim(value), ',');
      r.Some? <==> (|parts| == 3 && Accepts(Trim(parts[0]), 10, 65535)
        && Accepts(Trim(parts[1]), 10, 65535) && Accepts(Trim(parts[2]), 10, 65535))
    ensures var parts := Split(Trim(value), ',');
      r.Some? ==> (|parts| == 3
        && r.value.red == Narrow(ParseUnsigned(Trim(parts[0]), 10, 65535).value)
        && r.value.green == Narrow(ParseUnsigned(Trim(parts[1]), 10, 65535).value)
        && r.value.blue == Narrow(ParseUnsigned(Trim(parts[2]), 10, 65535).value))
  {
    var parts := Split(Trim(value), ',');
    if |parts| != 3 then None
    else
      var red := ParseUnsigned(Trim(parts[0]), 10, 65535);
      var green := ParseUnsigned(Trim(parts[1]), 10, 65535);
      var blue := ParseUnsigned(Trim(parts[2]), 10, 65535);
      if red.Some? && green.Some? && blue.Some? then Some(ColorValue(Narrow(red.value), Narrow(green.value), Narrow(blue.value)))
      else None
  }

  /** The colour the picker is seeded with, returned unchanged as
      "r,g,b" in the 16-bit range, reads back as the same colour. */
  lemma ParseColorOfWidened(c: ColorValue)
    ensures ParseColor(Decimal(Widen(c.red)) + "," + Decimal(Widen(c.green)) + "," + Decimal(Widen(c.blue))) == Some(c)
  {
    var r, g, b := Decimal(Widen(c.red)), Decimal(Widen(c.green)), Decimal(Widen(c.blue));
    var s := r + "," + g + "," + b;
    WidenedSplit(r, g, b);
    assert s[0] == r[0] && s[|s| - 1] == b[|b| - 1];
    Helpers.DigitIsPlain(r[0], 10);
    Helpers.DigitIsPlain(b[|b| - 1], 10);
    assert Trim(s) == s;
    ParseWidenedFields(s, c);
  }

  lemma WidenedSplit(r: string, g: string, b: string)
    requires AllDigits(r, 10) && AllDigits(g, 10) && AllDigits(b, 10)
    ensures Split(r + "," + g + "," + b, ',') == [r, g, b]
  {
    var parts := [r, g, b];
    assert ',' !in r && ',' !in g && ',' !in b by {
      assert !IsDigit(',', 10);
    }
    assert parts[1..] == [g, b] && parts[1..][1..] == [b];
    assert Join(parts[1..][1..], ",") == b;
    assert Join(parts[1..], ",") == g + "," + b;
    assert Join(parts, ",") == r + "," + (g + "," + b);
    assert Join(parts, ",") == r + "," + g + "," + b;
    SplitJoin(parts, ',');
  }

  lemma ParseWidenedFields(s: string, c: ColorValue)
    requires Split(s, ',') == [Decimal(Widen(c.red)), Decimal(Widen(c.green)), Decimal(Widen(c.blue))]
    requires Trim(s) == s
    ensures ParseColor(s) == Some(c)
  {
    WidenedFieldReadsBack(c.red);
    WidenedFieldReadsBack(c.green);
    WidenedFieldReadsBack(c.blue);
  }

  /** One channel: its widened numeral trims to itself and parses back to
      the widened value, which narrows to the channel. */
  lemma WidenedFieldReadsBack(v: u8)
    ensures ParseUnsigned(Trim(Decimal(Widen(v))), 10, 65535) == Some(Widen(v))
    ensures Narrow(Widen(v)) == v
  {
    var d := Decimal(Widen(v));
    Helpers.DecimalTrim(d, "");
    assert "" + d == d;
    DecimalRoundTrip(Widen(v), 65535);
  }

  /* ---------- notification ---------- */

  /** The notification passes its title and message; the timeout and icon
      are not used by this adapter. */
  function NotifyArgs(p: NotifyPopup): (r: seq<string>)
    ensures r == [p.title, p.message]
  {
    [p.title, p.message]
  }
}

=== FILE: paths.dfy ===
/** The parts of Rust's `std::path` the adapters rely on: `Path::join` with
    Unix and with Windows separators, `Path::parent` and `Path::file_name`. */
module Paths {
  import opened Base

  /** Position of the last occurrence of `c`. */
  function LastIndex(q: string, c: char): (r: Option<nat>)
    ensures r.Some? ==> r.value < |q| && q[r.value] == c && c !in q[r.value + 1..]
    ensures r.None? ==> c !in q
    decreases |q|
  {
    if |q| == 0 then None
    else if q[|q| - 1] == c then Some(|q| - 1)
    else
      var r := LastIndex(q[..|q| - 1], c);
      assert r.None? ==> q == q[..|q| - 1] + [q[|q| - 1]];
      assert r.Some? ==> q[r.value + 1..] == q[..|q| - 1][r.value + 1..] + [q[|q| - 1]];
      r
  }

  /** The last occurrence of `c` is the one after which `c` no longer appears. */
  lemma {:induction false} LastIndexOfSplit(a: string, c: char, b: string)
    requires c !in b
    ensures LastIndex(a + [c] + b, c) == Some(|a|)
    decreases |b|
  {
    var q := a + [c] + b;
    if |b| > 0 {
      assert q[|q| - 1] == b[|b| - 1];
      assert q[..|q| - 1] == a + [c] + b[..|b| - 1];
      LastIndexOfSplit(a, c, b[..|b| - 1]);
    }
  }

  predicate IsUnixAbsolute(p: string) { |p| > 0 && p[0] == '/' }

  /** `Path::join` on Unix: an absolute second path replaces the first;
      otherwise one '/' is inserted unless the first is empty or already ends
      in '/'. */
  function UnixJoin(dir: string, file: string): (r: string)
    ensures |file| <= |r| && r[|r| - |file|..] == file
    ensures IsUnixAbsolute(file) ==> r == file
    ensures !IsUnixAbsolute(file) ==> dir <= r && |dir| + |file| <= |r| <= |dir| + 1 + |file|
  {
    if IsUnixAbsolute(file) then file
    else if |dir| > 0 && dir[|dir| - 1] != '/' then dir + "/" + file
    else dir + file
  }

  /* Unix `Path::components`: a leading '/' is the root, a leading `.`
     (the whole path or followed by '/') the current directory; the rest,
     the body, splits at '/' into components, of which empty ones and `.`
     are skipped. */

  /** Length of the root or leading current-directory component. */
  function Head(p: string): (r: nat)
    ensures r <= 1 && r <= |p|
  {
    if |p| > 0 && p[0] == '/' then 1
    else if p == "." || (|p| >= 2 && p[0] == '.' && p[1] == '/') then 1
    else 0
  }

  /** Where the last component of the body starts. */
  function LastStart(p: string, h: nat): (r: nat)
    requires h <= |p|
    ensures h <= r <= |p|
    ensures r > h ==> p[r - 1] == '/'
    ensures '/' !in p[r..]
  {
    match LastIndex(p[h..], '/')
    case None => h
    case Some(i) => assert p[h + i + 1..] == p[h..][i + 1..]; h + i + 1
  }

  /** The path without the last component and the separator before it. */
  function DropLast(p: string, h: nat): (r: string)
    requires h <= |p|
    ensures h <= |r| <= |p| && r == p[..|r|]
  {
    var j := LastStart(p, h);
    p[..if j > h then j - 1 else h]
  }

  /** `Components::trim_right`: the path without its trailing empty and `.`
      components. */
  function TrimBack(p: string, h: nat): (r: string)
    requires h <= |p|
    ensures h <= |r| <= |p| && r == p[..|r|]
    ensures |r| > h ==> var c := r[LastStart(r, h)..]; c != "" && c != "."
    decreases |p|
  {
    if |p| == h then p
    else
      var c := p[LastStart(p, h)..];
      if c == "" || c == "." then TrimBack(DropLast(p, h), h) else p
  }

  /** `Path::parent` on Unix: the path before its last component, itself
      without trailing empty and `.` components; `Some("")` when the only
      component is the leading `.`; `None` for the empty path and a bare
      root. */
  function Parent(p: string): (r: Option<string>)
    ensures r.Some? ==> |r.value| < |p| && r.value <= p
  {
    var h := Head(p);
    var t := TrimBack(p, h);
    if |t| > h then Some(TrimBack(DropLast(t, h), h))
    else if h == 1 && p[0] != '/' then Some("")
    else None
  }

  /** `Path::file_name` on Unix: the last component when it is a plain name
      (not `..`, and not the root or the leading `.`). */
  function FileName(p: string): (r: Option<string>)
    ensures r.Some? ==> r.value != [] && '/' !in r.value && r.value != "." && r.value != ".."
  {
    var h := Head(p);
    var t := TrimBack(p, h);
    if |t| > h && t[LastStart(t, h)..] != ".." then Some(t[LastStart(t, h)..]) else None
  }

  /** A path whose last component is a plain name is left alone by
      trimming. */
  lemma TrimBackStops(p: string, h: nat)
    requires h <= |p| && |p| > h
    requires p[|p| - 1] != '/' && p[h..] != "." && !(|p| >= 2 && p[|p| - 2..] == "/.")
    ensures TrimBack(p, h) == p
  {
  }

  /** Appending `/` and a last component keeps the root or leading `.`. */
  lemma HeadOfAppend(p: string, c: string)
    requires p != "" && c != ""
    ensures Head(p + "/" + c) == Head(p)
  {
    var q := p + "/" + c;
    assert q[0] == p[0];
    if |p| >= 2 { assert q[1] == p[1]; } else { assert q[1] == '/'; }
  }

  /** In `p/c`, with `c` free of '/', the last component is `c` and
      dropping it leaves `p`. */
  lemma LastOfAppend(p: string, c: string, h: nat)
    requires h <= |p| && '/' !in c
    ensures LastStart(p + "/" + c, h) == |p| + 1
    ensures (p + "/" + c)[|p| + 1..] == c
    ensures DropLast(p + "/" + c, h) == p
  {
    var q := p + "/" + c;
    assert q[h..] == p[h..] + "/" + c;
    LastIndexOfSplit(p[h..], '/', c);
  }

  /** The parent of `dir/name` is `dir` without its trailing empty and `.`
      components, and its file name is `name`. */
  lemma JoinParts(dir: string, name: string)
    requires |dir| > 0 && dir[|dir| - 1] != '/'
    requires name != [] && '/' !in name && name != "." && name != ".."
    ensures Parent(UnixJoin(dir, name)) == Some(TrimBack(dir, Head(dir)))
    ensures FileName(UnixJoin(dir, name)) == Some(name)
  {
    var j := UnixJoin(dir, name);
    assert j == dir + "/" + name;
    HeadOfAppend(dir, name);
    LastOfAppend(dir, name, Head(dir));
    assert TrimBack(j, Head(dir)) == j;
  }

  /** A directory not ending in '/' or `/.` is its own trimmed form. */
  lemma DirTrimmed(dir: string)
    requires |dir| > 0 && dir[|dir| - 1] != '/' && !(|dir| >= 2 && dir[|dir| - 2..] == "/.")
    ensures TrimBack(dir, Head(dir)) == dir
  {
    var h := Head(dir);
    if |dir| > h {
      assert dir[0..] == dir && dir[|dir| - 1..] == [dir[|dir| - 1]];
      TrimBackStops(dir, h);
    }
  }

  /** Joining a directory with a plain file name and taking the parent and
      the file name back apart recovers both. */
  lemma ParentFileNameOfJoin(dir: string, name: string)
    requires |dir| > 0 && dir[|dir| - 1] != '/' && !(|dir| >= 2 && dir[|dir| - 2..] == "/.")
    requires name != [] && '/' !in name && name != "." && name != ".."
    ensures Parent(UnixJoin(dir, name)) == Some(dir)
    ensures FileName(UnixJoin(dir, name)) == Some(name)
  {
    JoinParts(dir, name);
    DirTrimmed(dir);
  }

  /** A trailing `.` component is dropped by trimming. */
  lemma TrimBackCurDir(p: string, h: nat)
    requires h <= |p|
    ensures TrimBack(p + "/.", h) == TrimBack(p, h)
  {
    var q := p + "/.";
    assert q == p + "/" + ".";
    LastOfAppend(p, ".", h);
    assert q[LastStart(q, h)..] == ".";
  }

  /** A trailing `.` component is ignored: `p/.` has the parent and the
      file name of `p`. */
  lemma CurDirIgnored(p: string)
    requires p != ""
    ensures Parent(p + "/.") == Parent(p)
    ensures FileName(p + "/.") == FileName(p)
  {
    var q := p + "/.";
    var h := Head(p);
    HeadOfAppend(p, ".");
    assert q == p + "/" + "." && Head(q) == h;
    TrimBackCurDir(p, h);
    assert q[0] == p[0];
    var t := TrimBack(p, h);
    assert TrimBack(q, h) == t;
  }

  /** A single plain name is its own trimmed form. */
  lemma PlainNameTrimmed(n: string)
    requires n != [] && '/' !in n && n != "." && n != ".."
    ensures Head(n) == 0 && TrimBack(n, 0) == n
  {
    assert n[|n| - 1] in n && n[0..] == n;
    assert |n| >= 2 ==> n[1] in n && n[|n| - 2] in n && n[|n| - 2..][0] == n[|n| - 2];
    TrimBackStops(n, 0);
  }

  /** A trailing `.` is skipped: `a/.` names `a`. */
  lemma TrailingCurDirExample()
    ensures FileName("a/.") == Some("a")
  {
    PlainNameTrimmed("a");
    CurDirIgnored("a");
    assert "a" + "/." == "a/.";
  }

  /** An interior `.` is skipped: `a/./b` has the parent `a`. */
  lemma InteriorCurDirExample()
    ensures Parent("a/./b") == Some("a")
  {
    JoinParts("a/.", "b");
    assert UnixJoin("a/.", "b") == "a/./b";
    PlainNameTrimmed("a");
    TrimBackCurDir("a", 0);
    assert "a" + "/." == "a/.";
  }

  predicate IsWinSep(c: char) { c == '\\' || c == '/' }

  predicate HasDrivePrefix(p: string)
  {
    |p| >= 2 && p[1] == ':' && (('a' <= p[0] <= 'z') || ('A' <= p[0] <= 'Z'))
  }

  /** Index of the first separator of `s`, or `|s|` when there is none. */
  function FirstSep(s: string): (i: nat)
    ensures i <= |s|
    ensures forall k :: 0 <= k < i ==> !IsWinSep(s[k])
    ensures i < |s| ==> IsWinSep(s[i])
    decreases |s|
  {
    if |s| == 0 || IsWinSep(s[0]) then 0 else 1 + FirstSep(s[1..])
  }

  /** What follows the two leading separators of a UNC path: a non-empty
      server component, a separator and a non-empty share component. */
  predicate UncServerShare(rest: string)
  {
    var i := FirstSep(rest);
    0 < i && i + 1 < |rest| && !IsWinSep(rest[i + 1])
  }

  /** A Windows path prefix, as Rust's `parse_prefix` finds one: a drive
      (`C:`), or two leading separators (either of `\` and `/`) followed by
      a verbatim marker `?\` (with backslashes only), a device marker `.`
      and a separator, or a non-empty server and share. */
  predicate HasWinPrefix(p: string)
  {
    || HasDrivePrefix(p)
    || (|p| >= 2 && IsWinSep(p[0]) && IsWinSep(p[1]) &&
          (|| (|p| >= 4 && p[..4] == "\\\\?\\")
           || (|p| >= 4 && p[2] == '.' && IsWinSep(p[3]))
           || UncServerShare(p[2..])))
  }

  /** `Path::join` on Windows: a prefixed second path replaces the first; a
      rooted one keeps only the first path's drive; a relative one is
      appended after one '\' unless the first is empty, ends in a separator
      or is a bare drive. */
  function WinJoin(dir: string, file: string): (r: string)
    ensures |file| <= |r| && r[|r| - |file|..] == file
    ensures HasWinPrefix(file) ==> r == file
    ensures !HasWinPrefix(file) && !(|file| > 0 && IsWinSep(file[0])) ==> dir <= r
  {
    if HasWinPrefix(file) then file
    else if |file| > 0 && IsWinSep(file[0]) then
      (if HasDrivePrefix(dir) then dir[..2] else "") + file
    else if |dir| > 0 && !IsWinSep(dir[|dir| - 1]) && !(|dir| == 2 && HasDrivePrefix(dir)) then
      dir + "\\" + file
    else dir + file
  }

  /** Two separators, a server, a separator and a share make a UNC prefix,
      whichever separators are used, so such a path replaces the first. */
  lemma UncPathReplaces(dir: string, a: char, b: char, server: string, c: char, share: string)
    requires IsWinSep(a) && IsWinSep(b) && IsWinSep(c)
    requires server != [] && forall k :: 0 <= k < |server| ==> !IsWinSep(server[k])
    requires share != [] && !IsWinSep(share[0])
    ensures WinJoin(dir, [a, b] + server + [c] + share) == [a, b] + server + [c] + share
  {
    var rest := server + [c] + share;
    assert ([a, b] + server + [c] + share)[2..] == rest;
    FirstSepAfter(server, c, share);
    assert rest[|server| + 1] == share[0];
  }

  lemma FirstSepAfter(x: string, c: char, y: string)
    requires IsWinSep(c) && forall k :: 0 <= k < |x| ==> !IsWinSep(x[k])
    ensures FirstSep(x + [c] + y) == |x|
  {
    var s := x + [c] + y;
    assert s[|x|] == c;
    assert forall k :: 0 <= k < |x| ==> s[k] == x[k];
  }

  /** Two separators and a server with no share are no prefix: the path is
      only rooted, so it keeps the first path's drive. */
  lemma BareServerRooted(dir: string, a: char, b: char, server: string)
    requires IsWinSep(a) && IsWinSep(b)
    requires forall k :: 0 <= k < |server| ==> !IsWinSep(server[k])
    ensures WinJoin(dir, [a, b] + server) == (if HasDrivePrefix(dir) then dir[..2] else "") + [a, b] + server
  {
    var p := [a, b] + server;
    assert p[2..] == server;
    assert |p| >= 4 ==> p[3] == server[1];
  }

  /** `C:\d` joined with `//srv/share/x` is `//srv/share/x`. */
  lemma ForwardSlashUncExample()
    ensures WinJoin("C:\\d", "//srv/share/x") == "//srv/share/x"
  {
    UncPathReplaces("C:\\d", '/', '/', "srv", '/', "share/x");
    assert ['/', '/'] + "srv" + ['/'] + "share/x" == "//srv/share/x";
  }

  /** `C:\d` joined with `\\srv` is `C:\\srv`. */
  lemma BareServerExample()
    ensures WinJoin("C:\\d", "\\\\srv") == "C:\\\\srv"
  {
    BareServerRooted("C:\\d", '\\', '\\', "srv");
    assert ['\\', '\\'] + "srv" == "\\\\srv";
  }
}

=== FILE: rustint.dfy ===
/** Rust's integer text conversions as the adapters use them:
    `uN::from_str_radix` / `str::parse::<uN>` for reading helper output and
    `{}` / `{:02X}` formatting for writing arguments. */
module RustInt {
  import opened Base

  /** `char::to_digit(36)`: '0'-'9', then 'a'-'z' and 'A'-'Z' as 10-35. */
  function DigitValue(c: char): Option<nat>
  {
    if '0' <= c <= '9' then Some(c as int - '0' as int)
    else if 'a' <= c <= 'z' then Some(c as int - 'a' as int + 10)
    else if 'A' <= c <= 'Z' then Some(c as int - 'A' as int + 10)
    else None
  }

  predicate IsDigit(c: char, radix: nat)
  {
    DigitValue(c).Some? && DigitValue(c).value < radix
  }

  predicate AllDigits(d: string, radix: nat)
  {
    forall i :: 0 <= i < |d| ==> IsDigit(d[i], radix)
  }

  /** Positional value of a digit string, read left to right from `acc`. */
  function ValueFrom(acc: nat, d: string, radix: nat): nat
    requires AllDigits(d, radix)
    decreases |d|
  {
    if |d| == 0 then acc
    else ValueFrom(acc * radix + DigitValue(d[0]).value, d[1..], radix)
  }

  /** The digits after the optional single leading '+'. */
  function DigitPart(s: string): string
  {
    if |s| > 0 && s[0] == '+' then s[1..] else s
  }

  /** What an unsigned `from_str_radix` accepts: an optional '+', then at
      least one digit of the radix, with a value that fits the type. */
  predicate Accepts(s: string, radix: nat, max: nat)
  {
    var d := DigitPart(s);
    |d| > 0 && AllDigits(d, radix) && ValueFrom(0, d, radix) <= max
  }

  /** The digit loop of `from_str_radix`: each step multiplies, adds the
      digit, and fails on a bad digit or as soon as the value overflows. */
  function CheckedDigits(d: string, radix: nat, max: nat, acc: nat): Option<nat>
    decreases |d|
  {
    if |d| == 0 then Some(acc)
    else if !IsDigit(d[0], radix) then None
    else
      var next := acc * radix + DigitValue(d[0]).value;
      if next > max then None else CheckedDigits(d[1..], radix, max, next)
  }

  lemma {:induction false} ValueFromMonotone(acc: nat, d: string, radix: nat)
    requires AllDigits(d, radix)
    ensures ValueFrom(acc, d, radix) >= acc
    decreases |d|
  {
    if |d| > 0 {
      ValueFromMonotone(acc * radix + DigitValue(d[0]).value, d[1..], radix);
      assert acc * radix >= acc || radix == 0;
    }
  }

  lemma {:induction false} ValueFromSnoc(acc: nat, d: string, c: char, radix: nat)
    requires AllDigits(d, radix) && IsDigit(c, radix)
    ensures AllDigits(d + [c], radix)
    ensures ValueFrom(acc, d + [c], radix) == ValueFrom(acc, d, radix) * radix + DigitValue(c).value
    decreases |d|
  {
    assert AllDigits(d + [c], radix) by {
      forall i | 0 <= i < |d + [c]| ensures IsDigit((d + [c])[i], radix) {
        if i < |d| { assert (d + [c])[i] == d[i]; }
      }
    }
    if |d| > 0 {
      assert (d + [c])[1..] == d[1..] + [c];
      ValueFromSnoc(acc * radix + DigitValue(d[0]).value, d[1..], c, radix);
    }
  }

  /** Checking for overflow at every step accepts exactly the digit strings
      whose final value fits: the value never decreases along the way. */
  lemma {:induction false} CheckedDigitsSpec(d: string, radix: nat, max: nat, acc: nat)
    requires radix >= 1 && acc <= max
    ensures CheckedDigits(d, radix, max, acc) ==
      (if AllDigits(d, radix) && ValueFrom(acc, d, radix) <= max
       then Some(ValueFrom(acc, d, radix)) else None)
    decreases |d|
  {
    if |d| > 0 {
      if !IsDigit(d[0], radix) {
        assert !AllDigits(d, radix);
      } else {
        var next := acc * radix + DigitValue(d[0]).value;
        assert AllDigits(d, radix) <==> AllDigits(d[1..], radix) by {
          if AllDigits(d[1..], radix) {
            forall i | 0 <= i < |d| ensures IsDigit(d[i], radix) {
              if i > 0 { assert d[i] == d[1..][i - 1]; }
            }
          }
        }
        if next > max {
          if AllDigits(d[1..], radix) {
            ValueFromMonotone(next, d[1..], radix);
          }
        } else {
          CheckedDigitsSpec(d[1..], radix, max, next);
        }
      }
    }
  }

  /** Unsigned `from_str_radix(s, radix)` for a type whose largest value is
      `max` (255 for `u8`, 65535 for `u16`); `str::parse` is radix 10. */
  function ParseUnsigned(s: string, radix: nat, max: nat): (r: Option<nat>)
    requires radix >= 1
    ensures r.Some? <==> Accepts(s, radix, max)
    ensures r.Some? ==> r.value <= max && r.value == ValueFrom(0, DigitPart(s), radix)
  {
    CheckedDigitsSpec(DigitPart(s), radix, max, 0);
    if |s| == 0 then None
    else if (s[0] == '+' || s[0] == '-') && |s| == 1 then None
    else if s[0] == '+' then CheckedDigits(s[1..], radix, max, 0)
    else CheckedDigits(s, radix, max, 0)
  }

  /** A leading '+' is accepted, a lone sign is not. */
  lemma ParseSignExamples()
    ensures ParseUnsigned("+F", 16, 255) == Some(15)
    ensures ParseUnsigned("+", 16, 255) == None
    ensures ParseUnsigned("-1", 10, 255) == None
  {
    assert ValueFrom(0, "F", 16) == 15;
    assert !IsDigit('-', 10);
  }

  /** Digits of either case and leading zeros are accepted; a value past
      the maximum is not. */
  lemma ParseHexExample()
    ensures ParseUnsigned("ff", 16, 255) == Some(255)
  {
    assert ValueFrom(0, "ff", 16) == 255;
  }

  lemma ParseOverflowExample()
    ensures ParseUnsigned("256", 10, 255) == None
  {
    assert ValueFrom(0, "256", 10) == 256;
  }

  lemma ParseLeadingZerosExample()
    ensures ParseUnsigned("00255", 10, 255) == Some(255)
  {
    assert ValueFrom(0, "255", 10) == 255;
    assert ValueFrom(0, "0255", 10) == ValueFrom(0, "255", 10);
    assert ValueFrom(0, "00255", 10) == ValueFrom(0, "0255", 10);
  }

  /** One upper-case hexadecimal digit. */
  function HexUpper(n: nat): (c: char)
    requires n < 16
    ensures IsDigit(c, 16) && DigitValue(c).value == n
  {
    if n < 10 then ('0' as int + n) as char else ('A' as int + n - 10) as char
  }

  /** `format!("{:02X}", n)` for a `u8`. */
  function Hex2(n: u8): (r: string)
    ensures |r| == 2 && AllDigits(r, 16) && r[0] != '+'
    ensures ValueFrom(0, r, 16) == n
  {
    var r := [HexUpper(n / 16), HexUpper(n % 16)];
    assert ValueFrom(0, r, 16) == ValueFrom(n / 16, r[1..], 16);
    r
  }

  /** One decimal digit. */
  function DecDigit(n: nat): (c: char)
    requires n < 10
    ensures IsDigit(c, 10) && DigitValue(c).value == n && c != '-'
  {
    ('0' as int + n) as char
  }

  /** `format!("{}", n)` for a non-negative integer. */
  function Decimal(n: nat): (r: string)
    ensures |r| >= 1 && AllDigits(r, 10) && '+' !in r && '-' !in r
    ensures ValueFrom(0, r, 10) == n
    decreases n
  {
    if n < 10 then
      assert ValueFrom(0, [DecDigit(n)], 10) == n;
      [DecDigit(n)]
    else
      var r := Decimal(n / 10) + [DecDigit(n % 10)];
      ValueFromSnoc(0, Decimal(n / 10), DecDigit(n % 10), 10);
      r
  }

  /** `format!("{}", n)` for a signed integer. */
  function SignedDecimal(n: int): (r: string)
    ensures |r| >= 1
    ensures n < 0 <==> r[0] == '-'
  {
    if n < 0 then "-" + Decimal(-n) else Decimal(n)
  }

  /** Formatting and parsing a `u8` in hexadecimal are inverse. */
  lemma HexRoundTrip(n: u8)
    ensures ParseUnsigned(Hex2(n), 16, 255) == Some(n)
  {
  }

  /** Formatting and parsing in decimal are inverse for every value that fits. */
  lemma DecimalRoundTrip(n: nat, max: nat)
    requires n <= max
    ensures ParseUnsigned(Decimal(n), 10, max) == Some(n)
  {
  }

  /** Distinct values print as distinct decimal strings. */
  lemma DecimalInjective(a: nat, b: nat)
    ensures Decimal(a) == Decimal(b) ==> a == b
  {
  }

  /** Distinct signed values print as distinct strings. */
  lemma SignedDecimalInjective(a: int, b: int)
    ensures SignedDecimal(a) == SignedDecimal(b) ==> a == b
  {
    if SignedDecimal(a) == SignedDecimal(b) {
      if a < 0 {
        assert b < 0;
        assert Decimal(-a) == SignedDecimal(a)[1..] == SignedDecimal(b)[1..] == Decimal(-b);
      }
    }
  }
}

=== FILE: text.dfy ===
/** The parts of Rust's `str` API the adapters use to frame and clean
    helper output: `split`, `trim`, `strip_prefix`/`strip_suffix`,
    `contains` and `replace`. */
module Text {
  import opened Base
  import opened Utils

  /** `char::is_whitespace`: the Unicode White_Space property. */
  predicate IsWhitespace(c: char)
  {
    || ('\t' <= c <= '\r')
    || c == ' '
    || c == '\U{0085}'
    || c == '\U{00A0}'
    || c == '\U{1680}'
    || ('\U{2000}' <= c <= '\U{200A}')
    || c == '\U{2028}'
    || c == '\U{2029}'
    || c == '\U{202F}'
    || c == '\U{205F}'
    || c == '\U{3000}'
  }

  /** `str::trim_start`. */
  function TrimStart(s: string): (r: string)
    ensures |r| <= |s| && r == s[|s| - |r|..]
    ensures forall i :: 0 <= i < |s| - |r| ==> IsWhitespace(s[i])
    ensures r == [] || !IsWhitespace(r[0])
    decreases |s|
  {
    if |s| > 0 && IsWhitespace(s[0]) then TrimStart(s[1..]) else s
  }

  /** `str::trim_end`. */
  function TrimEnd(s: string): (r: string)
    ensures |r| <= |s| && r == s[..|r|]
    ensures forall i :: |r| <= i < |s| ==> IsWhitespace(s[i])
    ensures r == [] || !IsWhitespace(r[|r| - 1])
    decreases |s|
  {
    if |s| > 0 && IsWhitespace(s[|s| - 1]) then TrimEnd(s[..|s| - 1]) else s
  }

  /** `str::trim`: drops leading and trailing white space and nothing else. */
  function Trim(s: string): (r: string)
    ensures |r| <= |s|
    ensures r == [] || (!IsWhitespace(r[0]) && !IsWhitespace(r[|r| - 1]))
    ensures (s == [] || (!IsWhitespace(s[0]) && !IsWhitespace(s[|s| - 1]))) ==> r == s
    ensures exists i, j :: 0 <= i <= j <= |s| && r == s[i..j]
                           && (forall k :: 0 <= k < i ==> IsWhitespace(s[k]))
                           && (forall k :: j <= k < |s| ==> IsWhitespace(s[k]))
  {
    var t := TrimStart(s);
    var r := TrimEnd(t);
    TrimmedSlice(s, t, r, |s| - |t|);
    r
  }

  /** Dropping white space from the front of `s` (giving `t`) and then from
      the back of `t` (giving `r`) leaves a slice of `s` with only white space
      around it and none at its ends. */
  lemma TrimmedSlice(s: string, t: string, r: string, i: nat)
    requires i <= |s| && t == s[i..] && |r| <= |t| && r == t[..|r|]
    requires forall k :: 0 <= k < i ==> IsWhitespace(s[k])
    requires forall k :: |r| <= k < |t| ==> IsWhitespace(t[k])
    requires t == [] || !IsWhitespace(t[0])
    requires r == [] || !IsWhitespace(r[|r| - 1])
    ensures |r| <= |s|
    ensures r == [] || (!IsWhitespace(r[0]) && !IsWhitespace(r[|r| - 1]))
    ensures (s == [] || (!IsWhitespace(s[0]) && !IsWhitespace(s[|s| - 1]))) ==> r == s
    ensures exists i, j :: 0 <= i <= j <= |s| && r == s[i..j]
                           && (forall k :: 0 <= k < i ==> IsWhitespace(s[k]))
                           && (forall k :: j <= k < |s| ==> IsWhitespace(s[k]))
  {
    var j := i + |r|;
    forall k | j <= k < |s| ensures IsWhitespace(s[k]) {
      assert s[k] == t[k - i];
    }
    assert r != [] ==> r[0] == t[0];
    assert r == s[i..j];
    if s != [] && !IsWhitespace(s[0]) && !IsWhitespace(s[|s| - 1]) {
      assert i == 0;
      assert j == |s|;
    }
  }

  /** Trimming only removes characters: whatever it keeps was in the input. */
  lemma TrimKeeps(s: string)
    ensures forall i :: 0 <= i < |Trim(s)| ==> Trim(s)[i] in s
  {
    var t := TrimStart(s);
    var r := TrimEnd(t);
    assert Trim(s) == r;
    forall i | 0 <= i < |r| ensures r[i] in s {
      assert r[i] == t[i];
      assert t[i] == s[|s| - |t| + i];
    }
  }

  /** A trailing white-space character after trimmed text is trimmed away. */
  lemma TrimAppendedSpace(s: string, c: char)
    requires s != [] && !IsWhitespace(s[0]) && !IsWhitespace(s[|s| - 1]) && IsWhitespace(c)
    ensures Trim(s + [c]) == s
  {
    var t := s + [c];
    assert TrimStart(t) == t;
    assert t[..|t| - 1] == s;
    assert TrimEnd(t) == TrimEnd(s);
  }

  /** Trimming twice is the same as trimming once. */
  lemma TrimIdempotent(s: string)
    ensures Trim(Trim(s)) == Trim(s)
  {
  }

  /** `slice::split` / `str::split` on a single separator: always at least
      one piece, no piece holds the separator, and re-joining the pieces with
      the separator gives back the input. */
  function Split<T(==)>(s: seq<T>, sep: T): (r: seq<seq<T>>)
    ensures |r| >= 1
    ensures forall i :: 0 <= i < |r| ==> sep !in r[i]
    ensures Join(r, [sep]) == s
    decreases |s|
  {
    if |s| == 0 then [[]]
    else
      var rest := Split(s[1..], sep);
      if s[0] == sep then
        assert Join([[]] + rest, [sep]) == [sep] + Join(rest, [sep]) by {
          assert ([[]] + rest)[1..] == rest;
        }
        [[]] + rest
      else
        var head := [s[0]] + rest[0];
        assert Join([head] + rest[1..], [sep]) == [s[0]] + Join(rest, [sep]) by {
          if |rest| > 1 {
            assert ([head] + rest[1..])[1..] == rest[1..];
          }
        }
        [head] + rest[1..]
  }

  /** One unfolding of `Split`, stated on the first element. */
  lemma SplitStep<T>(s: seq<T>, sep: T)
    requires |s| > 0
    ensures s[0] == sep ==> Split(s, sep) == [[]] + Split(s[1..], sep)
    ensures s[0] != sep ==> Split(s, sep) == [[s[0]] + Split(s[1..], sep)[0]] + Split(s[1..], sep)[1..]
  {
  }

  /** Sequence algebra for the two cases of `SplitConcat`, kept apart from
      `Split` so that the solver does not unfold it. */
  lemma ConsAppend<U>(h: U, left: seq<U>, right: seq<U>)
    ensures [h] + (left + right) == ([h] + left) + right
  {
  }

  lemma ConsTailAppend<U>(h: U, left: seq<U>, right: seq<U>)
    requires |left| >= 1
    ensures (left + right)[0] == left[0]
    ensures [h] + (left + right)[1..] == ([h] + left[1..]) + right
  {
  }

  /** Splitting at a separator splits the two sides independently. */
  lemma {:induction false} SplitConcat<T>(a: seq<T>, b: seq<T>, sep: T)
    ensures Split(a + [sep] + b, sep) == Split(a, sep) + Split(b, sep)
    decreases |a|
  {
    var s := a + [sep] + b;
    if |a| == 0 {
      assert s[0] == sep && s[1..] == b;
      SplitStep(s, sep);
    } else {
      assert s[0] == a[0] && s[1..] == a[1..] + [sep] + b;
      SplitConcat(a[1..], b, sep);
      SplitStep(s, sep);
      SplitStep(a, sep);
      var left := Split(a[1..], sep);
      var right := Split(b, sep);
      if a[0] == sep {
        ConsAppend([], left, right);
      } else {
        ConsTailAppend([a[0]] + left[0], left, right);
      }
    }
  }

  /** A piece without the separator splits to itself. */
  lemma {:induction false} SplitNoSep<T>(a: seq<T>, sep: T)
    requires sep !in a
    ensures Split(a, sep) == [a]
    decreases |a|
  {
    if |a| > 0 {
      SplitNoSep(a[1..], sep);
      assert [a[0]] + a[1..] == a;
    }
  }

  /** `Split` inverts `Join` when no part holds the separator. */
  lemma {:induction false} SplitJoin<T>(parts: seq<seq<T>>, sep: T)
    requires |parts| >= 1
    requires forall i :: 0 <= i < |parts| ==> sep !in parts[i]
    ensures Split(Join(parts, [sep]), sep) == parts
    decreases |parts|
  {
    if |parts| == 1 {
      SplitNoSep(parts[0], sep);
    } else {
      SplitJoin(parts[1..], sep);
      SplitConcat(parts[0], Join(parts[1..], [sep]), sep);
      SplitNoSep(parts[0], sep);
      assert [parts[0]] + parts[1..] == parts;
    }
  }

  /** `str::strip_prefix`. */
  function StripPrefix(s: string, p: string): (r: Option<string>)
    ensures r.Some? <==> p <= s
    ensures r.Some? ==> p + r.value == s
  {
    if p <= s then Some(s[|p|..]) else None
  }

  /** `str::strip_suffix`. */
  function StripSuffix(s: string, p: string): (r: Option<string>)
    ensures r.Some? <==> (|p| <= |s| && s[|s| - |p|..] == p)
    ensures r.Some? ==> r.value + p == s
  {
    if |p| <= |s| && s[|s| - |p|..] == p then Some(s[..|s| - |p|]) else None
  }

  /** `str::contains` for a string needle. */
  predicate Contains(s: string, needle: string)
    decreases |s|
  {
    needle <= s || (|s| > 0 && Contains(s[1..], needle))
  }

  /** `str::replace(c, rep)`: every occurrence of `c` becomes `rep`. */
  function ReplaceChar(s: string, c: char, rep: string): (r: string)
    ensures c !in rep ==> c !in r
    ensures c !in s ==> r == s
    ensures forall x :: x in r && x != c ==> x in s || x in rep
    decreases |s|
  {
    if |s| == 0 then ""
    else (if s[0] == c then rep else [s[0]]) + ReplaceChar(s[1..], c, rep)
  }

  /** The non-empty pieces of a list, in their original order (the
      `filter(|line| !line.is_empty())` step). */
  function NonEmpty<T>(xs: seq<seq<T>>): (r: seq<seq<T>>)
    ensures |r| <= |xs|
    ensures forall i :: 0 <= i < |r| ==> r[i] != [] && r[i] in xs
    ensures (forall i :: 0 <= i < |xs| ==> xs[i] != []) ==> r == xs
    decreases |xs|
  {
    if |xs| == 0 then []
    else if xs[0] == [] then NonEmpty(xs[1..])
    else [xs[0]] + NonEmpty(xs[1..])
  }
}

=== FILE: utf16.dfy ===
/** UTF-16 as the Windows adapters use it: `str::encode_utf16`,
    `utf16_null_terminated` (src/win32/mod.rs) and `String::from_utf16_lossy`. */
module Utf16 {
  import opened Base

  predicate IsHighSurrogate(u: int) { 0xD800 <= u < 0xDC00 }
  predicate IsLowSurrogate(u: int) { 0xDC00 <= u < 0xE000 }

  /** The code units of one character: itself below U+10000, otherwise a
      high/low surrogate pair. */
  function EncodeChar(c: char): (r: seq<u16>)
    ensures 1 <= |r| <= 2
    ensures |r| == 1 ==> r[0] == c as int && !IsHighSurrogate(r[0]) && !IsLowSurrogate(r[0])
    ensures |r| == 2 ==> IsHighSurrogate(r[0]) && IsLowSurrogate(r[1])
    ensures 0 in r <==> c == '\0'
  {
    var v := c as int;
    if v < 0x1_0000 then [v]
    else
      var w := v - 0x1_0000;
      [0xD800 + w / 0x400, 0xDC00 + w % 0x400]
  }

  /** `str::encode_utf16`. */
  function Encode(s: string): (r: seq<u16>)
    ensures |r| >= |s|
    ensures 0 in r <==> '\0' in s
    decreases |s|
  {
    if |s| == 0 then [] else EncodeChar(s[0]) + Encode(s[1..])
  }

  /** `utf16_null_terminated` (src/win32/mod.rs:11): the encoding followed by
      one terminating zero unit. */
  function NullTerminated(s: string): (r: seq<u16>)
    ensures |r| >= 1 && r[|r| - 1] == 0
    ensures '\0' !in s ==> forall i :: 0 <= i < |r| - 1 ==> r[i] != 0
  {
    Encode(s) + [0]
  }

  /** `String::from_utf16_lossy`: surrogate pairs combine, any unpaired
      surrogate becomes U+FFFD. */
  function DecodeLossy(units: seq<u16>): string
    decreases |units|
  {
    if |units| == 0 then ""
    else if IsHighSurrogate(units[0]) && |units| >= 2 && IsLowSurrogate(units[1]) then
      [(0x1_0000 + (units[0] as int - 0xD800) * 0x400 + (units[1] as int - 0xDC00)) as char]
        + DecodeLossy(units[2..])
    else if IsHighSurrogate(units[0]) || IsLowSurrogate(units[0]) then
      ['\U{FFFD}'] + DecodeLossy(units[1..])
    else [units[0] as char] + DecodeLossy(units[1..])
  }

  /** Lossy decoding is exact on anything `Encode` produced. */
  lemma {:induction false} DecodeEncode(s: string)
    ensures DecodeLossy(Encode(s)) == s
    decreases |s|
  {
    if |s| > 0 {
      var e := EncodeChar(s[0]);
      var rest := Encode(s[1..]);
      assert Encode(s) == e + rest;
      DecodeEncode(s[1..]);
      if |e| == 1 {
        assert (e + rest)[1..] == rest;
      } else {
        assert (e + rest)[2..] == rest;
        var v := s[0] as int;
        var w := v - 0x1_0000;
        assert 0x1_0000 + (w / 0x400) * 0x400 + w % 0x400 == v;
      }
      assert [s[0]] + s[1..] == s;
    }
  }

  /** Below the surrogate range every character is one unit, its own code. */
  lemma {:induction false} EncodeBmp(s: string)
    requires forall i :: 0 <= i < |s| ==> (s[i] as int) < 0xD800
    ensures |Encode(s)| == |s| && forall i :: 0 <= i < |s| ==> Encode(s)[i] == s[i] as int
    decreases |s|
  {
    if |s| > 0 {
      EncodeBmp(s[1..]);
      assert Encode(s) == [s[0] as int] + Encode(s[1..]);
    }
  }

  /** Encoding distributes over concatenation. */
  lemma {:induction false} EncodeAppend(a: string, b: string)
    ensures Encode(a + b) == Encode(a) + Encode(b)
    decreases |a|
  {
    if |a| > 0 {
      assert (a + b)[1..] == a[1..] + b;
      EncodeAppend(a[1..], b);
    } else {
      assert a + b == b;
    }
  }
}

=== FILE: utils.dfy ===
/** `PrintJoin` (src/utils.rs): display a list of parts with a separator
    written between neighbouring parts. */
module Utils {

  /** Reference definition of the joined text: the parts in order, one
      separator between each pair of neighbours. */
  function Join<T>(parts: seq<seq<T>>, sep: seq<T>): seq<T>
  {
    if |parts| == 0 then []
    else if |parts| == 1 then parts[0]
    else parts[0] + sep + Join(parts[1..], sep)
  }

  /** Total length of all parts. */
  function SumLengths<T>(parts: seq<seq<T>>): nat
  {
    if |parts| == 0 then 0 else |parts[0]| + SumLengths(parts[1..])
  }

  /** Appending one more part adds the separator and then the part. */
  lemma {:induction false} JoinSnoc<T>(parts: seq<seq<T>>, p: seq<T>, sep: seq<T>)
    requires |parts| >= 1
    ensures Join(parts + [p], sep) == Join(parts, sep) + sep + p
    decreases |parts|
  {
    if |parts| == 1 {
      assert parts + [p] == [parts[0], p];
      assert [parts[0], p][1..] == [p];
    } else {
      assert (parts + [p])[1..] == parts[1..] + [p];
      JoinSnoc(parts[1..], p, sep);
    }
  }

  /** The separator sits exactly between the two halves of a split part list:
      no separator is doubled, dropped, leading or trailing. */
  lemma {:induction false} JoinAppend<T>(a: seq<seq<T>>, b: seq<seq<T>>, sep: seq<T>)
    requires |a| >= 1 && |b| >= 1
    ensures Join(a + b, sep) == Join(a, sep) + sep + Join(b, sep)
    decreases |a|
  {
    if |a| == 1 {
      assert (a + b)[1..] == b;
    } else {
      assert (a + b)[1..] == a[1..] + b;
      JoinAppend(a[1..], b, sep);
    }
  }

  /** Output length is the sum of the part lengths plus one separator per
      gap between parts. */
  lemma {:induction false} JoinLength<T>(parts: seq<seq<T>>, sep: seq<T>)
    requires |parts| >= 1
    ensures |Join(parts, sep)| == SumLengths(parts) + (|parts| - 1) * |sep|
    decreases |parts|
  {
    if |parts| > 1 {
      JoinLength(parts[1..], sep);
    }
  }

  /** The output begins with the first part and ends with the last one. */
  lemma {:induction false} JoinEnds<T>(parts: seq<seq<T>>, sep: seq<T>)
    requires |parts| >= 1
    ensures parts[0] <= Join(parts, sep)
    ensures var j := Join(parts, sep);
      |parts[|parts| - 1]| <= |j| && j[|j| - |parts[|parts| - 1]|..] == parts[|parts| - 1]
    decreases |parts|
  {
    if |parts| > 1 {
      JoinEnds(parts[1..], sep);
      var j := Join(parts, sep);
      var rest := Join(parts[1..], sep);
      assert j == (parts[0] + sep) + rest;
      assert j[|j| - |rest|..] == rest;
    }
  }

  /** A character in none of the parts and not in the separator is not in
      their join. */
  lemma {:induction false} JoinNoChar(parts: seq<string>, sep: string, c: char)
    requires c !in sep && forall i :: 0 <= i < |parts| ==> c !in parts[i]
    ensures c !in Join(parts, sep)
    decreases |parts|
  {
    if |parts| > 1 {
      JoinNoChar(parts[1..], sep, c);
    }
  }

  /** `PrintJoin::fmt`: writes each part in order, preceded by the separator
      for every part except the first. */
  method PrintJoinFmt<T>(parts: seq<seq<T>>, sep: seq<T>) returns (out: seq<T>)
    ensures out == Join(parts, sep)
    ensures |parts| == 0 ==> out == []
    ensures |parts| == 1 ==> out == parts[0]
  {
    out := [];
    var first := true;
    var i := 0;
    while i < |parts|
      invariant 0 <= i <= |parts|
      invariant first <==> i == 0
      invariant out == Join(parts[..i], sep)
    {
      if !first {
        out := out + sep;
      }
      out := out + parts[i];
      if i > 0 {
        JoinSnoc(parts[..i], parts[i], sep);
      } else {
        assert [parts[0]] == parts[..1];
      }
      assert parts[..i + 1] == parts[..i] + [parts[i]];
      first := false;
      i := i + 1;
    }
    assert parts[..|parts|] == parts;
  }
}

=== FILE: win32_color.dfy ===
/** The Win32 colour picker (src/win32/color.rs): the `ColorValue` to
    `COLORREF` packing used to seed `ChooseColorW`, and its inverse used to
    read the chosen colour back. A `COLORREF` is `0x00BBGGRR`. */
module Win32Color {
  import opened Base
  import opened Dialogs

  /** `color_value_to_colorref`: blue shifted to bits 16-23, green to bits
      8-15, red in bits 0-7, combined with `|`. The channels occupy disjoint
      bit ranges, so the word is written as the sum of the shifted bytes
      (`PackBits` shows the two forms agree). */
  function ColorValueToColorref(c: ColorValue): (r: u32)
    ensures r < 0x100_0000
    ensures r % 0x100 == c.red
    ensures r / 0x100 % 0x100 == c.green
    ensures r / 0x1_0000 == c.blue
  {
    c.blue * 0x1_0000 + c.green * 0x100 + c.red
  }

  /** `colorref_to_color_value`: `& 0xFF` after shifting right by 0, 8 and
      16 bits keeps one byte each, so whatever sits above bit 23 is masked
      away (`UnpackBits` shows the two forms agree). */
  function ColorrefToColorValue(colorref: u32): (c: ColorValue)
    ensures c.blue * 0x1_0000 + c.green * 0x100 + c.red == colorref % 0x100_0000
  {
    Bytes(colorref);
    ColorValue(colorref % 0x100, colorref / 0x100 % 0x100, colorref / 0x1_0000 % 0x100)
  }

  /** The low 24 bits of a word are its three low bytes. */
  lemma Bytes(w: nat)
    ensures w % 0x100_0000 == (w / 0x1_0000 % 0x100) * 0x1_0000 + (w / 0x100 % 0x100) * 0x100 + w % 0x100
  {
    var q1, r1 := w / 0x100, w % 0x100;
    var q2, r2 := q1 / 0x100, q1 % 0x100;
    var q3, r3 := q2 / 0x100, q2 % 0x100;
    assert w == q3 * 0x100_0000 + r3 * 0x1_0000 + r2 * 0x100 + r1;
    assert w / 0x1_0000 == q2;
    assert w % 0x100_0000 == r3 * 0x1_0000 + r2 * 0x100 + r1;
  }

  /** Quotient and remainder are determined by any decomposition with a
      remainder in range. */
  lemma DivModUnique(a: int, q: int, r: int, m: int)
    requires m == 0x100 || m == 0x1_0000 || m == 0x100_0000
    requires 0 <= r < m && a == q * m + r
    ensures a / m == q && a % m == r
  {
  }

  /** The source's `(b << 16) | (g << 8) | r` on bytes is the sum of the
      shifted bytes. */
  lemma PackBits(r: bv32, g: bv32, b: bv32)
    requires r < 0x100 && g < 0x100 && b < 0x100
    ensures (b << 16) | (g << 8) | r == b * 0x1_0000 + g * 0x100 + r
  {
  }

  /** The source's shift-and-mask reads are division and remainder. */
  lemma UnpackBits(w: bv32)
    ensures w & 0xFF == w % 0x100
    ensures (w >> 8) & 0xFF == w / 0x100 % 0x100
    ensures (w >> 16) & 0xFF == w / 0x1_0000 % 0x100
  {
  }

  /** Unpacking undoes packing for every colour. */
  lemma ColorRoundTrip(c: ColorValue)
    ensures ColorrefToColorValue(ColorValueToColorref(c)) == c
  {
    var w := ColorValueToColorref(c);
    DivModUnique(w, c.blue * 0x100 + c.green, c.red, 0x100);
    DivModUnique(c.blue * 0x100 + c.green, c.blue, c.green, 0x100);
    DivModUnique(w, c.blue, c.green * 0x100 + c.red, 0x1_0000);
  }

  /** Packing undoes unpacking for every word with nothing above bit 23. */
  lemma ColorrefRoundTrip(w: u32)
    requires w < 0x100_0000
    ensures ColorValueToColorref(ColorrefToColorValue(w)) == w
  {
    DivModUnique(w, 0, w, 0x100_0000);
  }

  /** Bits above bit 23 do not affect the colour read back. */
  lemma HighBitsIgnored(w: u32, high: nat)
    requires w < 0x100_0000 && w + high * 0x100_0000 < 0x1_0000_0000
    ensures ColorrefToColorValue(w + high * 0x100_0000) == ColorrefToColorValue(w)
  {
    var v := w + high * 0x100_0000;
    DivModUnique(v, high, w, 0x100_0000);
    var c := ColorrefToColorValue(v);
    assert ColorValueToColorref(c) == w;
    ColorRoundTrip(c);
  }

  /** `color_picker`: the dialog is seeded with the packed initial colour;
      `chosen` is what `ChooseColorW` leaves in `rgbResult`, or `None` when
      it returns FALSE (cancelled or failed). */
  function ColorPicker(p: Dialogs.ColorPicker, chosen: u32 -> Option<u32>): (r: Option<ColorValue>)
    ensures r.Some? <==> chosen(ColorValueToColorref(p.value)).Some?
    ensures r.Some? ==> r.value == ColorrefToColorValue(chosen(ColorValueToColorref(p.value)).value)
  {
    match chosen(ColorValueToColorref(p.value))
    case None => None
    case Some(w) => Some(ColorrefToColorValue(w))
  }

  /** Accepting the dialog without changing the colour gives back the
      initial colour. */
  lemma ColorPickerKeepsInitial(p: Dialogs.ColorPicker)
    ensures ColorPicker(p, w => Some(w)) == Some(p.value)
  {
    ColorRoundTrip(p.value);
  }
}

=== FILE: win32_file.dfy ===
/** The Win32 file dialogs of src/win32/file.rs: what goes into the
    OPENFILENAMEW request (title, filter spec, the initial file buffer,
    the flag word) and how the buffer the dialog hands back is decoded. */
module Win32File {
  import opened Base
  import opened Dialogs
  import Utf16
  import Utils
  import Paths
  import opened FileBuffer

  const OFN_OVERWRITEPROMPT: bv32 := 0x2
  const OFN_NOCHANGEDIR: bv32 := 0x8
  const OFN_ALLOWMULTISELECT: bv32 := 0x200
  const OFN_PATHMUSTEXIST: bv32 := 0x800
  const OFN_FILEMUSTEXIST: bv32 := 0x1000
  const OFN_EXPLORER: bv32 := 0x8_0000

  /** Length, in UTF-16 units, of the file buffer handed to the dialog. */
  const BUFFER_LEN: nat := 16 * 1024

  // ---------------------------------------------------------------------
  // Flags

  function OpenFlags(multiple: bool): bv32
  {
    OFN_EXPLORER | OFN_NOCHANGEDIR | OFN_PATHMUSTEXIST | OFN_FILEMUSTEXIST
    | (if multiple then OFN_ALLOWMULTISELECT else 0)
  }

  const SAVE_FLAGS: bv32 := OFN_EXPLORER | OFN_NOCHANGEDIR | OFN_PATHMUSTEXIST | OFN_OVERWRITEPROMPT

  /** Multi-selection is allowed only when picking several files; opening
      requires an existing file, saving prompts before overwriting; both
      use the Explorer style, keep the working directory and require an
      existing directory. */
  lemma FlagSelection(multiple: bool)
    ensures HasFlag(OpenFlags(multiple), OFN_ALLOWMULTISELECT) <==> multiple
    ensures HasFlag(OpenFlags(multiple), OFN_FILEMUSTEXIST) && !HasFlag(OpenFlags(multiple), OFN_OVERWRITEPROMPT)
    ensures HasFlag(SAVE_FLAGS, OFN_OVERWRITEPROMPT) && !HasFlag(SAVE_FLAGS, OFN_ALLOWMULTISELECT)
            && !HasFlag(SAVE_FLAGS, OFN_FILEMUSTEXIST)
    ensures HasFlag(OpenFlags(multiple), OFN_EXPLORER | OFN_NOCHANGEDIR | OFN_PATHMUSTEXIST)
            && HasFlag(SAVE_FLAGS, OFN_EXPLORER | OFN_NOCHANGEDIR | OFN_PATHMUSTEXIST)
  {
  }

  // ---------------------------------------------------------------------
  // Initial path and buffer

  /** A path option with the empty path treated as absent. */
  function Present(p: Option<string>): (r: Option<string>)
    ensures r.Some? <==> p.Some? && p.value != ""
    ensures r.Some? ==> r == p
  {
    if p.Some? && p.value != "" then p else None
  }

  /** `default_path_and_file`. */
  function DefaultPathAndFile(directory: Option<string>, fileName: Option<string>): Option<string>
  {
    if directory.Some? && fileName.Some? && directory.value != "" && fileName.value != "" then
      Some(Paths.WinJoin(directory.value, fileName.value))
    else if directory.Some? && directory.value != "" then directory
    else if fileName.Some? && fileName.value != "" then fileName
    else None
  }

  /** The documented initial location once empty paths count as absent;
      it is never the empty path. */
  lemma DefaultIsInitialPath(directory: Option<string>, fileName: Option<string>)
    ensures DefaultPathAndFile(directory, fileName) == InitialPath(Present(directory), Present(fileName), Paths.WinJoin)
    ensures DefaultPathAndFile(directory, fileName) != Some("")
  {
  }

  /** `n` zero units. */
  function Zeros(n: nat): (r: seq<u16>)
    ensures |r| == n && forall i :: 0 <= i < n ==> r[i] == 0
  {
    seq(n, _ => 0)
  }

  /** `initial_file_buffer`: 16384 zero units, with the encoded,
      null-terminated path copied over the front when there is a
      non-empty one (cut to the buffer's length). */
  function InitialFileBuffer(path: Option<string>): (r: seq<u16>)
    ensures |r| == BUFFER_LEN
    ensures path.None? || path.value == "" ==> r == Zeros(BUFFER_LEN)
  {
    if path.None? || path.value == "" then Zeros(BUFFER_LEN)
    else
      var encoded := Utf16.NullTerminated(path.value);
      var n := if |encoded| < BUFFER_LEN then |encoded| else BUFFER_LEN;
      encoded[..n] + Zeros(BUFFER_LEN)[n..]
  }

  /** A path that fits is copied whole, terminator included, and the rest
      of the buffer stays zero. */
  lemma InitialBufferFits(p: string)
    requires p != "" && |Utf16.Encode(p)| < BUFFER_LEN
    ensures var r := InitialFileBuffer(Some(p));
            r[..|Utf16.Encode(p)|] == Utf16.Encode(p)
            && forall i :: |Utf16.Encode(p)| <= i < BUFFER_LEN ==> r[i] == 0
  {
    var e := Utf16.Encode(p);
    var r := InitialFileBuffer(Some(p));
    assert r[..|e|] == e;
  }

  /** A path too long for the buffer fills it entirely: no terminator is
      left in it. */
  lemma InitialBufferTruncates(p: string)
    requires '\0' !in p && |Utf16.Encode(p)| >= BUFFER_LEN
    ensures 0 !in InitialFileBuffer(Some(p))
  {
    var r := InitialFileBuffer(Some(p));
    assert r == Utf16.Encode(p)[..BUFFER_LEN];
  }

  // ---------------------------------------------------------------------
  // Filter spec

  /** One filter's contribution: its description and its patterns joined
      with ';', each followed by a NUL. */
  function FilterEntry(f: FileFilter): string
  {
    f.desc + "\0" + Utils.Join(f.patterns, ";") + "\0"
  }

  function Entries(fs: seq<FileFilter>): string
    decreases |fs|
  {
    if |fs| == 0 then "" else FilterEntry(fs[0]) + Entries(fs[1..])
  }

  /** The catch-all entry closing every spec, with the final extra NUL. */
  const ALL_FILES_DESC: string := "All Files"
  const ALL_FILES_PATTERN: string := "*.*"
  const ALL_FILES: string := ALL_FILES_DESC + "\0" + ALL_FILES_PATTERN + "\0" + "\0"

  /** The text `build_windows_filter` writes. */
  function FilterSpec(fs: seq<FileFilter>): string
  {
    Entries(fs) + ALL_FILES
  }

  /** `build_windows_filter`: no spec for a missing or empty filter list,
      otherwise the spec's UTF-16 encoding (its terminators are part of
      the text). */
  function BuildWindowsFilter(filter: Option<seq<FileFilter>>): (r: Option<seq<u16>>)
    ensures r.Some? <==> filter.Some? && |filter.value| > 0
    ensures r.Some? ==> Utf16.DecodeLossy(r.value) == FilterSpec(filter.value)
  {
    if filter.None? || |filter.value| == 0 then None
    else
      Utf16.DecodeEncode(FilterSpec(filter.value));
      Some(Utf16.Encode(FilterSpec(filter.value)))
  }

  /** The NUL-separated fields of a list of filters: description, then
      joined patterns, for each filter in order. */
  function Fields(fs: seq<FileFilter>): seq<string>
    decreases |fs|
  {
    if |fs| == 0 then [] else [fs[0].desc, Utils.Join(fs[0].patterns, ";")] + Fields(fs[1..])
  }

  /** Field 2i is filter i's description, field 2i+1 its joined patterns. */
  lemma {:induction false} FieldsAt(fs: seq<FileFilter>)
    ensures |Fields(fs)| == 2 * |fs|
    ensures forall i :: 0 <= i < |fs| ==> Fields(fs)[2 * i] == fs[i].desc
                                          && Fields(fs)[2 * i + 1] == Utils.Join(fs[i].patterns, ";")
    decreases |fs|
  {
    if |fs| > 0 {
      FieldsAt(fs[1..]);
      var rest := Fields(fs[1..]);
      assert Fields(fs) == [fs[0].desc, Utils.Join(fs[0].patterns, ";")] + rest;
      forall i | 1 <= i < |fs|
        ensures Fields(fs)[2 * i] == fs[i].desc && Fields(fs)[2 * i + 1] == Utils.Join(fs[i].patterns, ";")
      {
        assert fs[1..][i - 1] == fs[i];
        assert Fields(fs)[2 * i] == rest[2 * (i - 1)];
      }
    }
  }

  /** The spec before some further NUL-separated parts is the filters'
      fields followed by those parts, all separated by NULs. */
  lemma {:induction false} EntriesJoin(fs: seq<FileFilter>, parts: seq<string>)
    requires |parts| >= 1
    ensures Entries(fs) + Utils.Join(parts, "\0") == Utils.Join(Fields(fs) + parts, "\0")
    decreases |fs|
  {
    if |fs| > 0 {
      var f := fs[0];
      var pats := Utils.Join(f.patterns, ";");
      var later := Fields(fs[1..]) + parts;
      EntriesJoin(fs[1..], parts);
      assert Fields(fs) + parts == [f.desc] + ([pats] + later);
      assert Utils.Join([pats] + later, "\0") == pats + "\0" + Utils.Join(later, "\0") by {
        assert ([pats] + later)[1..] == later;
      }
      assert Utils.Join([f.desc] + ([pats] + later), "\0") == f.desc + "\0" + Utils.Join([pats] + later, "\0") by {
        assert ([f.desc] + ([pats] + later))[1..] == [pats] + later;
      }
    } else {
      assert Fields(fs) + parts == parts;
    }
  }

  /** The spec is the filters' descriptions and joined patterns in order,
      then "All Files", "*.*" and two empty fields (the closing double
      NUL), all separated by NULs. */
  lemma FilterSpecJoin(fs: seq<FileFilter>)
    ensures FilterSpec(fs) == Utils.Join(Fields(fs) + [ALL_FILES_DESC, ALL_FILES_PATTERN, "", ""], "\0")
  {
    var closing: seq<string> := [ALL_FILES_DESC, ALL_FILES_PATTERN, "", ""];
    assert Utils.Join(closing, "\0") == ALL_FILES by {
      var two: seq<string> := ["", ""];
      assert two[1..] == [""];
      assert Utils.Join(two, "\0") == "\0";
      var three: seq<string> := [ALL_FILES_PATTERN, "", ""];
      assert three[1..] == two;
      assert Utils.Join(three, "\0") == ALL_FILES_PATTERN + "\0" + "\0";
      assert closing[1..] == three;
    }
    EntriesJoin(fs, closing);
  }

  // ---------------------------------------------------------------------
  // The operations

  /** The fields of the OPENFILENAMEW request the library fills in. */
  datatype Request = Request(title: seq<u16>, filter: Option<seq<u16>>, file: seq<u16>, maxFile: nat, flags: bv32)

  /** The request `pick_files_impl` (multiple or not) or `save_file`
      hands to the dialog. */
  function RequestFor(p: FileDialog, flags: bv32): (r: Request)
    ensures r.maxFile == |r.file| == BUFFER_LEN
  {
    Request(Utf16.NullTerminated(p.title), BuildWindowsFilter(p.filter),
            InitialFileBuffer(DefaultPathAndFile(p.directory, p.fileName)), BUFFER_LEN, flags)
  }

  function OpenRequest(p: FileDialog, multiple: bool): Request { RequestFor(p, OpenFlags(multiple)) }

  function SaveRequest(p: FileDialog): Request { RequestFor(p, SAVE_FLAGS) }

  /** `pick_files_impl` after the dialog returned: `selected` is its
      result and `buffer` the file buffer it left. */
  function PickFilesImpl(selected: bool, buffer: seq<u16>): (r: Option<seq<string>>)
    ensures r.Some? <==> selected && ParseOpenFileBuffer(buffer) != []
    ensures r.Some? ==> r.value == ParseOpenFileBuffer(buffer) && r.value != []
  {
    if !selected then None
    else
      var paths := ParseOpenFileBuffer(buffer);
      if |paths| == 0 then None else Some(paths)
  }

  /** `pick_files`. */
  function PickFiles(selected: bool, buffer: seq<u16>): Option<seq<string>>
  {
    PickFilesImpl(selected, buffer)
  }

  /** `pick_file` as written: the first path of the whole buffer's parse. */
  function PickFile(selected: bool, buffer: seq<u16>): (r: Option<string>)
    ensures r.Some? <==> PickFilesImpl(selected, buffer).Some?
    ensures r.Some? ==> r.value == PickFilesImpl(selected, buffer).value[0]
  {
    match PickFilesImpl(selected, buffer)
    case None => None
    case Some(paths) => Some(paths[0])
  }

  /** `save_file` after the dialog returned. */
  function SaveFile(selected: bool, buffer: seq<u16>): (r: Option<string>)
    ensures !selected ==> r.None?
    ensures selected ==> r == WideToStringUntilNul(buffer)
  {
    if !selected then None else WideToStringUntilNul(buffer)
  }

  /** A cancelled dialog gives nothing, and a pick is never an empty list. */
  lemma CancelAndEmpty(buffer: seq<u16>)
    ensures PickFiles(false, buffer).None? && PickFile(false, buffer).None? && SaveFile(false, buffer).None?
    ensures PickFiles(true, buffer) != Some([])
  {
  }

  /** A multi-selection of files in a directory comes back as the joined
      paths, in the order the dialog listed them. */
  lemma PickFilesReads(directory: string, names: seq<string>, tail: seq<u16>)
    requires ValidSegments([directory] + names) && |names| >= 1
    ensures var r := PickFiles(true, Packed(EncodedAll([directory] + names)) + [0] + tail);
            r.Some? && |r.value| == |names|
            && forall i :: 0 <= i < |names| ==> r.value[i] == Paths.WinJoin(directory, names[i])
  {
    var paths := [directory] + names;
    var buffer := Packed(EncodedAll(paths)) + [0] + tail;
    ParsePacked(paths, tail);
    var r := ParseOpenFileBuffer(buffer);
    assert |paths| >= 2 && |r| == |names|;
    forall i | 0 <= i < |names| ensures r[i] == Paths.WinJoin(directory, names[i]) {
      assert paths[0] == directory && paths[i + 1] == names[i];
    }
    assert PickFiles(true, buffer) == Some(r);
  }

  /** A save dialog confirmed without editing returns the initial path,
      when it fits the buffer. */
  lemma SaveUnchanged(p: string)
    requires p != "" && '\0' !in p && |Utf16.Encode(p)| < BUFFER_LEN
    ensures SaveFile(true, InitialFileBuffer(Some(p))) == Some(p)
  {
    var e := Utf16.Encode(p);
    var r := InitialFileBuffer(Some(p));
    InitialBufferFits(p);
    assert r == e + [0] + r[|e| + 1..];
    ReadsBackWritten(p, r[|e| + 1..]);
  }

  // ---------------------------------------------------------------------
  // Single selection over a used buffer

  /** What the dialog leaves in the buffer when it writes `written` over
      its front: the rest keeps what was there before. */
  function Overwrite(buffer: seq<u16>, written: seq<u16>): (r: seq<u16>)
    requires |written| <= |buffer|
    ensures |r| == |buffer| && r[..|written|] == written && r[|written|..] == buffer[|written|..]
  {
    written + buffer[|written|..]
  }

  /** `pick_file` as written parses the whole buffer as a multi-selection:
      when the selected path is shorter than the initial one, the initial
      path's remainder after the new terminator reads as a second segment
      and is joined onto the selection. */
  lemma PickFileLeftover(p: string, leftover: string, tail: seq<u16>)
    requires ValidSegments([p, leftover])
    ensures PickFile(true, Utf16.Encode(p) + [0] + Utf16.Encode(leftover) + [0] + tail)
         == Some(Paths.WinJoin(p, leftover))
  {
    var buffer := Utf16.Encode(p) + [0] + Utf16.Encode(leftover) + [0] + tail;
    PackedPair(Utf16.Encode(p), Utf16.Encode(leftover), tail);
    assert EncodedAll([p, leftover]) == [Utf16.Encode(p), Utf16.Encode(leftover)];
    ParseFirstTwo([p, leftover], tail);
    var r := ParseOpenFileBuffer(buffer);
    assert |r| >= 1 && r[0] == Paths.WinJoin(p, leftover);
    assert PickFilesImpl(true, buffer) == Some(r);
  }

  /** Two terminated segments are the packed pair. */
  lemma PackedPair(a: seq<u16>, b: seq<u16>, tail: seq<u16>)
    ensures a + [0] + b + [0] + tail == Packed([a, b]) + tail
  {
    assert [a, b][1..][1..] == [];
    assert Packed([a, b][1..]) == b + [0] + Packed([]);
  }

  /** One concrete case: initial file "abc", the user picks "x"; the
      dialog writes "x" and a NUL over the front of the buffer, and
      `pick_file` answers "x\c" instead of "x". */
  lemma PickFileLeftoverExample()
    ensures var buffer := Overwrite(InitialFileBuffer(Some("abc")), Utf16.NullTerminated("x"));
            PickFile(true, buffer) == Some("x\\c") && PickFile(true, buffer) != Some("x")
  {
    var buffer := Overwrite(InitialFileBuffer(Some("abc")), Utf16.NullTerminated("x"));
    ExampleBuffer();
    assert buffer == Utf16.Encode("x") + [0] + Utf16.Encode("c") + [0] + buffer[4..];
    PickFileLeftover("x", "c", buffer[4..]);
    ExampleJoin();
  }

  /** The example's buffer: "x", NUL, the leftover "c", NUL. */
  lemma ExampleBuffer()
    ensures var buffer := Overwrite(InitialFileBuffer(Some("abc")), Utf16.NullTerminated("x"));
            |buffer| >= 4 && buffer[..4] == Utf16.Encode("x") + [0] + Utf16.Encode("c") + [0]
  {
    var initial := InitialFileBuffer(Some("abc"));
    Utf16.EncodeBmp("abc");
    Utf16.EncodeBmp("x");
    Utf16.EncodeBmp("c");
    InitialBufferFits("abc");
    assert initial[2] == 'c' as int && initial[3] == 0;
  }

  lemma ExampleJoin()
    ensures Paths.WinJoin("x", "c") == "x\\c"
  {
  }

  /** `pick_file` as evidently intended: a single selection is the text
      before the first NUL, as `save_file` reads it. */
  function PickFileSingle(selected: bool, buffer: seq<u16>): (r: Option<string>)
    ensures !selected ==> r.None?
  {
    if !selected then None else WideToStringUntilNul(buffer)
  }

  /** Whatever the buffer held before, the corrected pick returns exactly
      the selected path. */
  lemma PickFileSingleReads(buffer: seq<u16>, p: string)
    requires p != "" && '\0' !in p && |Utf16.NullTerminated(p)| <= |buffer|
    ensures PickFileSingle(true, Overwrite(buffer, Utf16.NullTerminated(p))) == Some(p)
  {
    var w := Utf16.NullTerminated(p);
    var r := Overwrite(buffer, w);
    assert r == Utf16.Encode(p) + [0] + buffer[|w|..];
    ReadsBackWritten(p, buffer[|w|..]);
  }
}

=== FILE: win32_file_buffer.dfy ===
/** Decoding the UTF-16 file buffer a Win32 file dialog hands back
    (src/win32/file.rs:121-158): the text before the first NUL for a saved
    file, the NUL-separated segments up to the double NUL for an opened
    one. */
module FileBuffer {
  import opened Base
  import Utf16
  import Paths

  /** The first zero unit at or after `i`. */
  function FirstZero(units: seq<u16>, i: nat): (r: Option<nat>)
    ensures r.Some? ==> i <= r.value < |units| && units[r.value] == 0
    decreases |units| - i
  {
    if i >= |units| then None
    else if units[i] == 0 then Some(i)
    else FirstZero(units, i + 1)
  }

  /** No zero unit lies between `i` and the first zero, nor after `i` when
      there is none. */
  lemma {:induction false} FirstZeroFirst(units: seq<u16>, i: nat)
    ensures FirstZero(units, i).Some? ==> forall j :: i <= j < FirstZero(units, i).value ==> units[j] != 0
    ensures FirstZero(units, i).None? ==> forall j :: i <= j < |units| ==> units[j] != 0
    decreases |units| - i
  {
    if i < |units| && units[i] != 0 {
      FirstZeroFirst(units, i + 1);
    }
  }

  /** Skipping non-zero units does not change where the first zero is. */
  lemma {:induction false} FirstZeroSkip(units: seq<u16>, i: nat, k: nat)
    requires i <= k <= |units|
    requires forall j :: i <= j < k ==> units[j] != 0
    ensures FirstZero(units, i) == FirstZero(units, k)
    decreases k - i
  {
    if i < k {
      FirstZeroSkip(units, i + 1, k);
    }
  }

  /** `wide_to_string_until_nul`: the text before the first zero unit;
      nothing when there is no zero unit or the text would be empty. */
  function WideToStringUntilNul(input: seq<u16>): (r: Option<string>)
    ensures r.Some? <==> 0 in input && input[0] != 0
    ensures r.Some? ==> exists n :: 0 < n < |input| && input[n] == 0 && 0 !in input[..n]
                                   && r.value == Utf16.DecodeLossy(input[..n])
  {
    FirstZeroFirst(input, 0);
    match FirstZero(input, 0)
    case None => None
    case Some(n) => if n == 0 then None else Some(Utf16.DecodeLossy(input[..n]))
  }

  /** The NUL-terminated segments from `start` on, up to the first empty
      one (the double NUL); text after the last NUL is not a segment. */
  function SegmentsFrom(input: seq<u16>, start: nat): seq<seq<u16>>
    decreases |input| - start
  {
    match FirstZero(input, start)
    case None => []
    case Some(z) => if z == start then [] else [input[start..z]] + SegmentsFrom(input, z + 1)
  }

  /** The splitting loop of `parse_open_file_buffer` as written. */
  method ParseSegments(input: seq<u16>) returns (segments: seq<seq<u16>>)
    ensures segments == SegmentsFrom(input, 0)
  {
    segments := [];
    var start := 0;
    var index := 0;
    while index < |input|
      invariant start <= index <= |input|
      invariant forall j :: start <= j < index ==> input[j] != 0
      invariant segments + SegmentsFrom(input, start) == SegmentsFrom(input, 0)
    {
      if input[index] != 0 {
        index := index + 1;
        continue;
      }
      FirstZeroSkip(input, start, index);
      if index == start {
        break;
      }
      segments := segments + [input[start..index]];
      start := index + 1;
      index := index + 1;
    }
    FirstZeroSkip(input, start, index);
  }

  /** Every segment decoded lossily. */
  function Decoded(segments: seq<seq<u16>>): (r: seq<string>)
    ensures |r| == |segments|
    ensures forall i :: 0 <= i < |r| ==> r[i] == Utf16.DecodeLossy(segments[i])
  {
    seq(|segments|, i requires 0 <= i < |segments| => Utf16.DecodeLossy(segments[i]))
  }

  /** The second half of `parse_open_file_buffer`: no segment gives no
      path, one segment is a path by itself, more are a directory followed
      by file names. */
  function JoinSegments(segments: seq<string>): (r: seq<string>)
    ensures |segments| <= 1 ==> r == segments
    ensures |segments| >= 2 ==> |r| == |segments| - 1
                                && forall i :: 0 <= i < |r| ==> r[i] == Paths.WinJoin(segments[0], segments[i + 1])
  {
    if |segments| <= 1 then segments
    else seq(|segments| - 1, i requires 0 <= i < |segments| - 1 => Paths.WinJoin(segments[0], segments[i + 1]))
  }

  /** `parse_open_file_buffer`. */
  function ParseOpenFileBuffer(input: seq<u16>): seq<string>
  {
    JoinSegments(Decoded(SegmentsFrom(input, 0)))
  }

  /** The layout the dialog writes: every segment followed by one zero. */
  function Packed(segments: seq<seq<u16>>): seq<u16>
    decreases |segments|
  {
    if |segments| == 0 then [] else segments[0] + [0] + Packed(segments[1..])
  }

  lemma {:induction false} FirstZeroShift(a: seq<u16>, b: seq<u16>, i: nat)
    ensures FirstZero(a + b, |a| + i) == (match FirstZero(b, i) case None => None case Some(z) => Some(|a| + z))
    decreases |b| - i
  {
    if i < |b| && b[i] != 0 {
      FirstZeroShift(a, b, i + 1);
    }
  }

  /** Segments do not depend on what precedes the starting point. */
  lemma {:induction false} SegmentsShift(a: seq<u16>, b: seq<u16>, i: nat)
    ensures SegmentsFrom(a + b, |a| + i) == SegmentsFrom(b, i)
    decreases |b| - i
  {
    FirstZeroShift(a, b, i);
    match FirstZero(b, i)
    case None =>
      assert FirstZero(a + b, |a| + i).None?;
    case Some(z) =>
      assert FirstZero(a + b, |a| + i) == Some(|a| + z);
      if z != i {
        SegmentsShift(a, b, z + 1);
        assert (a + b)[|a| + i..|a| + z] == b[i..z];
      }
  }

  /** A non-empty segment without zero units, terminated, is the first
      segment, and the rest are read from after its terminator. */
  lemma FirstSegment(s: seq<u16>, tail: seq<u16>)
    requires s != [] && 0 !in s
    ensures SegmentsFrom((s + [0]) + tail, 0) == [s] + SegmentsFrom(tail, 0)
  {
    var input := (s + [0]) + tail;
    assert FirstZero(input, 0) == Some(|s|) by {
      assert forall j :: 0 <= j < |s| ==> input[j] == s[j];
      FirstZeroSkip(input, 0, |s|);
    }
    assert input[0..|s|] == s;
    SegmentsShift(s + [0], tail, 0);
  }

  lemma PackedCons(segments: seq<seq<u16>>, rest: seq<u16>)
    requires |segments| > 0
    ensures Packed(segments) + rest == (segments[0] + [0]) + (Packed(segments[1..]) + rest)
  {
  }

  /** One more terminated segment in front of ones already read back. */
  lemma PackedStep(first: seq<u16>, more: seq<seq<u16>>, rest: seq<u16>)
    requires first != [] && 0 !in first
    requires SegmentsFrom(Packed(more) + rest, 0) == more + SegmentsFrom(rest, 0)
    ensures SegmentsFrom(Packed([first] + more) + rest, 0) == ([first] + more) + SegmentsFrom(rest, 0)
  {
    var segments := [first] + more;
    assert segments[0] == first && segments[1..] == more;
    PackedCons(segments, rest);
    FirstSegment(first, Packed(more) + rest);
  }

  /** Non-empty segments without zero units, each terminated, are read
      back as themselves, before whatever the rest of the buffer holds. */
  lemma {:induction false} SegmentsOfPacked(segments: seq<seq<u16>>, rest: seq<u16>)
    requires forall i :: 0 <= i < |segments| ==> segments[i] != [] && 0 !in segments[i]
    ensures SegmentsFrom(Packed(segments) + rest, 0) == segments + SegmentsFrom(rest, 0)
    decreases |segments|
  {
    if |segments| == 0 {
      assert Packed(segments) + rest == rest;
    } else {
      SegmentsOfPacked(segments[1..], rest);
      PackedStep(segments[0], segments[1..], rest);
      assert [segments[0]] + segments[1..] == segments;
    }
  }

  /** Paths without NUL, encoded. */
  function EncodedAll(paths: seq<string>): (r: seq<seq<u16>>)
    ensures |r| == |paths| && forall i :: 0 <= i < |r| ==> r[i] == Utf16.Encode(paths[i])
  {
    seq(|paths|, i requires 0 <= i < |paths| => Utf16.Encode(paths[i]))
  }

  /** Non-empty paths without NUL: what the dialog writes as segments. */
  predicate ValidSegments(paths: seq<string>)
  {
    forall i :: 0 <= i < |paths| ==> paths[i] != "" && '\0' !in paths[i]
  }

  /** Such paths encode to non-empty segments without zero units, which
      decode back to the paths. */
  lemma EncodedSegments(paths: seq<string>)
    requires ValidSegments(paths)
    ensures forall i :: 0 <= i < |paths| ==> EncodedAll(paths)[i] != [] && 0 !in EncodedAll(paths)[i]
    ensures Decoded(EncodedAll(paths)) == paths
  {
    var segments := EncodedAll(paths);
    forall i | 0 <= i < |paths|
      ensures segments[i] != [] && 0 !in segments[i] && Utf16.DecodeLossy(segments[i]) == paths[i]
    {
      assert |Utf16.Encode(paths[i])| >= |paths[i]|;
      Utf16.DecodeEncode(paths[i]);
    }
  }

  /** A buffer that starts with a zero unit holds no segment. */
  lemma NoSegments(rest: seq<u16>)
    requires rest == [] || rest[0] == 0
    ensures SegmentsFrom(rest, 0) == []
  {
  }

  /** Whatever follows them, two or more such segments make the first
      path the first segment joined with the second. */
  lemma ParseFirstTwo(paths: seq<string>, tail: seq<u16>)
    requires ValidSegments(paths) && |paths| >= 2
    ensures var r := ParseOpenFileBuffer(Packed(EncodedAll(paths)) + tail);
            |r| >= 1 && r[0] == Paths.WinJoin(paths[0], paths[1])
  {
    var segments := EncodedAll(paths);
    EncodedSegments(paths);
    SegmentsOfPacked(segments, tail);
    var all := SegmentsFrom(Packed(segments) + tail, 0);
    assert all[0] == segments[0] && all[1] == segments[1];
    assert Decoded(segments)[0] == paths[0] && Decoded(segments)[1] == paths[1];
    assert Decoded(all)[0] == paths[0] && Decoded(all)[1] == paths[1];
  }

  /** The buffer a multi-selection dialog writes (directory, file names,
      double NUL) decodes to the names joined to the directory, in order;
      a lone path followed by a double NUL decodes to itself. */
  lemma ParsePacked(paths: seq<string>, tail: seq<u16>)
    requires ValidSegments(paths)
    ensures var r := ParseOpenFileBuffer(Packed(EncodedAll(paths)) + [0] + tail);
            (|paths| <= 1 ==> r == paths)
            && (|paths| >= 2 ==> |r| == |paths| - 1
                                 && forall i :: 0 <= i < |r| ==> r[i] == Paths.WinJoin(paths[0], paths[i + 1]))
  {
    var segments := EncodedAll(paths);
    EncodedSegments(paths);
    assert Packed(segments) + [0] + tail == Packed(segments) + ([0] + tail);
    SegmentsOfPacked(segments, [0] + tail);
    NoSegments([0] + tail);
    assert SegmentsFrom(Packed(segments) + [0] + tail, 0) == segments;
  }

  /** Writing a NUL-free path into a buffer and reading it back, as
      `save_file` does, gives the path. */
  lemma {:induction false} ReadsBackWritten(p: string, tail: seq<u16>)
    requires p != "" && '\0' !in p
    ensures WideToStringUntilNul(Utf16.Encode(p) + [0] + tail) == Some(p)
  {
    var e := Utf16.Encode(p);
    var input := e + [0] + tail;
    FirstZeroSkip(input, 0, |e|);
    assert input[..|e|] == e;
    Utf16.DecodeEncode(p);
  }
}

=== FILE: win32_input.dfy ===
/** The template of the text input dialog in src/win32/input.rs: a fixed
    modal frame holding a label, an edit box and OK/Cancel buttons, written
    with the builder of `DialogTemplate`. */
module Win32Input {
  import opened Base
  import opened DialogTemplate
  import opened InputControls
  import Utf16
  import InputSession

  /** Buffer size, in UTF-16 units, the OK command reads the edit text into. */
  const TEXT_CAPACITY: nat := 8192

  const DIALOG_STYLE: bv32 := WS_POPUP | WS_CAPTION | WS_SYSMENU | WS_VISIBLE | DS_MODALFRAME
  const LABEL_STYLE: bv32 := WS_CHILD | WS_VISIBLE
  const CANCEL_STYLE: bv32 := WS_CHILD | WS_VISIBLE | WS_TABSTOP | BS_PUSHBUTTON

  /** The edit box's style: multi-line flags or horizontal scrolling, and
      the password flag on request. */
  function EditStyle(multiline: bool, password: bool): bv32
  {
    WS_CHILD | WS_VISIBLE | WS_TABSTOP | WS_BORDER
    | (if multiline then ES_LEFT | ES_MULTILINE | ES_AUTOVSCROLL | ES_WANTRETURN else ES_LEFT | ES_AUTOHSCROLL)
    | (if password then ES_PASSWORD else 0)
  }

  /** The OK button is the default button only in single-line mode. */
  function OkStyle(multiline: bool): bv32
  {
    WS_CHILD | WS_VISIBLE | WS_TABSTOP | (if multiline then BS_PUSHBUTTON else BS_DEFPUSHBUTTON)
  }

  /** The edit box's flags follow the mode: password flag iff password, the
      multi-line flags iff multi-line, horizontal scrolling otherwise; the
      OK button is the default button iff single-line. */
  lemma StyleFlags(multiline: bool, password: bool)
    ensures HasFlag(EditStyle(multiline, password), ES_PASSWORD) <==> password
    ensures HasFlag(EditStyle(multiline, password), ES_MULTILINE) <==> multiline
    ensures HasFlag(EditStyle(multiline, password), ES_AUTOVSCROLL) <==> multiline
    ensures HasFlag(EditStyle(multiline, password), ES_WANTRETURN) <==> multiline
    ensures HasFlag(EditStyle(multiline, password), ES_AUTOHSCROLL) <==> !multiline
    ensures HasFlag(OkStyle(multiline), BS_DEFPUSHBUTTON) <==> !multiline
    ensures !HasFlag(CANCEL_STYLE, BS_DEFPUSHBUTTON)
  {
  }

  /** The four controls, in dialog units: the label across the top, the
      edit box under it (taller when multi-line), the buttons below. */
  function Controls(multiline: bool, password: bool, ok: seq<u16>, cancel: seq<u16>): seq<Item>
  {
    var row: i16 := if multiline then 86 else 48;
    [Item(LABEL_STYLE, 0, 8, 8, 204, 16, LABEL_ID, STATIC_CLASS, []),
     Item(EditStyle(multiline, password), 0, 8, 26, 204, if multiline then 52 else 14, EDIT_ID, EDIT_CLASS, []),
     Item(OkStyle(multiline), 0, 84, row, 58, 14, IDOK, BUTTON_CLASS, ok),
     Item(CANCEL_STYLE, 0, 150, row, 58, 14, IDCANCEL, BUTTON_CLASS, cancel)]
  }

  /** The template the builder writes, as a value, with the button texts
      its captions hold (`ok`, `cancel`). */
  function InputTemplate(title: seq<u16>, multiline: bool, password: bool, ok: seq<u16>, cancel: seq<u16>): Template
  {
    Template(DIALOG_STYLE, 0, 10, 10, 220, if multiline then 125 else 92, title, None,
             Controls(multiline, password, ok, cancel))
  }

  /** `build_input_dialog_template` as written: the header pushes, the
      title, then four `add_dialog_item` calls. */
  function BuildInputDialogTemplate(title: seq<u16>, multiline: bool, password: bool): seq<u8>
  {
    var row: i16 := if multiline then 86 else 48;
    var header := FieldsBytes([U32F(Word(DIALOG_STYLE)), U32F(0), U16F(4), U16F(I16Bits(10)), U16F(I16Bits(10)),
                               U16F(I16Bits(220)), U16F(I16Bits(if multiline then 125 else 92)), U16F(0), U16F(0)]);
    var d0 := PushUtf16z(header, title);
    var d1 := AddDialogItem(d0, LABEL_STYLE, 0, 8, 8, 204, 16, LABEL_ID, STATIC_CLASS, []);
    var d2 := AddDialogItem(d1, EditStyle(multiline, password), 0, 8, 26, 204, if multiline then 52 else 14,
                            EDIT_ID, EDIT_CLASS, []);
    var d3 := AddDialogItem(d2, OkStyle(multiline), 0, 84, row, 58, 14, IDOK, BUTTON_CLASS,
                            Utf16.NullTerminated("OK"));
    AddDialogItem(d3, CANCEL_STYLE, 0, 150, row, 58, 14, IDCANCEL, BUTTON_CLASS,
                  Utf16.NullTerminated("Cancel"))
  }

  /** The pushes write exactly the serialisation of the template value. */
  lemma BuildIsSerialize(title: seq<u16>, multiline: bool, password: bool)
    ensures BuildInputDialogTemplate(title, multiline, password)
         == Serialize(InputTemplate(title, multiline, password, Utf16.NullTerminated("OK"), Utf16.NullTerminated("Cancel")))
  {
    var t := InputTemplate(title, multiline, password, Utf16.NullTerminated("OK"), Utf16.NullTerminated("Cancel"));
    BuildHeaderLayout(t);
    var d0 := BuildHeader(t);
    AddDialogItemLayout(d0, t.items[0]);
    var d1 := AddItem(d0, t.items[0]);
    AddDialogItemLayout(d1, t.items[1]);
    var d2 := AddItem(d1, t.items[1]);
    AddDialogItemLayout(d2, t.items[2]);
    var d3 := AddItem(d2, t.items[2]);
    AddDialogItemLayout(d3, t.items[3]);
    AddItemsFour(HeaderBytes(t), t.items);
  }

  /** The template value is well formed whenever its title is, and reads
      back with the title and the button texts without terminators. */
  lemma InputTemplateReads(title: seq<u16>, multiline: bool, password: bool)
    requires Terminable(title)
    ensures var t := InputTemplate(title, multiline, password, Utf16.NullTerminated("OK"), Utf16.NullTerminated("Cancel"));
            WellFormed(t) && Canonical(t) == InputTemplate(StripNul(title), multiline, password, OK_TEXT, CANCEL_TEXT)
  {
    var items := Controls(multiline, password, Utf16.NullTerminated("OK"), Utf16.NullTerminated("Cancel"));
    CaptionUnits();
    ControlsWellFormed(items);
    ControlsRead(items);
  }

  /** The bytes read back as the template, strings without terminators. */
  lemma ParseBuild(title: seq<u16>, multiline: bool, password: bool)
    requires Terminable(title)
    ensures Parse(BuildInputDialogTemplate(title, multiline, password))
         == Some(InputTemplate(StripNul(title), multiline, password, OK_TEXT, CANCEL_TEXT))
  {
    BuildIsSerialize(title, multiline, password);
    InputTemplateReads(title, multiline, password);
    ParseSerialize(InputTemplate(title, multiline, password, Utf16.NullTerminated("OK"), Utf16.NullTerminated("Cancel")));
  }

  /** What a reader of the bytes finds in the header: no extended style,
      four controls, origin (10, 10), width 220, height 125 for multi-line
      and 92 otherwise, the title and no font. */
  lemma HeaderReadBack(title: seq<u16>, multiline: bool, password: bool)
    requires Terminable(title)
    ensures var r := Parse(BuildInputDialogTemplate(title, multiline, password));
            r.Some? && r.value.style == DIALOG_STYLE && r.value.exStyle == 0 && |r.value.items| == 4
            && r.value.x == 10 && r.value.y == 10 && r.value.cx == 220
            && r.value.cy == (if multiline then 125 else 92)
            && r.value.title == StripNul(title) && r.value.font.None?
  {
    ParseBuild(title, multiline, password);
  }

  /** The controls read back in order: label, edit box, OK, Cancel, with
      their ids, classes and captions, and the edit and OK styles that
      follow the mode. */
  lemma ControlsReadBack(title: seq<u16>, multiline: bool, password: bool)
    requires Terminable(title)
    ensures var r := Parse(BuildInputDialogTemplate(title, multiline, password));
            r.Some? && |r.value.items| == 4
            && r.value.items[0].id == LABEL_ID && r.value.items[0].classOrdinal == STATIC_CLASS
            && r.value.items[1].id == EDIT_ID && r.value.items[1].classOrdinal == EDIT_CLASS
            && r.value.items[2].id == IDOK && r.value.items[2].classOrdinal == BUTTON_CLASS
            && r.value.items[3].id == IDCANCEL && r.value.items[3].classOrdinal == BUTTON_CLASS
            && r.value.items[0].caption == [] && r.value.items[1].caption == []
            && r.value.items[2].caption == Utf16.Encode("OK") && r.value.items[3].caption == Utf16.Encode("Cancel")
            && (HasFlag(r.value.items[1].style, ES_PASSWORD) <==> password)
            && (HasFlag(r.value.items[1].style, ES_MULTILINE) <==> multiline)
            && (HasFlag(r.value.items[2].style, BS_DEFPUSHBUTTON) <==> !multiline)
  {
    ParseBuild(title, multiline, password);
    CaptionUnits();
    StyleFlags(multiline, password);
  }

  /** `text_input`: the text comes back only from an OK that ended the
      dialog, read through an 8192-unit buffer. */
  function TextInput(moduleHandle: bool, cmds: seq<InputSession.Command>): Option<string>
  {
    InputSession.TextInput(moduleHandle, cmds, TEXT_CAPACITY)
  }

  /** The result is the edit text at the first OK, cut to 8191 units, and
      only if no Cancel came before it. */
  lemma TextInputResult(moduleHandle: bool, cmds: seq<InputSession.Command>)
    ensures var r := TextInput(moduleHandle, cmds);
            r.Some? <==> moduleHandle && exists j :: InputSession.FirstEnding(cmds, 0) == Some(j)
                                                  && InputSession.CommandId(cmds[j].wparam) == IDOK
    ensures var r := TextInput(moduleHandle, cmds);
            r.Some? ==> exists j :: 0 <= j < |cmds| && InputSession.CommandId(cmds[j].wparam) == IDOK
                          && r.value == Utf16.DecodeLossy(InputSession.ReadEdit(cmds[j].edit, TEXT_CAPACITY))
                          && |InputSession.ReadEdit(cmds[j].edit, TEXT_CAPACITY)| < TEXT_CAPACITY
  {
    InputSession.TextInputFirstEnding(moduleHandle, cmds, TEXT_CAPACITY);
  }
}

=== FILE: win32_message.dfy ===
/** The Win32 message box (src/win32/message.rs): the `MessageBoxW` style
    word built from the icon and button set, and the mapping of the returned
    button ID back to a `MessageResult`. */
module Win32Message {
  import opened Base
  import opened Dialogs
  import Utf16

  const MB_OK: bv32 := 0x0
  const MB_OKCANCEL: bv32 := 0x1
  const MB_YESNOCANCEL: bv32 := 0x3
  const MB_YESNO: bv32 := 0x4
  const MB_ICONERROR: bv32 := 0x10
  const MB_ICONQUESTION: bv32 := 0x20
  const MB_ICONWARNING: bv32 := 0x30
  const MB_ICONINFORMATION: bv32 := 0x40

  /** The style bits that select the button set and the icon. */
  const MB_TYPEMASK: bv32 := 0xF
  const MB_ICONMASK: bv32 := 0xF0

  const IDOK: int := 1
  const IDCANCEL: int := 2
  const IDYES: int := 6
  const IDNO: int := 7

  /** The icon flag of each `MessageIcon`; it lies in the icon bits only. */
  function IconFlag(i: MessageIcon): (f: bv32)
    ensures f & MB_ICONMASK == f && f != 0
  {
    match i
    case Info => MB_ICONINFORMATION
    case Warning => MB_ICONWARNING
    case Error => MB_ICONERROR
    case Question => MB_ICONQUESTION
  }

  /** The button flag of each `MessageButtons`; it lies in the type bits only. */
  function ButtonFlag(b: MessageButtons): (f: bv32)
    ensures f & MB_TYPEMASK == f
  {
    match b
    case Ok => MB_OK
    case OkCancel => MB_OKCANCEL
    case YesNo => MB_YESNO
    case YesNoCancel => MB_YESNOCANCEL
  }

  /** `buttons | icon`: the two flags occupy disjoint bits, so each can be
      masked back out of the style word. */
  function Style(b: MessageButtons, i: MessageIcon): (s: bv32)
    ensures s & MB_TYPEMASK == ButtonFlag(b)
    ensures s & MB_ICONMASK == IconFlag(i)
  {
    ButtonFlag(b) | IconFlag(i)
  }

  /** How `MessageBoxW` reads the button set out of a style word. */
  function ButtonsOfStyle(s: bv32): Option<MessageButtons>
  {
    var t := s & MB_TYPEMASK;
    if t == MB_OK then Some(MessageButtons.Ok)
    else if t == MB_OKCANCEL then Some(OkCancel)
    else if t == MB_YESNO then Some(YesNo)
    else if t == MB_YESNOCANCEL then Some(YesNoCancel)
    else None
  }

  /** How `MessageBoxW` reads the icon out of a style word. */
  function IconOfStyle(s: bv32): Option<MessageIcon>
  {
    var t := s & MB_ICONMASK;
    if t == MB_ICONINFORMATION then Some(Info)
    else if t == MB_ICONWARNING then Some(Warning)
    else if t == MB_ICONERROR then Some(Error)
    else if t == MB_ICONQUESTION then Some(Question)
    else None
  }

  /** The style word carries both choices unchanged: the dialog shows the
      requested buttons and icon. */
  lemma StyleDecodes(b: MessageButtons, i: MessageIcon)
    ensures ButtonsOfStyle(Style(b, i)) == Some(b)
    ensures IconOfStyle(Style(b, i)) == Some(i)
  {
  }

  /** Distinct requests give distinct style words. */
  lemma StyleInjective(b1: MessageButtons, i1: MessageIcon, b2: MessageButtons, i2: MessageIcon)
    ensures Style(b1, i1) == Style(b2, i2) ==> b1 == b2 && i1 == i2
  {
    StyleDecodes(b1, i1);
    StyleDecodes(b2, i2);
  }

  /** `default_selection`: the rejective button of the set, which the
      documentation promises when the window is closed instead of answered
      (src/lib.rs:67-69): Cancel where there is one, otherwise No, and OK
      for the OK-only box. */
  function DefaultSelection(b: MessageButtons): (r: MessageResult)
    ensures r in Members(b)
    ensures r == (if MessageResult.Cancel in Members(b) then MessageResult.Cancel
                  else if MessageResult.No in Members(b) then MessageResult.No
                  else MessageResult.Ok)
    ensures b != MessageButtons.Ok ==> r != Affirmative(b)
  {
    match b
    case Ok => MessageResult.Ok
    case OkCancel => MessageResult.Cancel
    case YesNo => MessageResult.No
    case YesNoCancel => MessageResult.Cancel
  }

  /** The ID `MessageBoxW` returns for each button. */
  function ButtonId(m: MessageResult): int
  {
    match m
    case Ok => IDOK
    case Cancel => IDCANCEL
    case Yes => IDYES
    case No => IDNO
  }

  /** The `match result` of `show`: each button ID gives its button, and
      any other value (including the 0 of a failed call) gives the default
      selection, so the result is never `None`. */
  function ResultOfId(b: MessageButtons, id: int): (r: Option<MessageResult>)
    ensures r.Some?
    ensures forall m :: id == ButtonId(m) ==> r == Some(m)
    ensures (forall m :: id != ButtonId(m)) ==> r == Some(DefaultSelection(b))
  {
    if id == IDOK then Some(MessageResult.Ok)
    else if id == IDCANCEL then Some(MessageResult.Cancel)
    else if id == IDYES then Some(MessageResult.Yes)
    else if id == IDNO then Some(MessageResult.No)
    else Some(DefaultSelection(b))
  }

  /** Every result is one of the set's buttons, as long as the dialog
      returns the ID of a button it shows or no button ID at all. */
  lemma ResultInMembers(b: MessageButtons, id: int)
    requires (exists m :: m in Members(b) && id == ButtonId(m)) || (forall m :: id != ButtonId(m))
    ensures ResultOfId(b, id).value in Members(b)
  {
  }

  /** Every button of every set can be reported. */
  lemma EveryMemberReachable(b: MessageButtons, m: MessageResult)
    requires m in Members(b)
    ensures ResultOfId(b, ButtonId(m)) == Some(m)
  {
  }

  /** The arguments of the `MessageBoxW` call: text, caption and style. */
  datatype MessageBoxCall = MessageBoxCall(text: seq<u16>, caption: seq<u16>, style: bv32)

  /** `show`: the request is encoded as null-terminated UTF-16 with the
      combined style, and `pressed` stands for `MessageBoxW`, returning the
      ID of the button the user pressed. */
  function Show(p: MessageBox, pressed: MessageBoxCall -> int): (r: Option<MessageResult>)
    ensures r.Some?
    ensures forall m :: pressed(Request(p)) == ButtonId(m) ==> r == Some(m)
    ensures (forall m :: pressed(Request(p)) != ButtonId(m)) ==> r == Some(DefaultSelection(p.buttons))
  {
    ResultOfId(p.buttons, pressed(Request(p)))
  }

  /** The call `show` makes for a request. */
  function Request(p: MessageBox): (c: MessageBoxCall)
    ensures |c.text| >= 1 && |c.caption| >= 1
    ensures Utf16.DecodeLossy(c.text[..|c.text| - 1]) == p.message
    ensures Utf16.DecodeLossy(c.caption[..|c.caption| - 1]) == p.title
    ensures ButtonsOfStyle(c.style) == Some(p.buttons) && IconOfStyle(c.style) == Some(p.icon)
  {
    var c := MessageBoxCall(Utf16.NullTerminated(p.message), Utf16.NullTerminated(p.title), Style(p.buttons, p.icon));
    assert c.text[..|c.text| - 1] == Utf16.Encode(p.message);
    assert c.caption[..|c.caption| - 1] == Utf16.Encode(p.title);
    Utf16.DecodeEncode(p.message);
    Utf16.DecodeEncode(p.title);
    StyleDecodes(p.buttons, p.icon);
    c
  }

  /** Closing the box, which `MessageBoxW` reports as IDCANCEL where the set
      has a Cancel button, gives the rejective button. */
  lemma CloseGivesRejective(p: MessageBox)
    requires MessageResult.Cancel in Members(p.buttons)
    ensures Show(p, c => IDCANCEL) == Some(DefaultSelection(p.buttons))
  {
  }
}

=== FILE: win32_notify.dfy ===
/** The Win32 notification popup (src/win32/notify.rs): an HTML Application
    page written to a temporary file and opened with `mshta.exe`. The model
    covers the file name, the HTML escaping of title and message, the
    line-break and tab rewriting of the message, the self-closing script and
    the page template, and shows that title and message can be read back
    from the page exactly. */
module Win32Notify {
  import opened Base
  import opened Dialogs
  import opened Text
  import RustInt
  import Paths

  /** The escaped form of one character in `html_escape`. */
  function EscapeChar(c: char): string
  {
    if c == '&' then "&amp;"
    else if c == '<' then "&lt;"
    else if c == '>' then "&gt;"
    else if c == '"' then "&quot;"
    else if c == '\'' then "&#39;"
    else [c]
  }

  /** The characters `html_escape` rewrites. */
  predicate IsSpecial(c: char)
  {
    c == '&' || c == '<' || c == '>' || c == '"' || c == '\''
  }

  /** Reference definition of the escaped text: the escapes of the
      characters, in order. */
  function EscapeAll(s: string): string
    decreases |s|
  {
    if |s| == 0 then "" else EscapeChar(s[0]) + EscapeAll(s[1..])
  }

  lemma {:induction false} EscapeAllSnoc(s: string, c: char)
    ensures EscapeAll(s + [c]) == EscapeAll(s) + EscapeChar(c)
    decreases |s|
  {
    if |s| == 0 {
      assert s + [c] == [c];
    } else {
      assert (s + [c])[1..] == s[1..] + [c];
      EscapeAllSnoc(s[1..], c);
    }
  }

  /** `html_escape`: one pass over the characters, pushing each one's
      escape onto the result. */
  method HtmlEscape(value: string) returns (result: string)
    ensures result == EscapeAll(value)
  {
    result := "";
    var i := 0;
    while i < |value|
      invariant 0 <= i <= |value|
      invariant result == EscapeAll(value[..i])
    {
      var ch := value[i];
      if ch == '&' {
        result := result + "&amp;";
      } else if ch == '<' {
        result := result + "&lt;";
      } else if ch == '>' {
        result := result + "&gt;";
      } else if ch == '"' {
        result := result + "&quot;";
      } else if ch == '\'' {
        result := result + "&#39;";
      } else {
        result := result + [ch];
      }
      EscapeAllSnoc(value[..i], ch);
      assert value[..i + 1] == value[..i] + [ch];
      i := i + 1;
    }
    assert value[..i] == value;
  }

  /** No raw `<`, `>`, `"` or `'` survives escaping, so the text can
      neither open a tag nor end an attribute value. */
  lemma {:induction false} NoRawSpecials(s: string)
    ensures '<' !in EscapeAll(s) && '>' !in EscapeAll(s)
    ensures '"' !in EscapeAll(s) && '\'' !in EscapeAll(s)
    decreases |s|
  {
    if |s| > 0 {
      NoRawSpecials(s[1..]);
      var e := EscapeChar(s[0]);
      assert '<' !in e && '>' !in e && '"' !in e && '\'' !in e;
    }
  }

  /** Text without special characters is left as it is. */
  lemma {:induction false} PlainUnchanged(s: string)
    requires forall i :: 0 <= i < |s| ==> !IsSpecial(s[i])
    ensures EscapeAll(s) == s
    decreases |s|
  {
    if |s| > 0 {
      PlainUnchanged(s[1..]);
      assert [s[0]] + s[1..] == s;
    }
  }

  /** The four non-breaking spaces a tab becomes. */
  const NBSP4 := "&nbsp;&nbsp;&nbsp;&nbsp;"

  /** The message rewriting after escaping:
      `.replace('\n', "<br>").replace('\t', "&nbsp;" x 4)`. */
  function MessageMarkup(escaped: string): (r: string)
    ensures '\n' !in r && '\t' !in r
  {
    var once := ReplaceChar(escaped, '\n', "<br>");
    assert '\n' !in NBSP4;
    ReplaceChar(once, '\t', NBSP4)
  }

  /** Reference definition of the page form of one message character. */
  function BodyChar(c: char): string
  {
    if c == '\n' then "<br>" else if c == '\t' then NBSP4 else EscapeChar(c)
  }

  /** Reference definition of the page form of a message: the page forms of
      its characters, in order. */
  function BodyAll(s: string): string
    decreases |s|
  {
    if |s| == 0 then "" else BodyChar(s[0]) + BodyAll(s[1..])
  }

  lemma {:induction false} ReplaceCharAppend(a: string, b: string, c: char, rep: string)
    ensures ReplaceChar(a + b, c, rep) == ReplaceChar(a, c, rep) + ReplaceChar(b, c, rep)
    decreases |a|
  {
    if |a| == 0 {
      assert a + b == b;
    } else {
      assert (a + b)[0] == a[0] && (a + b)[1..] == a[1..] + b;
      ReplaceCharAppend(a[1..], b, c, rep);
    }
  }

  /** Rewriting one escaped character on its own gives its page form. */
  lemma MarkupOfChar(c: char)
    ensures MessageMarkup(EscapeChar(c)) == BodyChar(c)
  {
    var e := EscapeChar(c);
    if IsSpecial(c) {
      assert '\n' !in e && '\t' !in e;
      assert ReplaceChar(e, '\n', "<br>") == e;
    } else if c == '\n' {
      assert ReplaceChar("\n", '\n', "<br>") == "<br>" + ReplaceChar("", '\n', "<br>");
      assert ReplaceChar("<br>", '\t', NBSP4) == "<br>";
    } else if c == '\t' {
      assert ReplaceChar("\t", '\n', "<br>") == "\t";
      assert ReplaceChar("\t", '\t', NBSP4) == NBSP4 + ReplaceChar("", '\t', NBSP4);
    } else {
      assert ReplaceChar([c], '\n', "<br>") == [c] + ReplaceChar([], '\n', "<br>");
      assert ReplaceChar([c], '\t', NBSP4) == [c] + ReplaceChar([], '\t', NBSP4);
    }
  }

  /** Escaping and then rewriting the whole message is the same as mapping
      every character to its page form. */
  lemma {:induction false} MarkupOfEscape(s: string)
    ensures MessageMarkup(EscapeAll(s)) == BodyAll(s)
    decreases |s|
  {
    if |s| > 0 {
      var e, rest := EscapeChar(s[0]), EscapeAll(s[1..]);
      MarkupOfEscape(s[1..]);
      MarkupOfChar(s[0]);
      ReplaceCharAppend(e, rest, '\n', "<br>");
      ReplaceCharAppend(ReplaceChar(e, '\n', "<br>"), ReplaceChar(rest, '\n', "<br>"), '\t', NBSP4);
    }
  }

  /** Reading a page text back: the entities `html_escape` writes and the
      `<br>` and non-breaking-space runs of the message become characters
      again; anything else is kept. */
  function DecodeText(t: string): string
    decreases |t|
  {
    if |t| == 0 then ""
    else if "<br>" <= t then "\n" + DecodeText(t[4..])
    else if NBSP4 <= t then "\t" + DecodeText(t[|NBSP4|..])
    else if "&amp;" <= t then "&" + DecodeText(t[5..])
    else if "&lt;" <= t then "<" + DecodeText(t[4..])
    else if "&gt;" <= t then ">" + DecodeText(t[4..])
    else if "&quot;" <= t then "\"" + DecodeText(t[6..])
    else if "&#39;" <= t then "'" + DecodeText(t[5..])
    else [t[0]] + DecodeText(t[1..])
  }

  /** An ordinary character is read back as itself. */
  lemma DecodePlain(c: char, rest: string)
    requires c != '<' && c != '&'
    ensures DecodeText([c] + rest) == [c] + DecodeText(rest)
  {
    var t := [c] + rest;
    assert t[0] == c && t[1..] == rest;
    assert !("<br>" <= t) && !(NBSP4 <= t) && !("&amp;" <= t) && !("&lt;" <= t);
    assert !("&gt;" <= t) && !("&quot;" <= t) && !("&#39;" <= t);
  }

  /** Each entity is read back as the character it stands for. */
  lemma DecodeAmp(rest: string)
    ensures DecodeText("&amp;" + rest) == "&" + DecodeText(rest)
  {
    var t := "&amp;" + rest;
    assert t[1] == 'a' && t[5..] == rest;
    assert !("<br>" <= t) && !(NBSP4 <= t);
  }

  lemma DecodeLt(rest: string)
    ensures DecodeText("&lt;" + rest) == "<" + DecodeText(rest)
  {
    var t := "&lt;" + rest;
    assert t[1] == 'l' && t[4..] == rest;
    assert !("<br>" <= t) && !(NBSP4 <= t) && !("&amp;" <= t);
  }

  lemma DecodeGt(rest: string)
    ensures DecodeText("&gt;" + rest) == ">" + DecodeText(rest)
  {
    var t := "&gt;" + rest;
    assert t[1] == 'g' && t[4..] == rest;
    assert !("<br>" <= t) && !(NBSP4 <= t) && !("&amp;" <= t) && !("&lt;" <= t);
  }

  lemma DecodeQuot(rest: string)
    ensures DecodeText("&quot;" + rest) == "\"" + DecodeText(rest)
  {
    var t := "&quot;" + rest;
    assert t[1] == 'q' && t[6..] == rest;
    assert !("<br>" <= t) && !(NBSP4 <= t) && !("&amp;" <= t) && !("&lt;" <= t) && !("&gt;" <= t);
  }

  lemma DecodeApos(rest: string)
    ensures DecodeText("&#39;" + rest) == "'" + DecodeText(rest)
  {
    var t := "&#39;" + rest;
    assert t[1] == '#' && t[5..] == rest;
    assert !("<br>" <= t) && !(NBSP4 <= t) && !("&amp;" <= t) && !("&lt;" <= t);
    assert !("&gt;" <= t) && !("&quot;" <= t);
  }

  lemma DecodeBr(rest: string)
    ensures DecodeText("<br>" + rest) == "\n" + DecodeText(rest)
  {
    var t := "<br>" + rest;
    assert t[4..] == rest;
  }

  lemma DecodeNbsp(rest: string)
    ensures DecodeText(NBSP4 + rest) == "\t" + DecodeText(rest)
  {
    var t := NBSP4 + rest;
    assert t[1] == 'n' && t[|NBSP4|..] == rest;
    assert !("<br>" <= t);
  }

  /** The escape of a character is read back as that character. */
  lemma DecodeEscapeChar(c: char, rest: string)
    ensures DecodeText(EscapeChar(c) + rest) == [c] + DecodeText(rest)
  {
    if c == '&' { DecodeAmp(rest); }
    else if c == '<' { DecodeLt(rest); }
    else if c == '>' { DecodeGt(rest); }
    else if c == '"' { DecodeQuot(rest); }
    else if c == '\'' { DecodeApos(rest); }
    else { DecodePlain(c, rest); }
  }

  /** The page form of a character is read back as that character. */
  lemma DecodeBodyChar(c: char, rest: string)
    ensures DecodeText(BodyChar(c) + rest) == [c] + DecodeText(rest)
  {
    if c == '\n' { DecodeBr(rest); }
    else if c == '\t' { DecodeNbsp(rest); }
    else { DecodeEscapeChar(c, rest); }
  }

  /** Escaping loses nothing: the original text can be read back. */
  lemma {:induction false} DecodeEscape(s: string)
    ensures DecodeText(EscapeAll(s)) == s
    decreases |s|
  {
    if |s| > 0 {
      DecodeEscape(s[1..]);
      DecodeEscapeChar(s[0], EscapeAll(s[1..]));
      assert [s[0]] + s[1..] == s;
    }
  }

  /** The message's page form loses nothing either: line breaks and tabs
      come back from `<br>` and the non-breaking-space runs. */
  lemma {:induction false} DecodeBody(s: string)
    ensures DecodeText(BodyAll(s)) == s
    decreases |s|
  {
    if |s| > 0 {
      DecodeBody(s[1..]);
      DecodeBodyChar(s[0], BodyAll(s[1..]));
      assert [s[0]] + s[1..] == s;
    }
  }

  /** The rewritten message has no raw line break or tab and reads back as
      the original message. */
  lemma MessageRoundTrip(m: string)
    ensures '\n' !in MessageMarkup(EscapeAll(m)) && '\t' !in MessageMarkup(EscapeAll(m))
    ensures DecodeText(MessageMarkup(EscapeAll(m))) == m
  {
    MarkupOfEscape(m);
    DecodeBody(m);
  }

  /** The label shown in bold above the message. */
  function IconLabel(i: MessageIcon): (r: string)
    ensures EscapeAll(r) == r
  {
    var r := match i
      case Info => "Info"
      case Warning => "Warning"
      case Error => "Error"
      case Question => "Question";
    PlainUnchanged(r);
    r
  }

  /** Every icon has its own label. */
  lemma IconLabelInjective(a: MessageIcon, b: MessageIcon)
    ensures IconLabel(a) == IconLabel(b) ==> a == b
  {
  }

  const CLOSE_HEAD := "Sub Window_onLoad\n\tidTimer = window.setTimeout(\"window.Close\", "
  const CLOSE_TAIL := ", \"VBScript\")\nEnd Sub"

  /** `close_script`: a VBScript handler that closes the window after
      `timeout` milliseconds, present exactly when the popup closes by
      itself. */
  function CloseScript(timeout: i32): (r: string)
    ensures |r| > 0 <==> timeout > 0
  {
    if timeout > 0 then CLOSE_HEAD + RustInt.SignedDecimal(timeout) + CLOSE_TAIL else ""
  }

  /** The script carries the timeout itself, as a decimal the parser reads
      back. */
  lemma CloseScriptTimeout(timeout: i32)
    requires timeout > 0
    ensures |CLOSE_HEAD| + |CLOSE_TAIL| < |CloseScript(timeout)|
    ensures RustInt.ParseUnsigned(CloseScript(timeout)[|CLOSE_HEAD|..|CloseScript(timeout)| - |CLOSE_TAIL|], 10, I32_MAX)
              == Some(timeout as nat)
  {
    var d := RustInt.Decimal(timeout);
    var r := CLOSE_HEAD + d + CLOSE_TAIL;
    assert r[|CLOSE_HEAD|..|r| - |CLOSE_TAIL|] == d;
    RustInt.DecimalRoundTrip(timeout, I32_MAX);
  }

  const HTA_HEAD := "<html>\n<head>\n<meta charset=\"utf-8\">\n<title>"
  const HTA_APPLICATION :=
    "\n<HTA:APPLICATION\n\tSysMenu = \"no\"\n\tID = \"rustydialogsHTA\"\n"
    + "\tAPPLICATIONNAME = \"rustydialogs_notifyPopup\"\n\tMINIMIZEBUTTON = \"no\"\n"
    + "\tMAXIMIZEBUTTON = \"no\"\n\tBORDER = \"dialog\"\n\tSCROLL = \"no\"\n"
    + "\tSINGLEINSTANCE = \"yes\"\n\tWINDOWSTATE = \"hidden\">\n<script language=\"VBScript\">\n"
    + "intWidth = Screen.Width/4\nintHeight = Screen.Height/10\nResizeTo intWidth, intHeight\n"
    + "MoveTo Screen.Width * .7, Screen.Height * .8\n"
  const HTA_BODY :=
    "\n</script>\n</head>\n"
    + "<body style=\"background-color:#EEEEEE; font-family:Arial; margin:12px;\">\n<div><strong>"
  const HTA_LABEL_END := "</strong></div>\n<div>"
  const HTA_TAIL := "</div>\n</body>\n</html>\n"

  /** The page template with its four slots filled. */
  function Page(title: string, closeScript: string, iconLabel: string, message: string): string
  {
    HTA_HEAD + (title + AfterTitle(closeScript, iconLabel, message))
  }

  /** The template from the closing `</title>` on. */
  function AfterTitle(closeScript: string, iconLabel: string, message: string): (r: string)
    ensures |r| > 0 && r[0] == '<'
  {
    var r := "</title>" + (Middle(closeScript, iconLabel) + message + HTA_TAIL);
    assert r[0] == "</title>"[0];
    r
  }

  /** The template between the title and the message. */
  function Middle(closeScript: string, iconLabel: string): string
  {
    HTA_APPLICATION + closeScript + HTA_BODY + iconLabel + HTA_LABEL_END
  }

  /** Regrouping the page pieces so that the message and the closing tags
      come last. */
  lemma Regroup(a: string, b: string, c: string, d: string, e: string, f: string)
    ensures a + (b + (c + (d + e + f))) == a + (b + (c + d)) + e + f
  {
  }

  /** `s` ends with `suffix`. */
  predicate EndsWith(s: string, suffix: string)
  {
    |suffix| <= |s| && s[|s| - |suffix|..] == suffix
  }

  /** Slicing the last two pieces off a concatenation. */
  lemma SuffixSlices(s: string, front: string, body: string, tail: string)
    requires s == front + body + tail
    ensures EndsWith(s, body + tail)
  {
  }

  /** The page written for a popup. */
  function NotifyPage(p: NotifyPopup): string
  {
    Page(EscapeAll(p.title), CloseScript(p.timeout), IconLabel(p.icon), MessageMarkup(EscapeAll(p.message)))
  }

  /** The text up to the first `c`. */
  function TakeUntil(s: string, c: char): (r: string)
    ensures r <= s && c !in r
    decreases |s|
  {
    if |s| == 0 || s[0] == c then "" else [s[0]] + TakeUntil(s[1..], c)
  }

  lemma {:induction false} TakeUntilAppend(a: string, b: string, c: char)
    requires c !in a && |b| > 0 && b[0] == c
    ensures TakeUntil(a + b, c) == a
    decreases |a|
  {
    if |a| == 0 {
      assert a + b == b;
    } else {
      assert (a + b)[0] == a[0] && (a + b)[1..] == a[1..] + b;
      TakeUntilAppend(a[1..], b, c);
    }
  }

  /** The title element holds exactly the escaped title: the escaped text
      has no `<`, so the element ends at the template's own `</title>`, and
      the title reads back unchanged. */
  lemma TitleReadBack(p: NotifyPopup)
    ensures HTA_HEAD <= NotifyPage(p)
    ensures DecodeText(TakeUntil(NotifyPage(p)[|HTA_HEAD|..], '<')) == p.title
  {
    var title := EscapeAll(p.title);
    var rest := AfterTitle(CloseScript(p.timeout), IconLabel(p.icon), MessageMarkup(EscapeAll(p.message)));
    assert (HTA_HEAD + (title + rest))[|HTA_HEAD|..] == title + rest;
    NoRawSpecials(p.title);
    TakeUntilAppend(title, rest, '<');
    DecodeEscape(p.title);
  }

  /** The page ends with the rewritten message and the fixed closing tags,
      and the message reads back unchanged. */
  lemma MessageReadBack(p: NotifyPopup)
    ensures EndsWith(NotifyPage(p), MessageMarkup(EscapeAll(p.message)) + HTA_TAIL)
    ensures DecodeText(MessageMarkup(EscapeAll(p.message))) == p.message
  {
    var body := MessageMarkup(EscapeAll(p.message));
    var front := HTA_HEAD + (EscapeAll(p.title) + ("</title>" + Middle(CloseScript(p.timeout), IconLabel(p.icon))));
    Regroup(HTA_HEAD, EscapeAll(p.title), "</title>", Middle(CloseScript(p.timeout), IconLabel(p.icon)), body, HTA_TAIL);
    SuffixSlices(NotifyPage(p), front, body, HTA_TAIL);
    MessageRoundTrip(p.message);
  }

  const TEMP_PREFIX := "rustydialogs-notify-"

  /** The temporary file name `rustydialogs-notify-{pid}-{nanos}.hta`. */
  function TempFileName(pid: u32, nanos: nat): (r: string)
    ensures TEMP_PREFIX <= r && |r| >= |TEMP_PREFIX| + 4 && r[|r| - 4..] == ".hta"
  {
    TEMP_PREFIX + RustInt.Decimal(pid) + "-" + RustInt.Decimal(nanos) + ".hta"
  }

  /** Distinct process IDs or times give distinct file names, so two popups
      never write the same file unless both are equal. */
  lemma TempFileNameInjective(pid1: u32, nanos1: nat, pid2: u32, nanos2: nat)
    requires TempFileName(pid1, nanos1) == TempFileName(pid2, nanos2)
    ensures pid1 == pid2 && nanos1 == nanos2
  {
    var a1, b1 := RustInt.Decimal(pid1), RustInt.Decimal(nanos1);
    var a2, b2 := RustInt.Decimal(pid2), RustInt.Decimal(nanos2);
    var n1, n2 := TempFileName(pid1, nanos1), TempFileName(pid2, nanos2);
    assert n1[|TEMP_PREFIX|..|n1| - 4] == a1 + ['-'] + b1;
    assert n2[|TEMP_PREFIX|..|n2| - 4] == a2 + ['-'] + b2;
    SplitConcat(a1, b1, '-');
    SplitConcat(a2, b2, '-');
    SplitNoSep(a1, '-');
    SplitNoSep(b1, '-');
    SplitNoSep(a2, '-');
    SplitNoSep(b2, '-');
    assert [a1] + [b1] == [a2] + [b2];
    RustInt.DecimalInjective(pid1, pid2);
    RustInt.DecimalInjective(nanos1, nanos2);
  }

  /** `notify_popup`: the page goes to `tempDir` joined with the temporary
      name; `sinceEpoch` is the clock reading (`None` before the epoch,
      read as 0) and `written` whether `fs::write` succeeded. Only a
      written page is opened, with `mshta.exe`. */
  method NotifyPopup(p: NotifyPopup, tempDir: string, pid: u32, sinceEpoch: Option<nat>, written: bool)
    returns (path: string, page: string, command: Option<seq<string>>)
    ensures path == Paths.WinJoin(tempDir, TempFileName(pid, sinceEpoch.GetOr(0)))
    ensures page == NotifyPage(p)
    ensures command.Some? <==> written
    ensures command.Some? ==> command.value == ["mshta.exe", path]
  {
    path := Paths.WinJoin(tempDir, TempFileName(pid, sinceEpoch.GetOr(0)));
    var title := HtmlEscape(p.title);
    var escaped := HtmlEscape(p.message);
    var message := MessageMarkup(escaped);
    page := Page(title, CloseScript(p.timeout), IconLabel(p.icon), message);
    if !written {
      return path, page, None;
    }
    command := Some(["mshta.exe", path]);
  }
}

=== FILE: windows_input.dfy ===
/** The resizable text input dialog of src/windows/win32/input.rs: the
    template (DS_SETFONT header, placeholder control positions), the
    anchored layout `layout_controls` recomputes from the client size, the
    tracking limits of WM_GETMINMAXINFO and the height captured at
    WM_INITDIALOG. */
module WindowsInput {
  import opened Base
  import opened DialogTemplate
  import opened InputControls
  import Utf16
  import InputSession

  /** Buffer size, in UTF-16 units, the OK command reads the edit text into. */
  const TEXT_CAPACITY: nat := 32768

  // Client-area limits and layout measures, in pixels.
  const MIN_WIDTH: int := 300
  const MIN_HEIGHT_SINGLE: int := 120
  const MIN_HEIGHT_MULTI: int := 160
  const MARGIN: int := 12
  const BUTTON_W: int := 88
  const BUTTON_H: int := 26
  const LABEL_H: int := 16
  const EDIT_H_SINGLE: int := 22
  const BUTTON_GAP: int := 8

  // ---------------------------------------------------------------------
  // Template

  const DIALOG_STYLE: bv32 := WS_POPUP | WS_CAPTION | WS_SYSMENU | WS_THICKFRAME | WS_MINIMIZEBOX | WS_VISIBLE
                              | DS_CENTER | DS_SETFONT
  const LABEL_STYLE: bv32 := WS_CHILD | WS_VISIBLE
  const OK_STYLE: bv32 := WS_CHILD | WS_VISIBLE | WS_TABSTOP | BS_DEFPUSHBUTTON
  const CANCEL_STYLE: bv32 := WS_CHILD | WS_VISIBLE | WS_TABSTOP | BS_PUSHBUTTON

  /** The font point size the header asks for. */
  const POINT_SIZE: u16 := 9

  /** The font face the header names. */
  const FACE: string := "MS Shell Dlg 2"

  /** The edit box's style: multi-line flags with a vertical scroll bar, or
      horizontal scrolling; the password flag on request. */
  function EditStyle(multiline: bool, password: bool): bv32
  {
    WS_CHILD | WS_VISIBLE | WS_TABSTOP | WS_BORDER
    | (if multiline then ES_LEFT | ES_MULTILINE | ES_AUTOVSCROLL | ES_WANTRETURN | WS_VSCROLL else ES_LEFT | ES_AUTOHSCROLL)
    | (if password then ES_PASSWORD else 0)
  }

  /** The dialog is resizable and centred and carries a font; the edit box
      scrolls vertically only when multi-line and hides its text iff
      password; OK is always the default button. */
  lemma StyleFlags(multiline: bool, password: bool)
    ensures HasFlag(DIALOG_STYLE, WS_THICKFRAME) && HasFlag(DIALOG_STYLE, WS_MINIMIZEBOX)
    ensures HasFlag(DIALOG_STYLE, DS_CENTER) && HasFlag(DIALOG_STYLE, DS_SETFONT) && !HasFlag(DIALOG_STYLE, DS_MODALFRAME)
    ensures HasFlag(EditStyle(multiline, password), WS_VSCROLL) <==> multiline
    ensures HasFlag(EditStyle(multiline, password), ES_MULTILINE) <==> multiline
    ensures HasFlag(EditStyle(multiline, password), ES_AUTOHSCROLL) <==> !multiline
    ensures HasFlag(EditStyle(multiline, password), ES_PASSWORD) <==> password
    ensures HasFlag(OK_STYLE, BS_DEFPUSHBUTTON) && !HasFlag(CANCEL_STYLE, BS_DEFPUSHBUTTON)
  {
  }

  /** The four controls at their placeholder position (0, 0, 10, 10). */
  function Controls(multiline: bool, password: bool, ok: seq<u16>, cancel: seq<u16>): seq<Item>
  {
    [Item(LABEL_STYLE, 0, 0, 0, 10, 10, LABEL_ID, STATIC_CLASS, []),
     Item(EditStyle(multiline, password), 0, 0, 0, 10, 10, EDIT_ID, EDIT_CLASS, []),
     Item(OK_STYLE, 0, 0, 0, 10, 10, IDOK, BUTTON_CLASS, ok),
     Item(CANCEL_STYLE, 0, 0, 0, 10, 10, IDCANCEL, BUTTON_CLASS, cancel)]
  }

  /** The template the builder writes, as a value: 240 by 140 dialog units
      when multi-line, 240 by 60 otherwise. */
  function InputTemplate(title: seq<u16>, multiline: bool, password: bool, face: seq<u16>,
                         ok: seq<u16>, cancel: seq<u16>): Template
  {
    Template(DIALOG_STYLE, 0, 10, 10, 240, if multiline then 140 else 60, title, Some(Font(POINT_SIZE, face)),
             Controls(multiline, password, ok, cancel))
  }

  /** `build_input_dialog_template` as written: the header pushes, the
      title, the point size and face, then four `add_dialog_item` calls. */
  function BuildInputDialogTemplate(title: seq<u16>, multiline: bool, password: bool): seq<u8>
  {
    var header := FieldsBytes([U32F(Word(DIALOG_STYLE)), U32F(0), U16F(4), U16F(I16Bits(10)), U16F(I16Bits(10)),
                               U16F(I16Bits(240)), U16F(I16Bits(if multiline then 140 else 60)), U16F(0), U16F(0)]);
    var d0 := PushUtf16z(PushU16(PushUtf16z(header, title), POINT_SIZE), Utf16.NullTerminated(FACE));
    var d1 := AddDialogItem(d0, LABEL_STYLE, 0, 0, 0, 10, 10, LABEL_ID, STATIC_CLASS, []);
    var d2 := AddDialogItem(d1, EditStyle(multiline, password), 0, 0, 0, 10, 10, EDIT_ID, EDIT_CLASS, []);
    var d3 := AddDialogItem(d2, OK_STYLE, 0, 0, 0, 10, 10, IDOK, BUTTON_CLASS, Utf16.NullTerminated("OK"));
    AddDialogItem(d3, CANCEL_STYLE, 0, 0, 0, 10, 10, IDCANCEL, BUTTON_CLASS, Utf16.NullTerminated("Cancel"))
  }

  /** The template value with the strings the builder is given. */
  function Written(title: seq<u16>, multiline: bool, password: bool): Template
  {
    InputTemplate(title, multiline, password, Utf16.NullTerminated(FACE),
                  Utf16.NullTerminated("OK"), Utf16.NullTerminated("Cancel"))
  }

  /** The pushes write exactly the serialisation of the template value. */
  lemma BuildIsSerialize(title: seq<u16>, multiline: bool, password: bool)
    ensures BuildInputDialogTemplate(title, multiline, password) == Serialize(Written(title, multiline, password))
  {
    var t := Written(title, multiline, password);
    BuildHeaderLayout(t);
    var d0 := BuildHeader(t);
    AddDialogItemLayout(d0, t.items[0]);
    var d1 := AddItem(d0, t.items[0]);
    AddDialogItemLayout(d1, t.items[1]);
    var d2 := AddItem(d1, t.items[1]);
    AddDialogItemLayout(d2, t.items[2]);
    var d3 := AddItem(d2, t.items[2]);
    AddDialogItemLayout(d3, t.items[3]);
    AddItemsFour(HeaderBytes(t), t.items);
  }

  /** The face name is written unambiguously and reads back as its text. */
  lemma FaceReads()
    ensures Terminable(Utf16.NullTerminated(FACE))
    ensures StripNul(Utf16.NullTerminated(FACE)) == Utf16.Encode(FACE)
  {
    TitleTerminable(FACE);
  }

  /** With terminable title and face and the terminated button texts, the
      template value is well formed and reads back with its strings
      without terminators. */
  lemma TemplateReads(title: seq<u16>, multiline: bool, password: bool, face: seq<u16>, ok: seq<u16>, cancel: seq<u16>)
    requires Terminable(title) && Terminable(face) && ok == OK_TEXT + [0] && cancel == CANCEL_TEXT + [0]
    ensures WellFormed(InputTemplate(title, multiline, password, face, ok, cancel))
    ensures Canonical(InputTemplate(title, multiline, password, face, ok, cancel))
         == InputTemplate(StripNul(title), multiline, password, StripNul(face), OK_TEXT, CANCEL_TEXT)
  {
    var items := Controls(multiline, password, ok, cancel);
    ControlsWellFormed(items);
    ControlsRead(items);
    StyleFlags(multiline, password);
  }

  /** The bytes read back as the template, strings without terminators. */
  lemma ParseBuild(title: seq<u16>, multiline: bool, password: bool)
    requires Terminable(title)
    ensures Parse(BuildInputDialogTemplate(title, multiline, password))
         == Some(InputTemplate(StripNul(title), multiline, password, Utf16.Encode(FACE), OK_TEXT, CANCEL_TEXT))
  {
    BuildIsSerialize(title, multiline, password);
    CaptionUnits();
    FaceReads();
    TemplateReads(title, multiline, password, Utf16.NullTerminated(FACE),
                  Utf16.NullTerminated("OK"), Utf16.NullTerminated("Cancel"));
    ParseSerialize(Written(title, multiline, password));
  }

  /** What a reader of the bytes finds: DS_SETFONT with 9-point "MS Shell
      Dlg 2", four controls, 240 dialog units wide and 140 high when
      multi-line or 60 otherwise, the OK button the default one. */
  lemma TemplateReadBack(title: seq<u16>, multiline: bool, password: bool)
    requires Terminable(title)
    ensures var r := Parse(BuildInputDialogTemplate(title, multiline, password));
            r.Some? && HasFlag(r.value.style, DS_SETFONT) && r.value.font == Some(Font(9, Utf16.Encode(FACE)))
            && |r.value.items| == 4 && r.value.cx == 240 && r.value.cy == (if multiline then 140 else 60)
            && r.value.title == StripNul(title)
            && r.value.items[1].id == EDIT_ID && r.value.items[2].id == IDOK && r.value.items[3].id == IDCANCEL
            && (HasFlag(r.value.items[1].style, WS_VSCROLL) <==> multiline)
            && (HasFlag(r.value.items[1].style, ES_PASSWORD) <==> password)
            && HasFlag(r.value.items[2].style, BS_DEFPUSHBUTTON)
  {
    ParseBuild(title, multiline, password);
    FaceReads();
    StyleFlags(multiline, password);
  }

  // ---------------------------------------------------------------------
  // Layout

  /** A control's placement in client coordinates. */
  datatype Rect = Rect(x: int, y: int, w: int, h: int)

  datatype Layout = Layout(prompt: Rect, edit: Rect, ok: Rect, cancel: Rect)

  /** `layout_controls` for a client area `w` by `h` pixels: the label
      along the top, the buttons in the bottom-right corner, the edit box
      under the label, stretched down to the buttons when multi-line. */
  function LayoutControls(w: int, h: int, multiline: bool): Layout
  {
    var btnY := h - MARGIN - BUTTON_H;
    var cancelX := w - MARGIN - BUTTON_W;
    var okX := cancelX - BUTTON_GAP - BUTTON_W;
    var editTop := MARGIN + LABEL_H + 6;
    var editH := if multiline then btnY - editTop - MARGIN else EDIT_H_SINGLE;
    Layout(Rect(MARGIN, MARGIN, w - 2 * MARGIN, LABEL_H),
           Rect(MARGIN, editTop, w - 2 * MARGIN, if editH >= EDIT_H_SINGLE then editH else EDIT_H_SINGLE),
           Rect(okX, btnY, BUTTON_W, BUTTON_H),
           Rect(cancelX, btnY, BUTTON_W, BUTTON_H))
  }

  /** Where the controls land: label at (12, 12), width w−24; buttons
      88 by 26 on row h−38, Cancel at w−100 and OK 96 to its left; the edit
      box at top 34 with width w−24, at least 22 high, filling down to the
      buttons when multi-line and 22 high otherwise. */
  lemma LayoutPositions(w: int, h: int, multiline: bool)
    ensures var l := LayoutControls(w, h, multiline);
            l.prompt == Rect(12, 12, w - 24, 16)
            && l.ok == Rect(w - 196, h - 38, 88, 26) && l.cancel == Rect(w - 100, h - 38, 88, 26)
            && l.edit.x == 12 && l.edit.y == 34 && l.edit.w == w - 24 && l.edit.h >= 22
            && (multiline ==> l.edit.h == if h - 84 >= 22 then h - 84 else 22)
            && (!multiline ==> l.edit.h == 22)
  {
  }

  /** The anchoring the layout promises: the label and the edit box keep a
      12-pixel margin on the left and right; Cancel keeps 12 pixels to the
      right and bottom edges, OK sits 8 pixels left of Cancel on the same
      row; a multi-line edit box tall enough ends 12 pixels above the
      buttons. */
  lemma LayoutAnchors(w: int, h: int, multiline: bool)
    ensures var l := LayoutControls(w, h, multiline);
            l.prompt.x == MARGIN && l.prompt.x + l.prompt.w == w - MARGIN
            && l.edit.x == MARGIN && l.edit.x + l.edit.w == w - MARGIN
            && l.cancel.x + l.cancel.w == w - MARGIN && l.cancel.y + l.cancel.h == h - MARGIN
            && l.ok.x + l.ok.w + BUTTON_GAP == l.cancel.x && l.ok.y == l.cancel.y
            && l.edit.y == l.prompt.y + l.prompt.h + 6
            && (multiline && h - 84 >= EDIT_H_SINGLE ==> l.edit.y + l.edit.h + MARGIN == l.ok.y)
  {
  }

  /** Resizing the client area by (dw, dh) moves the buttons by exactly
      that much, keeps the label and the edit box where they start, and
      widens both by dw. */
  lemma LayoutResize(w: int, h: int, dw: int, dh: int, multiline: bool)
    ensures var a := LayoutControls(w, h, multiline);
            var b := LayoutControls(w + dw, h + dh, multiline);
            b.ok == a.ok.(x := a.ok.x + dw, y := a.ok.y + dh)
            && b.cancel == a.cancel.(x := a.cancel.x + dw, y := a.cancel.y + dh)
            && b.prompt == a.prompt.(w := a.prompt.w + dw)
            && b.edit.x == a.edit.x && b.edit.y == a.edit.y && b.edit.w == a.edit.w + dw
            && (!multiline ==> b.edit.h == a.edit.h)
  {
  }

  // ---------------------------------------------------------------------
  // Window size limits

  /** The dialog's state as the window procedure sees it. */
  datatype State = State(multiline: bool, fixedHeight: int, result: Option<string>)

  /** The tracking limits WM_GETMINMAXINFO writes; `maxHeight` is None
      when the maximum is left as the system set it. */
  datatype Limits = Limits(minWidth: int, minHeight: int, maxHeight: Option<int>)

  /** WM_GETMINMAXINFO. `state` is None before WM_INITDIALOG has stored
      the state pointer; such a window is treated as single-line. */
  function MinMaxInfo(state: Option<State>): Limits
  {
    var multiline := state.Some? && state.value.multiline;
    var minH := if multiline then MIN_HEIGHT_MULTI else MIN_HEIGHT_SINGLE;
    if multiline then Limits(MIN_WIDTH, minH, None)
    else
      var fixedH := if state.Some? && state.value.fixedHeight > 0 then state.value.fixedHeight else minH;
      Limits(MIN_WIDTH, fixedH, Some(fixedH))
  }

  /** Multi-line dialogs have a minimum of 300 by 160 and no maximum;
      single-line ones are 300 wide at least and locked to one height: the
      captured height when positive, 120 otherwise. */
  lemma MinMaxLimits(state: Option<State>)
    ensures var l := MinMaxInfo(state);
            l.minWidth == 300
            && (state.Some? && state.value.multiline ==> l.minHeight == 160 && l.maxHeight.None?)
            && (!(state.Some? && state.value.multiline) ==>
                  l.maxHeight == Some(l.minHeight)
                  && l.minHeight == (if state.Some? && state.value.fixedHeight > 0 then state.value.fixedHeight else 120))
  {
  }

  /** WM_INITDIALOG after the texts are set and the controls laid out: a
      single-line dialog captures its whole window height. */
  function OnInitDialog(s: State, windowHeight: int): State
  {
    if !s.multiline then s.(fixedHeight := windowHeight) else s
  }

  /** `text_input`'s initial state: nothing captured, no result. */
  function Initial(multiline: bool): State { State(multiline, 0, None) }

  /** The height is captured only in single-line mode, so a multi-line
      dialog is never locked; a single-line dialog with a positive window
      height is locked to exactly that height. */
  lemma InitLocksSingleLine(multiline: bool, windowHeight: int)
    ensures var s := OnInitDialog(Initial(multiline), windowHeight);
            (multiline ==> s.fixedHeight == 0 && MinMaxInfo(Some(s)).maxHeight.None?)
            && (!multiline && windowHeight > 0 ==>
                  MinMaxInfo(Some(s)).minHeight == windowHeight && MinMaxInfo(Some(s)).maxHeight == Some(windowHeight))
  {
  }

  // ---------------------------------------------------------------------
  // Result

  /** `text_input`: the text comes back only from an OK that ended the
      dialog, read through a 32768-unit buffer. */
  function TextInput(moduleHandle: bool, cmds: seq<InputSession.Command>): Option<string>
  {
    InputSession.TextInput(moduleHandle, cmds, TEXT_CAPACITY)
  }

  /** Text comes back exactly when the first OK or Cancel is OK, and is
      then the edit text at that OK cut to 32767 units. */
  lemma TextInputResult(moduleHandle: bool, cmds: seq<InputSession.Command>)
    ensures var r := TextInput(moduleHandle, cmds);
            r.Some? <==> moduleHandle && exists j :: InputSession.FirstEnding(cmds, 0) == Some(j)
                                                  && InputSession.CommandId(cmds[j].wparam) == IDOK
    ensures var r := TextInput(moduleHandle, cmds);
            r.Some? ==> exists j :: 0 <= j < |cmds| && InputSession.CommandId(cmds[j].wparam) == IDOK
                          && r.value == Utf16.DecodeLossy(InputSession.ReadEdit(cmds[j].edit, TEXT_CAPACITY))
                          && |InputSession.ReadEdit(cmds[j].edit, TEXT_CAPACITY)| < TEXT_CAPACITY
  {
    InputSession.TextInputFirstEnding(moduleHandle, cmds, TEXT_CAPACITY);
  }
}

=== FILE: zenity.dfy ===
/** The zenity adapter (src/linux/zenity.rs): argument vectors built from a
    request, and the interpretation of the helper's exit status and stdout.
    Spawning the process is not modelled; its exit status and captured output
    are inputs. */
module Zenity {
  import opened Base
  import opened Utils
  import opened Text
  import opened Paths
  import opened Dialogs
  import opened Helpers
  import LinuxBackend

  /* ---------- message box ---------- */

  function IconFlag(icon: MessageIcon): string
  {
    match icon
    case Info => "--info"
    case Warning => "--warning"
    case Error => "--error"
    case Question => "--question"
  }

  /** The button arguments: the accepting button relabelled, every other
      button added as an extra button. */
  function ButtonArgs(b: MessageButtons): seq<string>
  {
    match b
    case Ok => ["--ok-label", "OK"]
    case OkCancel => ["--ok-label", "OK", "--extra-button", "Cancel"]
    case YesNo => ["--ok-label", "Yes", "--extra-button", "No"]
    case YesNoCancel => ["--ok-label", "Yes", "--extra-button", "Cancel", "--extra-button", "No"]
  }

  function MessageArgs(p: MessageBox): (r: seq<string>)
    ensures |r| == 5 + 2 * |Members(p.buttons)|
    ensures r[..4] == ["--title", p.title, "--text", p.message]
    ensures r[4] == IconFlag(p.icon) && r[5..] == ButtonArgs(p.buttons)
  {
    ButtonsCoverMembers(p.buttons);
    ["--title", p.title, "--text", p.message, IconFlag(p.icon)] + ButtonArgs(p.buttons)
  }

  /** One button per member of the set: flag/label pairs, the first pair the
      relabelled OK button carrying the accepting caption, and every caption
      reads back to a distinct member. */
  lemma ButtonsCoverMembers(b: MessageButtons)
    ensures |ButtonArgs(b)| == 2 * |Members(b)|
    ensures ButtonArgs(b)[0] == "--ok-label" && ButtonArgs(b)[1] == Label(Affirmative(b))
    ensures forall k :: 1 <= k < |Members(b)| ==> ButtonArgs(b)[2 * k] == "--extra-button"
    ensures forall k :: 0 <= k < |Members(b)| ==>
      FromLabel(ButtonArgs(b)[2 * k + 1]).Some? && FromLabel(ButtonArgs(b)[2 * k + 1]).value in Members(b)
    ensures forall m :: m in Members(b) ==>
      exists k :: 0 <= k < |Members(b)| && ButtonArgs(b)[2 * k + 1] == Label(m)
  {
    match b
    case Ok =>
      assert Members(b) == {MessageResult.Ok};
      assert ButtonArgs(b)[2 * 0 + 1] == Label(MessageResult.Ok);
    case OkCancel =>
      assert |Members(b)| == 2;
      assert ButtonArgs(b)[2 * 0 + 1] == Label(MessageResult.Ok);
      assert ButtonArgs(b)[2 * 1 + 1] == Label(MessageResult.Cancel);
    case YesNo =>
      assert |Members(b)| == 2;
      assert ButtonArgs(b)[2 * 0 + 1] == Label(MessageResult.Yes);
      assert ButtonArgs(b)[2 * 1 + 1] == Label(MessageResult.No);
    case YesNoCancel =>
      assert |Members(b)| == 3;
      assert ButtonArgs(b)[2 * 0 + 1] == Label(MessageResult.Yes);
      assert ButtonArgs(b)[2 * 1 + 1] == Label(MessageResult.Cancel);
      assert ButtonArgs(b)[2 * 2 + 1] == Label(MessageResult.No);
  }

  /** `message_box` as written: exit codes other than 0 and 1 are fatal, and
      the trimmed stdout is read as a caption, anything else counting as OK. */
  function MessageResultAsWritten(status: Option<i32>, output: string): (r: Outcome<Option<MessageResult>>)
    ensures r.Panic? <==> !(status == Some(0) || status == Some(1))
    ensures r.Panic? ==> r.message == LinuxBackend.ExitStatusMessage(status)
    ensures r.Done? ==> r.value.Some?
    ensures r.Done? && FromLabel(Trim(output)).Some? ==> r.value == FromLabel(Trim(output))
    ensures r.Done? && FromLabel(Trim(output)).None? ==> r.value == Some(MessageResult.Ok)
  {
    if !(status == Some(0) || status == Some(1)) then Panic(LinuxBackend.ExitStatusMessage(status))
    else
      var t := Trim(output);
      if t == "OK" then Done(Some(MessageResult.Ok))
      else if t == "Cancel" then Done(Some(MessageResult.Cancel))
      else if t == "Yes" then Done(Some(MessageResult.Yes))
      else if t == "No" then Done(Some(MessageResult.No))
      else Done(Some(MessageResult.Ok))
  }

  /** zenity prints nothing for its OK button and for a closed window, so the
      as-written mapping reports OK both when Yes is pressed in a Yes/No box
      (a result outside the button set) and when the window is closed
      (documented to give no result on Linux). */
  lemma MessageResultAsWrittenMisreads()
    ensures MessageResultAsWritten(Some(0), "") == Done(Some(MessageResult.Ok))
    ensures MessageResult.Ok !in Members(YesNo)
    ensures MessageResultAsWritten(Some(1), "") == Done(Some(MessageResult.Ok))
  {
    assert Trim("") == "";
  }

  /** The evidently intended mapping: exit 0 is the accepting button, exit 1
      with the caption of one of the set's buttons is that button, and exit 1
      without one is a dismissal. */
  function ReadMessageResult(b: MessageButtons, status: Option<i32>, output: string): (r: Outcome<Option<MessageResult>>)
    ensures r.Panic? <==> !(status == Some(0) || status == Some(1))
    ensures r.Panic? ==> r.message == LinuxBackend.ExitStatusMessage(status)
    ensures r.Done? && r.value.Some? ==> r.value.value in Members(b)
    ensures status == Some(0) ==> r == Done(Some(Affirmative(b)))
    ensures status == Some(1) && Trim(output) == "" ==> r == Done(None)
  {
    if !(status == Some(0) || status == Some(1)) then Panic(LinuxBackend.ExitStatusMessage(status))
    else if status == Some(0) then Done(Some(Affirmative(b)))
    else
      match FromLabel(Trim(output))
      case Some(m) => if m in Members(b) then Done(Some(m)) else Done(None)
      case None => Done(None)
  }

  /** Every extra button shown for a set is read back as itself. */
  lemma ExtraButtonsReadBack(b: MessageButtons, m: MessageResult)
    requires m in Members(b)
    ensures ReadMessageResult(b, Some(1), Label(m)) == Done(Some(m))
  {
    var l := Label(m);
    assert !IsWhitespace(l[0]) && !IsWhitespace(l[|l| - 1]) by {
      match m
      case Ok => assert l == "OK";
      case Cancel => assert l == "Cancel";
      case Yes => assert l == "Yes";
      case No => assert l == "No";
    }
    assert Trim(l) == l;
  }

  /* ---------- file and folder dialogs ---------- */

  /** One `"desc | p1 p2"` entry per filter, in order. */
  function FilterEntries(filters: seq<FileFilter>): (r: seq<string>)
    ensures |r| == |filters|
    ensures forall k :: 0 <= k < |r| ==> r[k] == filters[k].desc + " | " + Join(filters[k].patterns, " ")
    decreases |filters|
  {
    if |filters| == 0 then []
    else [filters[0].desc + " | " + Join(filters[0].patterns, " ")] + FilterEntries(filters[1..])
  }

  /** `filter_strings`: the filters' entries, then the catch-all entry. */
  function FilterStrings(filter: Option<seq<FileFilter>>): (r: seq<string>)
    ensures |r| == (if filter.Some? then |filter.value| else 0) + 1
    ensures r[|r| - 1] == "All Files (*) | *"
    ensures filter.Some? ==> r[..|filter.value|] == FilterEntries(filter.value)
  {
    match filter
    case Some(fs) => FilterEntries(fs) + ["All Files (*) | *"]
    case None => ["All Files (*) | *"]
  }

  /** A filter's entry gives back its description and, split at spaces, its
      patterns, when no pattern is empty or holds a space. */
  lemma FilterEntryReadBack(f: FileFilter)
    requires |f.patterns| >= 1
    requires forall i :: 0 <= i < |f.patterns| ==> ' ' !in f.patterns[i]
    ensures StripPrefix(FilterEntries([f])[0], f.desc + " | ") == Some(Join(f.patterns, " "))
    ensures Split(Join(f.patterns, " "), ' ') == f.patterns
  {
    var e := FilterEntries([f])[0];
    assert e == (f.desc + " | ") + Join(f.patterns, " ");
    assert e[|f.desc + " | "|..] == Join(f.patterns, " ");
    SplitJoin(f.patterns, ' ');
  }

  /** Flag/value pairs, one `--file-filter` per entry. */
  function FilterArgs(entries: seq<string>): (r: seq<string>)
    ensures |r| == 2 * |entries|
    decreases |entries|
  {
    if |entries| == 0 then [] else ["--file-filter", entries[0]] + FilterArgs(entries[1..])
  }

  /** Pair k is the flag followed by entry k. */
  lemma {:induction false} FilterArgsAt(entries: seq<string>)
    ensures forall k :: 0 <= k < |entries| ==>
              FilterArgs(entries)[2 * k] == "--file-filter" && FilterArgs(entries)[2 * k + 1] == entries[k]
    decreases |entries|
  {
    if |entries| > 0 {
      var rest := FilterArgs(entries[1..]);
      FilterArgsAt(entries[1..]);
      assert FilterArgs(entries) == ["--file-filter", entries[0]] + rest;
      forall k | 1 <= k < |entries|
        ensures FilterArgs(entries)[2 * k] == "--file-filter" && FilterArgs(entries)[2 * k + 1] == entries[k]
      {
        assert entries[1..][k - 1] == entries[k];
        assert FilterArgs(entries)[2 * k] == rest[2 * (k - 1)];
        assert FilterArgs(entries)[2 * k + 1] == rest[2 * (k - 1) + 1];
      }
    }
  }

  /** Arguments of the open dialog; `multiple` asks for newline-separated
      output. */
  function PickArgs(p: FileDialog, multiple: bool): seq<string>
  {
    ["--file-selection", "--title", p.title, "--filename", FilePath(p.directory, p.fileName)]
    + (if multiple then ["--multiple", "--separator", "\n"] else [])
    + FilterArgs(FilterStrings(p.filter))
  }

  /** Multi-selection only inserts the three separator arguments after the
      initial path, and every filter entry is passed after its flag. */
  lemma PickArgsShape(p: FileDialog)
    ensures PickArgs(p, true) == PickArgs(p, false)[..5] + ["--multiple", "--separator", "\n"] + PickArgs(p, false)[5..]
    ensures PickArgs(p, false)[4] == FilePath(p.directory, p.fileName)
    ensures PickArgs(p, false)[5..] == FilterArgs(FilterStrings(p.filter))
  {
  }

  function SaveArgs(p: FileDialog): (r: seq<string>)
    ensures |r| >= 7 && r[6] == FilePath(p.directory, p.fileName)
    ensures r[7..] == FilterArgs(FilterStrings(p.filter))
  {
    ["--file-selection", "--save", "--confirm-overwrite", "--title", p.title, "--filename", FilePath(p.directory, p.fileName)]
    + FilterArgs(FilterStrings(p.filter))
  }

  function FolderArgs(p: FolderDialog): (r: seq<string>)
    ensures |r| == 6 && r[5] == FolderPath(p.directory)
  {
    ["--file-selection", "--directory", "--title", p.title, "--filename", FolderPath(p.directory)]
  }

  /* ---------- text input ---------- */

  /** Arguments per mode; the multi-line mode edits a temporary file holding
      the initial value, whose path is a parameter here, and the password
      mode does not pass the initial value at all. */
  function TextInputArgs(p: TextInput, tempPath: string): (r: seq<string>)
    ensures |r| >= 5
    ensures p.mode == SingleLine ==> |r| == 7 && r[0] == "--entry" && r[6] == p.value
    ensures p.mode == SingleLine ==> r[1] == "--title" && r[2] == p.title && r[3] == "--text" && r[4] == p.message
                                     && r[5] == "--entry-text"
    ensures p.mode == MultiLine ==> |r| == 6 && r[0] == "--text-info" && r[5] == tempPath
    ensures p.mode == MultiLine ==> r[1] == "--editable" && r[2] == "--title" && r[3] == p.title && r[4] == "--filename"
    ensures p.mode == Password ==> r == ["--password", "--title", p.title, "--text", p.message]
  {
    match p.mode
    case SingleLine => ["--entry", "--title", p.title, "--text", p.message, "--entry-text", p.value]
    case MultiLine => ["--text-info", "--editable", "--title", p.title, "--filename", tempPath]
    case Password => ["--password", "--title", p.title, "--text", p.message]
  }

  /** Exit 0 returns the captured stdout unchanged; anything else, or a
      failed write of the multi-line temporary file, is a cancel. */
  function TextInputResult(mode: TextInputMode, tempWritten: bool, status: Option<i32>, output: string): (r: Option<string>)
    ensures r.Some? <==> status == Some(0) && (mode == MultiLine ==> tempWritten)
    ensures r.Some? ==> r.value == output
  {
    if mode == MultiLine && !tempWritten then None
    else if status == Some(0) then Some(output) else None
  }

  /* ---------- colour ---------- */

  function ColorArgs(p: ColorPicker): (r: seq<string>)
    ensures |r| == 5 && r[4] == FormatColor(p.value)
  {
    ["--color-selection", "--title", p.title, "--color", FormatColor(p.value)]
  }

  /** The three comma-separated fields of `rgb(...)`, each trimmed and parsed
      as a decimal `u8`; more or fewer than three fields is rejected. */
  function ParseRgb(inner: string): (r: Option<ColorValue>)
    ensures var parts := Split(inner, ',');
      r.Some? <==> (|parts| == 3 && RustInt.Accepts(Trim(parts[0]), 10, 255)
        && RustInt.Accepts(Trim(parts[1]), 10, 255) && RustInt.Accepts(Trim(parts[2]), 10, 255))
    ensures var parts := Split(inner, ',');
      r.Some? ==> (|parts| == 3
        && Some(r.value.red as nat) == RustInt.ParseUnsigned(Trim(parts[0]), 10, 255)
        && Some(r.value.green as nat) == RustInt.ParseUnsigned(Trim(parts[1]), 10, 255)
        && Some(r.value.blue as nat) == RustInt.ParseUnsigned(Trim(parts[2]), 10, 255))
  {
    var parts := Split(inner, ',');
    if |parts| != 3 then None
    else
      var red := RustInt.ParseUnsigned(Trim(parts[0]), 10, 255);
      var green := RustInt.ParseUnsigned(Trim(parts[1]), 10, 255);
      var blue := RustInt.ParseUnsigned(Trim(parts[2]), 10, 255);
      if red.Some? && green.Some? && blue.Some? then Some(ColorValue(red.value, green.value, blue.value))
      else None
  }

  /** `parse_color`: after trimming, the `rgb(r, g, b)` form when the text is
      wrapped in `rgb(` and `)`, the hex form otherwise. */
  function ParseColor(output: string): (r: Option<ColorValue>)
    ensures !("rgb(" <= Trim(output)) ==> r == ParseHex(Trim(output))
  {
    var value := Trim(output);
    match StripPrefix(value, "rgb(")
    case Some(v) =>
      (match StripSuffix(v, ")")
       case Some(inner) => ParseRgb(inner)
       case None => ParseHex(value))
    case None => ParseHex(value)
  }

  /** The colour the picker is seeded with is read back unchanged. */
  lemma ParseColorOfFormat(c: ColorValue)
    ensures ParseColor(FormatColor(c)) == Some(c)
  {
    var f := FormatColor(c);
    assert !IsWhitespace(f[0]);
    assert f[6] == RustInt.Hex2(c.blue)[1];
    assert !IsWhitespace(f[6]) by { assert RustInt.IsDigit(f[6], 16); }
    assert Trim(f) == f;
    assert !("rgb(" <= f) by { assert f[0] == '#'; }
    HexColorRoundTrip(c, 0);
  }

  /** zenity's `rgb(r,g,b)` output, with or without spaces after the commas,
      reads back as the three channels. */
  lemma ParseColorOfRgb(c: ColorValue, sp: string)
    requires sp == "" || sp == " "
    ensures ParseColor("rgb(" + RgbInner(c, sp) + ")") == Some(c)
  {
    ParseColorOfWrapped(RgbInner(c, sp));
    ParseRgbOfInner(c, sp);
  }

  /** Output of the form `rgb(...)` is read by the `rgb` branch, whatever
      lies between the parentheses. */
  lemma ParseColorOfWrapped(inner: string)
    ensures ParseColor("rgb(" + inner + ")") == ParseRgb(inner)
  {
    var s := "rgb(" + inner + ")";
    assert s[0] == 'r' && s[|s| - 1] == ')';
    assert Trim(s) == s;
    assert s == "rgb(" + (inner + ")");
    assert StripPrefix(s, "rgb(") == Some(inner + ")");
    assert StripSuffix(inner + ")", ")") == Some(inner);
  }

  /** The text between the parentheses of zenity's `rgb(...)` output. */
  function RgbInner(c: ColorValue, sp: string): string
  {
    RustInt.Decimal(c.red) + "," + sp + RustInt.Decimal(c.green) + "," + sp + RustInt.Decimal(c.blue)
  }

  lemma ParseRgbOfInner(c: ColorValue, sp: string)
    requires sp == "" || sp == " "
    ensures ParseRgb(RgbInner(c, sp)) == Some(c)
  {
    var r, g, b := RustInt.Decimal(c.red), RustInt.Decimal(c.green), RustInt.Decimal(c.blue);
    SplitThreeFields(r, g, b, sp);
    ChannelReads(c.red, "");
    assert "" + r == r;
    ChannelReads(c.green, sp);
    ChannelReads(c.blue, sp);
    ParseRgbOfFields(RgbInner(c, sp), r, sp + g, sp + b, c);
  }

  /** Three fields that parse as the channels read back as the colour. */
  lemma ParseRgbOfFields(inner: string, f0: string, f1: string, f2: string, c: ColorValue)
    requires Split(inner, ',') == [f0, f1, f2]
    requires RustInt.ParseUnsigned(Trim(f0), 10, 255) == Some(c.red as nat)
    requires RustInt.ParseUnsigned(Trim(f1), 10, 255) == Some(c.green as nat)
    requires RustInt.ParseUnsigned(Trim(f2), 10, 255) == Some(c.blue as nat)
    ensures ParseRgb(inner) == Some(c)
  {
  }

  /** One channel, after an optional space, reads back as its value. */
  lemma ChannelReads(x: u8, sp: string)
    requires sp == "" || sp == " "
    ensures RustInt.ParseUnsigned(Trim(sp + RustInt.Decimal(x)), 10, 255) == Some(x as nat)
  {
    DecimalTrim(RustInt.Decimal(x), sp);
    RustInt.DecimalRoundTrip(x as nat, 255);
  }

  /** `color_picker`: a non-zero exit is a cancel; otherwise the output must
      parse, and an unparsable colour is fatal. */
  function ColorResult(status: Option<i32>, output: string): (r: Outcome<Option<ColorValue>>)
    ensures r.Panic? <==> status == Some(0) && ParseColor(output).None?
    ensures r.Panic? ==> r.message == "zenity color_picker returned invalid color: " + output
    ensures r.Done? ==> (r.value.Some? <==> status == Some(0))
    ensures r.Done? && r.value.Some? ==> Some(r.value.value) == ParseColor(output)
  {
    if status != Some(0) then Done(None)
    else
      match ParseColor(output)
      case Some(c) => Done(Some(c))
      case None => Panic("zenity color_picker returned invalid color: " + output)
  }

  /* ---------- notification ---------- */

  /** `timeout_seconds`: none for a timeout that never expires, otherwise
      the whole seconds that cover it. */
  function TimeoutSeconds(ms: i32): (r: Option<nat>)
    ensures r.None? <==> ms <= 0
    ensures r.Some? ==> (r.value - 1) * 1000 < ms as int <= r.value * 1000
  {
    if ms <= 0 then None else Some(CeilSeconds(ms as int))
  }

  /** Arguments of `notify_popup`: title and message on two lines, plus a
      timeout argument exactly when the popup closes by itself. */
  function NotifyArgs(p: NotifyPopup): (r: seq<string>)
    ensures |r| >= 5 && r[..5] == ["--notification", "--icon", NotifyIcon(p.icon), "--text", p.title + "\n" + p.message]
    ensures |r| == 6 <==> AutoCloses(p)
    ensures |r| == 5 <==> !AutoCloses(p)
    ensures AutoCloses(p) ==> r[5] == "--timeout=" + RustInt.Decimal(TimeoutSeconds(p.timeout).value)
  {
    var args := ["--notification", "--icon", NotifyIcon(p.icon), "--text", p.title + "\n" + p.message];
    match TimeoutSeconds(p.timeout)
    case Some(t) => args + ["--timeout=" + RustInt.Decimal(t)]
    case None => args
  }

  lemma TimeoutExamples()
    ensures TimeoutSeconds(2500) == Some(3)
    ensures TimeoutSeconds(1000) == Some(1)
    ensures TimeoutSeconds(1) == Some(1)
    ensures TimeoutSeconds(0) == None && TimeoutSeconds(-5) == None
  {
  }
}
